=== FILE: README.md ===
# MiniKotlin line interpreter, modelled in Dafny

MiniKotlin reads one line at a time and runs it against a store of named
variables. A line is a declaration `var x = e`, a `print(e)`, a one-line
`if(c){s}else t`, a `while(c){s1; s2; ...}`, a call of one of five built-in
integer algorithms (`factorial(5)`, `gcd(12,18)`, ...), or one of the words
`list`, `help`, `methods`, `exit`. Values are 32-bit Java `int`s or strings.
Right-hand sides are an integer literal, a quoted string, or one binary
operation `a op b` whose operands are variables or literals. Conditions are
one comparison `a op b`.

The model is functional. The store is a `map<string, Value>`. Every
operation is a pure function that returns the new store, the lines printed,
and how the line ended: `Done`, `Failed(e)` where Java throws, or `OutOfFuel`
where a `while` loop would still be running after its iteration budget.

| file | module | models |
|---|---|---|
| `errors.dfy` | `Errors` | the exceptions the code throws, and `Result`/`Option` |
| `java_int.dfy` | `JavaInt` | `int` wrap-around and truncating `/` and `%` |
| `java_string.dfy` | `JavaString` | `indexOf`, `lastIndexOf`, `substring`, `trim`, `split` with a literal separator, `Integer.parseInt`, `Integer.toString`, and the regular expressions `-?\d+` and `".*"` |
| `digits.dfy` | `Digits` | the decimal text of a number: the reference the digit algorithms are stated against |
| `variable_storage.dfy` | `VariableStorage` | `VariableStorage` |
| `operands.dfy` | `Operands` | the operator loop and `getOperandValue` shared by both evaluators |
| `arithmetic_evaluator.dfy` | `ArithmeticEvaluator` | `ArithmeticEvaluator` |
| `comparison_evaluator.dfy` | `ComparisonEvaluator` | `ComparisonEvaluator` |
| `algorithms.dfy` | `Algorithms` | all ten methods of `Algorithms` |
| `reader.dfy` | `Reader` | `Reader`: dispatch, expressions, `var`, assignment, `print`, `if`, `while`, built-in calls, and the per-line rule of the read loop |
| `reader_properties.dfy` | `ReaderProperties` | what expressions, `var` and `print` lines do |
| `reader_control.dfy` | `ReaderControl` | how `while` and `if` lines are cut and run, and the iteration budget |
| `reader_session.dfy` | `ReaderSession` | built-in calls through the dispatcher, and the read loop |

Some behaviours of the code are easy to miss. The model follows the code in each:

- `x % 0` has no check of its own. It raises Java's `ArithmeticException` ("/ by zero"), while `x / 0` raises the evaluator's "Cannot divide by zero.". In a right-hand side both become "Invalid expression".
- Built-in arguments go through `Integer.parseInt` and are not looked up as variables. `factorial(x)` prints a number-format error even when `x` is bound.
- A call of a name without a case, such as `frobnicate(3)`, never reaches `processAlgorithm`: it prints "Error: Unknown command.". The `default` branch that prints "Error: Unknown algorithm." cannot be reached from a line (`ReaderSession.NeverUnknownAlgorithm`).
- A missing built-in argument raises `ArrayIndexOutOfBoundsException`, and the call prints its message. Extra arguments are ignored.
- A text variable used in arithmetic fails the `(int)` cast (`ClassCastException`).
- A malformed `var` line prints "Syntax error: Invalid variable declaration." and returns. It raises nothing.
- `var` lines and assignments split at every `=` and need exactly two pieces, so `a = b = c` is rejected.
- The then-body of an `if` ends at the first `}` of the line, although the comment at `src/utils/Reader.java:151` says the last one.
- Built-in calls run the methods of `Algorithms` as written, overflow included (see "## Findings").

## Model

| member | source | states |
|---|---|---|
| VariableStorage.SetVariable | src/utils/VariableStorage.java:11-16 | succeeds exactly for names matching `[a-zA-Z_][a-zA-Z0-9_]*`; then the name is bound to the value, it is the only key added, and every other binding is kept; otherwise the error is "Invalid variable name" and no new map exists |
| VariableStorage.GetVariable | src/utils/VariableStorage.java:19-29 | succeeds exactly when `hasVariable` holds and returns the bound value; otherwise raises "does not exist" for that name |
| VariableStorage.GetAfterSet | src/utils/VariableStorage.java:11-24 | after a write to a valid name, reading it returns the value written |
| VariableStorage.LastWriteWins | src/utils/VariableStorage.java:11-16 | writing a name twice equals writing it once with the second value |
| VariableStorage.SetLeavesOthers | src/utils/VariableStorage.java:15 | a write leaves the read of every other name as it was, absent names included |
| VariableStorage.MalformedNamesRefused | src/utils/VariableStorage.java:44-46 | a name containing a space or starting with a digit is refused |
| VariableStorage.SetKeepsStoreValid | src/utils/VariableStorage.java:11-16 | writes keep every key of the store a valid name |
| Operands.FirstBinarySplit | src/utils/ArithmeticEvaluator.java:17-23 | the chosen operator is the first whose split yields exactly two pieces; every operator before it yields some other number of pieces; none is chosen when no operator yields two |
| Operands.OperandValue | src/utils/ArithmeticEvaluator.java:52-60 | an existing variable gives its value; otherwise a `-?\d+` literal gives its integer value; the operand is invalid exactly when it is neither; an out-of-range literal raises the `parseInt` error |
| Operands.LiteralOperand | src/utils/ComparisonEvaluator.java:51-56 | in a store of valid names, an in-range literal resolves to its own value, since no literal is a name |
| ArithmeticEvaluator.AsInt | src/utils/ArithmeticEvaluator.java:28-29 | the `(int)` cast succeeds exactly on Integers and keeps the value; on a String it raises the cast error |
| ArithmeticEvaluator.Apply | src/utils/ArithmeticEvaluator.java:31-45 | it fails exactly for `/` or `%` by zero, each with its own exception; `+ - *` agree with exact arithmetic modulo 2^32; `/` truncates toward zero, except that `MIN_VALUE / -1` wraps to `MIN_VALUE`, so the result always agrees with the truncated quotient modulo 2^32; `%` satisfies `a == b * (a / b) + a % b` with truncating division |
| ArithmeticEvaluator.EvaluateArithmetic | src/utils/ArithmeticEvaluator.java:13-49 | "Unsupported expression" exactly when no operator splits the text in two; an invalid operand is reported only for text that is neither a variable nor a literal |
| ArithmeticEvaluator.Operate | src/utils/ArithmeticEvaluator.java:24-45 | resolves both operands, casts them and applies the operator; an invalid operand is neither a variable nor a literal; it never reports an unsupported expression |
| ArithmeticEvaluator.SplitsAtOperator | src/utils/ArithmeticEvaluator.java:15-23 | `A op B`, where A and B hold neither op nor an operator tried before it, is split at op into exactly A and B |
| ArithmeticEvaluator.NoOperatorUnsupported | src/utils/ArithmeticEvaluator.java:17-48 | a bare literal or bare name, or any text without an operator character, is an unsupported expression |
| ArithmeticEvaluator.EvaluatesPrintedOperands | src/utils/ArithmeticEvaluator.java:13-45 | two printed `int`s around an operator evaluate to the Java result of the operation, for all values (non-negative ones unless the operator is `+`) |
| ArithmeticEvaluator.EvaluatesAtOperator | src/utils/ArithmeticEvaluator.java:22-45 | such `A op B` evaluates by resolving trimmed A, then trimmed B, casting both, and applying op, with the errors in that order |
| ArithmeticEvaluator.NoPrecedence | src/utils/ArithmeticEvaluator.java:15-25 | `x*y+z` splits at `+` first, and `x*y` is then an invalid operand |
| ArithmeticEvaluator.LeadingMinusUnsupported | src/utils/ArithmeticEvaluator.java:17-48 | `-a-b` splits into three pieces at `-` and no other operator occurs, so it is an unsupported expression |
| ArithmeticEvaluator.TextOperand | src/utils/ArithmeticEvaluator.java:24-29 | a variable holding text, added to a number, fails the `(int)` cast |
| ComparisonEvaluator.EvaluateComparison | src/utils/ComparisonEvaluator.java:12-48 | "Invalid comparison expression" exactly when no operator splits the text in two; an invalid operand is neither a variable nor a literal; "Comparison only supports integers" only when some variable holds text |
| ComparisonEvaluator.SplitsAtOperator | src/utils/ComparisonEvaluator.java:14-18 | `A op B` with no operator character in A or B is split at op, for every op: `x<=5` splits at `<=`, never at `<` |
| ComparisonEvaluator.EarlierOperatorDoesNotSplit | src/utils/ComparisonEvaluator.java:14-18 | no operator tried before op occurs in `A op B` |
| ComparisonEvaluator.ComparesResolvedOperands | src/utils/ComparisonEvaluator.java:19-44 | when both sides resolve to integers, `A op B` is the integer comparison op |
| ComparisonEvaluator.ComparesPrintedOperands | src/utils/ComparisonEvaluator.java:12-44 | two printed `int`s around any operator compare as integers, for every pair of values |
| ComparisonEvaluator.NoOperatorInvalid | src/utils/ComparisonEvaluator.java:16-47 | text without an operator character, such as `7`, is an invalid comparison |
| ComparisonEvaluator.UndefinedOperand | src/utils/ComparisonEvaluator.java:51-58 | an unbound name compared with a number is an invalid operand |
| ComparisonEvaluator.TextOperand | src/utils/ComparisonEvaluator.java:22-25 | a variable holding text cannot be compared, even with itself |
| ComparisonEvaluator.SingleEqualsExample | src/utils/ComparisonEvaluator.java:14-47 | `x=5` is an invalid comparison: a single `=` is no operator |
| Reader.EvaluateExpression | src/utils/Reader.java:178-190 | every failure is "Invalid expression" of the whole text; a String result comes only from a quoted literal and is the text between the quotes |
| Reader.Assign | src/utils/Reader.java:73-75 | on success the name is valid and bound, and nothing else changes; a failure is either the expression's or the name's |
| Reader.ProcessAssignment | src/utils/Reader.java:65-76 | without exactly two `=`-pieces it raises "Invalid assignment"; otherwise it assigns the trimmed right piece to the trimmed left piece |
| Reader.ProcessVarDecl | src/utils/Reader.java:192-203 | prints only the syntax-error line, and then changes nothing; a raised error changes nothing and prints nothing |
| Reader.ProcessPrint | src/utils/Reader.java:205-220 | a line not of the form `print(...)` raises the print syntax error; every other failure is an invalid expression |
| Reader.PrintRun | src/utils/Reader.java:205-220 | a print never changes the store; it prints exactly the one line `processPrint` yields, or raises its error and prints nothing |
| Reader.ExecStatement | src/utils/Reader.java:129-137 | a loop statement only prints lines, keeps every key, keeps the store valid, and when it raises it changes and prints nothing |
| Reader.RunStatements | src/utils/Reader.java:128-137 | a loop body only prints lines, keeps every key, keeps the store valid, and never runs out of budget |
| Reader.WhileLoop | src/utils/Reader.java:126-142 | when the loop finishes, the condition is false on the final store; it only prints lines and keeps the store valid |
| Reader.ProcessWhile | src/utils/Reader.java:108-143 | a line without the prefix `while(` or without `){` raises the while syntax error and changes nothing |
| Reader.IfParts | src/utils/Reader.java:149-158 | the then-body and else part cut from a line are shorter than the line |
| Reader.ProcessIf | src/utils/Reader.java:145-172 | a line without `if`, `(` and `)` raises the if syntax error and changes nothing; nested commands keep the store valid |
| Reader.Argument | src/utils/Reader.java:86-98 | a missing argument raises `ArrayIndexOutOfBounds` for its index and the argument count; a present one is parsed after trimming |
| Reader.RunAlgorithm | src/utils/Reader.java:84-102 | a name without a case prints "Error: Unknown algorithm."; a call succeeds exactly when its arguments are present and parse; it then prints the result of the `Algorithms` method as written (`sumOfNumbers` and `primeChecker` with their overflow); the only errors are a malformed number and a missing argument |
| Reader.ProcessAlgorithm | src/utils/Reader.java:78-106 | prints the call's result, or `Error in algorithm usage: ` followed by the message of the exception raised |
| Reader.WhileParts | src/utils/Reader.java:117-119 | the condition and the body come out trimmed and shorter than the line; the only error is a bad `substring` |
| Reader.AlgorithmResult | src/utils/Reader.java:80-102 | the only errors are a bad `substring`, a malformed number and a missing argument |
| Reader.Classify | src/utils/Reader.java:39-62 | a line starting with `if` is an if-statement whatever follows; a built-in call starts with one of the five prefixes; a line is unknown exactly when it passes none of the tests |
| Reader.ProcessCommand | src/utils/Reader.java:39-63 | only `if`, `while` and `var` lines can change the store, and no line removes a key or adds an invalid name; `exit` is never mixed with other output |
| Reader.RunLine | src/utils/Reader.java:26-35 | the read loop catches every exception a line raises, so a line never ends in failure, and the store stays valid (a stack overflow is an `Error`, see "## Left out") |
| Reader.Session | src/utils/Reader.java:24-36 | a session never ends in an exception, and the store stays valid |
| ReaderProperties.NameIsNoLiteral | src/utils/VariableStorage.java:44-46 | a valid name is neither an integer literal nor quoted text |
| ReaderProperties.LiteralExpression | src/utils/Reader.java:180-181 | a printed `int` evaluates back to itself |
| ReaderProperties.OutOfRangeLiteral | src/utils/Reader.java:180-188 | a literal outside the `int` range is an invalid expression |
| ReaderProperties.QuotedExpression | src/utils/Reader.java:182-183 | quoted text evaluates to the text between the quotes, verbatim |
| ReaderProperties.BareNameRejected | src/utils/Reader.java:178-190 | a bare name is an invalid expression, even when it is a variable |
| ReaderProperties.ArithmeticExpression | src/utils/Reader.java:184-188 | `a op b` with printed `int`s is the Java result, and a zero divisor makes it an invalid expression |
| ReaderProperties.ArithmeticFallback | src/utils/Reader.java:184-188 | text that is neither a literal nor quoted is evaluated as arithmetic, and any failure becomes an invalid expression |
| ReaderProperties.AssignmentSplits | src/utils/Reader.java:65-75 | a statement with one `=` assigns its trimmed right side to its trimmed left side |
| ReaderProperties.AssignmentNeedsOneEquals | src/utils/Reader.java:66-69 | a statement without `=` raises "Invalid assignment" |
| ReaderProperties.DeclarationSplits | src/utils/Reader.java:192-203 | `var name = rhs` is the assignment of rhs to name, and prints nothing |
| ReaderProperties.DispatchVar | src/utils/Reader.java:44-45 | a line starting with `var ` is a declaration |
| ReaderProperties.DeclarationStoresLiteral | src/utils/Reader.java:192-203 | `var name = n` stores the `int` n and prints nothing |
| ReaderProperties.DeclarationStoresText | src/utils/Reader.java:192-203 | `var name = "t"` stores t without its quotes |
| ReaderProperties.DeclarationOfBareName | src/utils/Reader.java:199-202 | `var y = x` raises "Invalid expression" and stores nothing, even when x exists |
| ReaderProperties.DeclarationWithoutValue | src/utils/Reader.java:193-197 | a declaration without `=` prints the syntax error, raises nothing and stores nothing |
| ReaderProperties.PrintVariable | src/utils/Reader.java:205-219 | `print(x)` for an existing variable prints its value as stored |
| ReaderProperties.PrintLiteral | src/utils/Reader.java:205-219 | `print(n)` with a printed `int` prints the same text |
| ReaderProperties.PrintNeedsClosingParenthesis | src/utils/Reader.java:206-207 | a print line that does not end in `)` raises the print syntax error and changes nothing |
| ReaderControl.WhileFuelMonotone | src/utils/Reader.java:126-142 | a loop that finished within some budget finishes the same way within any larger one |
| ReaderControl.WhileUnroll | src/utils/Reader.java:126-142 | when the condition holds and the body finishes, the loop is one pass followed by the loop from the new store |
| ReaderControl.WhileHalts | src/utils/Reader.java:126-142 | once the condition is false or the body fails, any budget above zero gives the same run |
| ReaderControl.WhileStops | src/utils/Reader.java:126 | a false condition ends the loop at once, changing and printing nothing |
| ReaderControl.CommandFuelMonotone | src/utils/Reader.java:39-63 | a line that finished within some budget runs the same within any larger one |
| ReaderControl.SessionFuelMonotone | src/utils/Reader.java:24-36 | the same for a whole session of lines |
| ReaderControl.StatementsConcat | src/utils/Reader.java:129-137 | a body runs as its first part, then the rest only when the first part finished |
| ReaderControl.FailureKeepsEarlierStatements | src/utils/Reader.java:129-137 | a body that raises ran every statement before the failing one, keeps their effects, and raises the failing statement's exception |
| ReaderControl.WhileDispatch | src/utils/Reader.java:108-128 | `while(C){B}` runs the loop with condition C and the statements of B split at `;`, both trimmed |
| ReaderControl.WhileCuts | src/utils/Reader.java:112-119 | such a line passes the syntax check and is cut into C and B |
| ReaderControl.CountTest | src/utils/Reader.java:174-176 | `x<n` evaluates to whether the counter is below n |
| ReaderControl.CountPrint | src/utils/Reader.java:132-133 | the loop statement `print(x)` prints the value of x |
| ReaderControl.CountIncrement | src/utils/Reader.java:135 | the loop statement ` x=x+1` adds one to x with wrap-around |
| ReaderControl.CountPass | src/utils/Reader.java:129-137 | one pass prints the counter, then increments it |
| ReaderControl.CountLoop | src/utils/Reader.java:126-142 | counting from k to n prints k, ..., n-1 and leaves the counter at n, given enough budget |
| ReaderControl.CountCommand | src/utils/Reader.java:108-142 | the line `while(x<n){ print(x); x=x+1; }` prints k, ..., n-1 and leaves x at n |
| ReaderControl.IfDispatch | src/utils/Reader.java:145-168 | `if(C){B}else E` runs B as one command when C holds, E when it does not, and raises C's error otherwise |
| ReaderControl.IfCuts | src/utils/Reader.java:147-158 | such a line passes the syntax check and is cut into C, B and E |
| ReaderControl.BracedElseIsUnknown | src/utils/Reader.java:156-167 | with a false condition, `else {S}` runs the text `{S}`, which is an unknown command |
| ReaderControl.UnknownLine | src/utils/Reader.java:60-62 | a line of no known kind prints "Error: Unknown command." and changes nothing |
| ReaderSession.CallDispatch | src/utils/Reader.java:80-84 | a call `name(params)` is cut at the first `(` and first `)`; the parameters are split at commas; the rest of the line is ignored |
| ReaderSession.UnknownAlgorithmOnlyForUnknownName | src/utils/Reader.java:84-102 | the unknown-algorithm line is printed exactly for names without a case |
| ReaderSession.NeverUnknownAlgorithm | src/utils/Reader.java:50-102 | no line the dispatcher hands over prints "Error: Unknown algorithm." |
| ReaderSession.AlgorithmCommandPrints | src/utils/Reader.java:50-53 | a built-in call prints exactly one line and leaves the store unchanged |
| ReaderSession.GcdNeedsTwoArguments | src/utils/Reader.java:91-104 | `gcd(a)` with a well-formed a prints the usage error for index 1 of an array of length 1 |
| ReaderSession.MissingSecondArgument | src/utils/Reader.java:103-104 | that error's message is "Index 1 out of bounds for length 1" |
| ReaderSession.UnclosedCall | src/utils/Reader.java:78-106 | a call without `)` raises on the second `substring`, whose end is -1, and the line prints that exception's message |
| ReaderSession.UnclosedCallExample | src/utils/Reader.java:78-106 | `factorial(5` fails with begin 10, end -1 and length 11 |
| ReaderSession.RangeMessageExample | src/utils/Reader.java:81 | the failed cut is reported as `Range [10, -1) out of bounds for length 11`, the Java 21 wording |
| ReaderSession.OneArgumentCall | src/utils/Reader.java:84-104 | a one-argument built-in prints the result of the method as written for a well-formed number, and the parse error otherwise |
| ReaderSession.SumOfNumbersLine | src/utils/Reader.java:85-86 | `sumOfNumbers(n)` prints the code's `int` result for every printed `int` n |
| ReaderSession.PrimeCheckerLine | src/utils/Reader.java:97-98 | `primeChecker(n)` prints the code's answer for every printed `int` n |
| ReaderSession.SumOfNumbersLineOverflows | src/utils/Reader.java:85-86 | the line `sumOfNumbers(46341)` prints -1073716337 |
| ReaderSession.PrimeCheckerLineAtMax | src/utils/Reader.java:97-98 | the line `primeChecker(2147483647)` prints `false` |
| ReaderSession.UnlistedBuiltinUnknown | src/utils/Reader.java:50-62 | calls of the other five algorithms are unknown commands |
| ReaderSession.BlankLineSkipped | src/utils/Reader.java:26-29 | a line that trims to nothing is skipped |
| ReaderSession.ExitEndsSession | src/utils/Reader.java:58-59 | `exit` ends the session; no later line runs |
| ReaderSession.ErrorReported | src/utils/Reader.java:31-35 | a line that raises keeps its effects, is reported as `Error: <message>`, and the session goes on with the next line |
| ReaderSession.SessionConcat | src/utils/Reader.java:24-36 | two batches of lines run one after the other when the first ends normally without `exit` |
| Algorithms.SumOfNumbersAsWritten | src/utils/Algorithms.java:5-7 | as written: while `n * (n + 1)` fits in an `int`, twice the result is that product |
| Algorithms.SumOfNumbers | src/utils/Algorithms.java:5-7 | corrected: the sum 1 + ... + n modulo 2^32, and 1 + ... + (-n-1) for negative n |
| Algorithms.SumToClosedForm | src/utils/Algorithms.java:5-7 | twice the sum 1 + ... + n is n(n+1) |
| Algorithms.SumOfNumbersAsWrittenAgrees | src/utils/Algorithms.java:5-7 | while `n * (n + 1)` fits in an `int`, the code as written agrees with the corrected one |
| Algorithms.SumOfNumbersOverflowExample | src/utils/Algorithms.java:5-7 | at n = 46341 the code as written returns -1073716337 although the sum 1073767311 fits |
| Algorithms.Factorial | src/utils/Algorithms.java:9-12 | n! modulo 2^32 for n >= 0, and 1 for negative n |
| Algorithms.FactorialExact | src/utils/Algorithms.java:9-12 | up to 12! the result is exact |
| Algorithms.FactorialVanishes | src/utils/Algorithms.java:9-12 | from 34 on the `int` result is 0 |
| Algorithms.Gcd | src/utils/Algorithms.java:14-16 | the result divides both arguments |
| Algorithms.GcdIsGreatestCommonDivisor | src/utils/Algorithms.java:14-16 | the result divides both arguments and every common divisor divides it |
| Algorithms.GcdNonNegative | src/utils/Algorithms.java:14-16 | for non-negative arguments the result is non-negative |
| Algorithms.GcdSignExample | src/utils/Algorithms.java:14-16 | truncating `%` can make the result negative: gcd(4, -6) is -2 |
| Algorithms.RemainderDivisors | src/utils/Algorithms.java:15 | the common divisors of a and b are those of b and `a % b` |
| Algorithms.Reverse | src/utils/Algorithms.java:18-25 | `reverse(n)` is the number spelt by the digits of n in reverse order, with n's sign, modulo 2^32 |
| Algorithms.ReverseMeaning | src/utils/Algorithms.java:19-24 | the loop started from 0 computes that number |
| Algorithms.ReverseLoopWraps | src/utils/Algorithms.java:19-24 | the `int` loop computes the unbounded loop's value modulo 2^32 |
| Algorithms.ReverseExactValue | src/utils/Algorithms.java:19-24 | the unbounded loop appends the digits of n, last first, to the accumulator |
| Algorithms.ReverseTwice | src/utils/Algorithms.java:18-25 | reversing twice gives n back when n does not end in 0 and its reverse fits |
| Algorithms.PalindromeChecker | src/utils/Algorithms.java:35-37 | when the reverse fits, the answer is true exactly when the decimal text of n reads the same backwards |
| Algorithms.PalindromeMeaning | src/utils/Algorithms.java:35-37 | when the reverse fits, `n == reverse(n)` exactly when the decimal text of n reads the same backwards |
| Algorithms.PrimeCheckerMeaning | src/utils/Algorithms.java:27-33 | corrected: true exactly for the primes |
| Algorithms.PrimeCheckerAsWritten | src/utils/Algorithms.java:27-33 | as written: below 46340^2 the answer is true exactly for the primes |
| Algorithms.PrimeCheckerAsWrittenAgrees | src/utils/Algorithms.java:27-33 | below 46340^2 the code as written agrees with the corrected one |
| Algorithms.PrimeCheckerAsWrittenAtMax | src/utils/Algorithms.java:27-33 | at n = 2147483647 the code as written answers false, since its guard `i * i <= n` never fails |
| Algorithms.LargestDigit | src/utils/Algorithms.java:39-46 | the largest decimal digit of a non-negative n; 0 for negative n |
| Algorithms.SumOfDigits | src/utils/Algorithms.java:48-55 | the sum of the decimal digits of n, negated for negative n |
| Digits.DigitSumBound | src/utils/Algorithms.java:48-55 | a digit sum never exceeds the number |
| Algorithms.MultiplicationTable | src/utils/Algorithms.java:57-63 | exactly ten lines `n x i = p` for i = 1..10 in order, p the `int` product, each ended by a line break |
| Algorithms.FibonacciPos | src/utils/Algorithms.java:65-74 | corrected: the n-th Fibonacci number modulo 2^32 for n >= 0, and n itself for negative n |
| Algorithms.FibonacciExact | src/utils/Algorithms.java:65-74 | up to position 46 the result is exact |
| Algorithms.FibonacciAsWrittenNeverStopsAtMax | src/utils/Algorithms.java:68 | at n = 2147483647 the `int` counter wraps from n to -2^31 and passes `i <= n` again, so the loop as written never ends |

## Left out

- The read loop's console handling: the welcome lines, the `> ` prompt, the `Input received:` echo and the `Scanner`. `Reader.Session` takes the lines as a sequence.
- The debugging lines that `processWhileLoop` prints before it runs a loop. They are not in the modelled output.
- The texts of `help`, `methods` and `list`, and `System.exit`. They are the events `Help`, `Methods`, `ListVariables` and `Exit`. `list` prints in the order of a `HashMap`, which Java does not specify.
- `src/main/Interpreter.java`: a demo `main` that sets two variables and lists them.
- Java's regular-expression engine. The three patterns the code uses are explicit predicates. `split` is modelled for a literal separator, which is what the escaped operators and `;`, `=`, `,` amount to.
- `Integer.parseInt` accepts only ASCII digits here. Java also accepts other Unicode decimal digits.
- A `while` loop that never ends. Each loop gets an iteration budget `fuel` and ends `OutOfFuel` when the budget runs out. The budget lemmas show a larger budget changes nothing once a loop has finished.
- `factorial` of a large n, such as 100000, overflows the Java stack. `StackOverflowError` is an `Error`, not an `Exception`, so neither the catch at `src/utils/Reader.java:103` nor the one at `src/utils/Reader.java:33` handles it, and the interpreter ends. The model recurses without limit and prints the value modulo 2^32 instead. The statement of Reader.RunLine that every raised exception is reported does not cover this case.
- Exception messages are those of Java 21. Earlier JDKs word some of them differently. Java 11, for one, words a failed `substring` as `begin 0, end -1, length 16` where Java 21 prints `Range [0, -1) out of bounds for length 16`.
- Positions and lengths count characters (Unicode code points). Java's `indexOf`, `substring` and `length()` count UTF-16 code units. On a line that holds a character outside the Basic Multilingual Plane, the cut points and the numbers in a `substring` error message differ.
- Algorithms.PalindromeChecker: the same restriction as for PalindromeMeaning.
- Algorithms.SumOfNumbersAsWritten: stated only while the product fits. Past that, the overflow is shown by SumOfNumbersOverflowExample.
- Algorithms.PrimeCheckerAsWritten: stated only below 46340^2. Above that, the answer at 2^31 - 1 is shown by PrimeCheckerAsWrittenAtMax.
- Reader.Classify: states that `list` and `exit` are recognised in one direction only. The other direction is ReaderSession.ExitEndsSession for `exit`, and the order of tests in the body for `list`.
- Algorithms.PalindromeMeaning: stated only when the reversed number fits in an `int`. Otherwise `reverse` wraps, and the comparison depends on the wrapped value.
- Algorithms.ReverseTwice: stated only for n not ending in 0 and a reverse that fits in an `int`.
- Algorithms.FactorialExact: exact only up to 12!. Beyond that the contract of `Algorithms.Factorial` gives the value modulo 2^32.
- Algorithms.PrimeCheckerAsWrittenAtMax: shows that the answer at 2^31 - 1 is false. That 2^31 - 1 is prime is a known fact that is not proved here.
- ReaderControl.IfDispatch: stated for conditions without `)`, `{`, `}` or the letter `e`, bodies without `}` or `e`, and an else part without outer blanks. Other lines are still run by `Reader.ProcessIf`.
- ReaderControl.WhileDispatch: stated for conditions without `)` or `{`.
- ReaderControl.CountLoop: proved for the counting loop `while(x<n){ print(x); x=x+1; }` only, not for loop bodies in general.
- ArithmeticEvaluator.EvaluatesPrintedOperands: a negative printed operand is covered for `+` only. With `-` and later operators its minus sign changes the split.

## Findings

| source | as written | input that shows it | evidently intended | confidence | as-written member | corrected member |
|---|---|---|---|---|---|---|
| src/utils/Algorithms.java:6 | `n * (n + 1)` is an `int` product and wraps before it is halved | n = 46341: the sum 1073767311 fits in an `int`, but the result is -1073716337 | the sum 1 + ... + n whenever it fits, e.g. by taking the product in `long` | not executed | Algorithms.SumOfNumbersOverflowExample | Algorithms.SumOfNumbers |
| src/utils/Algorithms.java:29 | the guard `i * i <= n` is an `int` product | n = 2147483647: every `int` square is at most n, so the loop only stops when i divides n, at i = n, and the answer is false although 2^31 - 1 is prime | stop once i exceeds the square root of n, e.g. `(long) i * i <= n` | not executed | Algorithms.PrimeCheckerAsWrittenAtMax | Algorithms.PrimeCheckerMeaning |
| src/utils/Algorithms.java:68 | the counter `i` is an `int` and the guard is `i <= n` | n = 2147483647: `i++` wraps i from n to -2147483648, which passes the guard again, so the loop never ends | the n-th Fibonacci number for every n, e.g. with a `long` counter | not executed | Algorithms.FibonacciAsWrittenNeverStopsAtMax | Algorithms.FibonacciPos |

=== FILE: algorithms.dfy ===
/** The `Algorithms` class: ten small routines on Java `int`s.

    Each routine is specified against a reference on unbounded integers or on
    decimal text (`Fact`, `Fib`, `SumTo`, `IsPrime`, `NatToString`), and
    agrees with it modulo 2^32 where the Java code wraps around.
 */
module Algorithms {
  import opened JavaInt
  import opened JavaString
  import opened Digits

  /** -1 for negative numbers, 1 otherwise. */
  function Sign(n: int): int {
    if n < 0 then -1 else 1
  }

  /** `n % 10` and `n / 10` on `int` strip the last decimal digit of the
      magnitude, keeping the sign. */
  lemma TenthStep(n: i32)
    ensures Rem(n, 10) == Sign(n) * (Abs(n) % 10)
    ensures Div(n, 10) == Sign(n) * (Abs(n) / 10)
    ensures Abs(Div(n, 10)) == Abs(n) / 10
  {
  }

  // sumOfNumbers

  /** 1 + 2 + ... + n. */
  function SumTo(n: nat): nat {
    if n == 0 then 0 else SumTo(n - 1) + n
  }

  lemma {:induction false} SumToClosedForm(n: nat)
    ensures 2 * SumTo(n) == n * (n + 1)
  {
    if n > 0 {
      SumToClosedForm(n - 1);
    }
  }

  /** `sumOfNumbers(n)` as written: `n * (n + 1)` is an `int` product and wraps
      before it is halved. */
  function SumOfNumbersAsWritten(n: i32): (r: i32)
    ensures n < MAX_VALUE && InRange(n * (n + 1)) ==> 2 * r == n * (n + 1)
  {
    if n < MAX_VALUE && InRange(n * (n + 1)) then
      ExactHalving(n);
      Div(Mul(n, Add(n, 1)), 2)
    else Div(Mul(n, Add(n, 1)), 2)
  }

  /** Without overflow the code halves the exact, even product. */
  lemma ExactHalving(n: i32)
    requires n < MAX_VALUE && InRange(n * (n + 1))
    ensures 2 * Div(Mul(n, Add(n, 1)), 2) == n * (n + 1)
  {
    var p := n * (n + 1);
    var k := SumTo(if n >= 0 then n else -n - 1);
    ConsecutiveProduct(n);
    assert p == 2 * k;
    assert Add(n, 1) == n + 1;
    var q := Mul(n, n + 1);
    assert q == p;
    assert Quot(q, 2) == k;
  }

  /** The product of two consecutive integers is twice a sum 1 + ... + m. */
  lemma ConsecutiveProduct(n: int)
    ensures n * (n + 1) == 2 * SumTo(if n >= 0 then n else -n - 1)
  {
    var m := if n >= 0 then n else -n - 1;
    SumToClosedForm(m);
    if n < 0 {
      assert n == -(m + 1) && n + 1 == -m;
      assert n * (n + 1) == (m + 1) * m;
    }
  }

  /** `sumOfNumbers(n)` with the product taken in 64-bit arithmetic, as in
      `(int) ((long) n * (n + 1) / 2)`: the sum 1 + ... + n modulo 2^32. For a
      negative `n` the formula gives 1 + ... + (-n - 1). */
  function SumOfNumbers(n: i32): (r: i32)
    ensures n >= 0 ==> r == Wrap(SumTo(n))
    ensures n < 0 ==> r == Wrap(SumTo(-(n as int) - 1))
  {
    SumFormula(n);
    Wrap(n * (n + 1) / 2)
  }

  /** `n * (n + 1) / 2` is the sum up to n, or up to -n - 1 for a negative n. */
  lemma SumFormula(n: int)
    ensures n * (n + 1) / 2 == SumTo(if n >= 0 then n else -n - 1)
  {
    var m := if n >= 0 then n else -n - 1;
    SumToClosedForm(m);
    assert n * (n + 1) == m * (m + 1) by {
      if n < 0 {
        assert n == -(m + 1) && n + 1 == -m;
        assert n * (n + 1) == (m + 1) * m;
      }
    }
    assert n * (n + 1) == 2 * SumTo(m);
  }

  /** While `n * (n + 1)` fits in an `int`, the code as written computes the sum. */
  lemma SumOfNumbersAsWrittenAgrees(n: i32)
    requires n < MAX_VALUE && InRange(n * (n + 1))
    ensures SumOfNumbersAsWritten(n) == SumOfNumbers(n)
  {
    SumFormula(n);
  }

  /** At n = 46341 the true sum 1073767311 fits in an `int`, but the product
      46341 * 46342 does not, and the code as written returns a negative number. */
  lemma SumOfNumbersOverflowExample()
    ensures SumTo(46341) == 1073767311 && InRange(SumTo(46341))
    ensures SumOfNumbers(46341) == 1073767311
    ensures SumOfNumbersAsWritten(46341) == -1073716337
  {
    SumToClosedForm(46341);
    assert Mul(46341, 46342) == -2147432674;
  }

  // factorial

  function Fact(n: nat): nat {
    if n == 0 then 1 else n * Fact(n - 1)
  }

  /** `factorial(n)`: n! modulo 2^32, and 1 for every n <= 1. */
  function Factorial(n: i32): (r: i32)
    ensures n >= 0 ==> r == Wrap(Fact(n))
    ensures n < 0 ==> r == 1
    decreases n
  {
    if n <= 1 then 1
    else
      var f := Factorial(n - 1);
      WrapMul(Fact(n - 1), n);
      assert n * f == f * n;
      Mul(n, f)
  }

  lemma {:induction false} FactMonotone(a: nat, b: nat)
    requires a <= b
    ensures Fact(a) <= Fact(b)
    decreases b - a
  {
    if a < b {
      FactMonotone(a, b - 1);
    }
  }

  /** Up to 12! the result is exact. */
  lemma FactorialExact(n: i32)
    requires 0 <= n <= 12
    ensures Factorial(n) == Fact(n)
  {
    FactBound(n as nat);
  }

  lemma FactBound(n: nat)
    requires n <= 12
    ensures Fact(n) <= 479001600
  {
    FactMonotone(n, 12);
    assert Fact(12) == 479001600;
  }

  lemma {:induction false} FactDivisible(n: nat)
    requires n >= 34
    ensures Fact(n) % MODULUS == 0
    decreases n
  {
    if n == 34 {
      assert Fact(8) == 40320;
      assert Fact(16) == 20922789888000;
      assert Fact(24) == 620448401733239439360000;
      assert Fact(32) == 263130836933693530167218012160000000;
    } else {
      FactDivisible(n - 1);
      var k := Fact(n - 1) / MODULUS;
      assert Fact(n - 1) == MODULUS * k;
      assert Fact(n) == MODULUS * (n * k);
      ModuloShift(0, n * k);
    }
  }

  /** From 34 on, n! has at least 32 factors of two, so the `int` result is 0. */
  lemma FactorialVanishes(n: i32)
    requires n >= 34
    ensures Factorial(n) == 0
  {
    FactDivisible(n);
    WrapMultiple(Fact(n));
  }

  // gcd

  /** `d` divides `x`; only 0 is divisible by 0. */
  predicate Divides(d: int, x: int) {
    if d == 0 then x == 0 else x % d == 0
  }

  lemma MultipleMod(d: int, k: int)
    requires d != 0
    ensures (d * k) % d == 0
  {
    var q, r := (d * k) / d, (d * k) % d;
    assert d * (k - q) == r;
    assert Abs(d * (k - q)) == Abs(d) * Abs(k - q);
    assert Abs(k - q) == 0;
  }

  /** A common divisor of `x` and `y` divides `x * k + y`. */
  lemma DividesCombination(d: int, x: int, y: int, k: int)
    requires Divides(d, x) && Divides(d, y)
    ensures Divides(d, x * k + y)
  {
    if d != 0 {
      var a, b := x / d, y / d;
      assert x == d * a && y == d * b;
      assert x * k + y == d * (a * k + b);
      MultipleMod(d, a * k + b);
    }
  }

  /** The common divisors of `a` and `b` are those of `b` and `a % b`. */
  lemma RemainderDivisors(a: i32, b: i32, d: int)
    requires b != 0
    ensures Divides(d, a) && Divides(d, b) ==> Divides(d, Rem(a, b))
    ensures Divides(d, b) && Divides(d, Rem(a, b)) ==> Divides(d, a)
  {
    var c := Rem(a, b);
    var q := Quot(a, b);
    assert a == b * q + c;
    RemainderKeepsDivisors(a, b, d, q, c);
    RemainderGivesDivisors(a, b, d, q, c);
  }

  lemma RemainderKeepsDivisors(a: int, b: int, d: int, q: int, c: int)
    requires a == b * q + c
    ensures Divides(d, a) && Divides(d, b) ==> Divides(d, c)
  {
    if Divides(d, a) && Divides(d, b) {
      DividesCombination(d, b, a, -q);
      assert b * (-q) + a == c;
    }
  }

  lemma RemainderGivesDivisors(a: int, b: int, d: int, q: int, c: int)
    requires a == b * q + c
    ensures Divides(d, b) && Divides(d, c) ==> Divides(d, a)
  {
    if Divides(d, b) && Divides(d, c) {
      DividesCombination(d, b, c, q);
    }
  }

  /** `gcd(a, b)`: Euclid's algorithm with Java's truncating `%`. */
  function Gcd(a: i32, b: i32): (g: i32)
    ensures Divides(g, a) && Divides(g, b)
    decreases Abs(b)
  {
    if b == 0 then a
    else
      var g := Gcd(b, Rem(a, b));
      RemainderDivisors(a, b, g);
      g
  }

  /** The result divides both arguments, and every common divisor of the
      arguments divides it: its magnitude is their greatest common divisor. */
  lemma {:induction false} GcdIsGreatestCommonDivisor(a: i32, b: i32)
    ensures Divides(Gcd(a, b), a) && Divides(Gcd(a, b), b)
    ensures forall d :: Divides(d, a) && Divides(d, b) ==> Divides(d, Gcd(a, b))
    decreases Abs(b)
  {
    if b != 0 {
      var c := Rem(a, b);
      var r := Gcd(b, c);
      GcdIsGreatestCommonDivisor(b, c);
      RemainderDivisors(a, b, r);
      forall d | Divides(d, a) && Divides(d, b)
        ensures Divides(d, r)
      {
        RemainderDivisors(a, b, d);
      }
    }
  }

  /** With non-negative arguments every remainder is non-negative, and so is the result. */
  lemma {:induction false} GcdNonNegative(a: i32, b: i32)
    requires a >= 0 && b >= 0
    ensures Gcd(a, b) >= 0
    decreases b
  {
    if b != 0 {
      GcdNonNegative(b, Rem(a, b));
    }
  }

  /** Truncating `%` can leave the result negative: gcd(4, -6) is -2. */
  lemma GcdSignExample()
    ensures Gcd(4, -6) == -2
  {
    assert Rem(4, -6) == 4 && Rem(-6, 4) == -2 && Rem(4, -2) == 0;
  }

  // reverse and palindromeChecker

  /** The loop of `reverse`: append the last digit of `n` to `reversed`, then drop it from `n`. */
  function ReverseLoop(n: i32, reversed: i32): i32
    decreases Abs(n)
  {
    TenthStep(n);
    if n == 0 then reversed
    else ReverseLoop(Div(n, 10), Add(Mul(reversed, 10), Rem(n, 10)))
  }

  /** `reverse(n)`. */
  function Reverse(n: i32): (r: i32)
    ensures r == Wrap(Sign(n) * ReversedValue(Abs(n)))
  {
    ReverseMeaning(n);
    ReverseLoop(n, 0)
  }

  /** The same loop on unbounded integers: what `reverse` computes before wrap-around. */
  function ReverseExact(n: int, reversed: int): int
    decreases Abs(n)
  {
    if n == 0 then reversed
    else ReverseExact(Sign(n) * (Abs(n) / 10), reversed * 10 + Sign(n) * (Abs(n) % 10))
  }

  /** The 32-bit loop keeps the exact loop's value modulo 2^32, whatever the accumulator started as. */
  lemma {:induction false} ReverseLoopWraps(n: i32, reversed: i32, exact: int)
    requires Wrap(exact) == reversed
    ensures ReverseLoop(n, reversed) == Wrap(ReverseExact(n, exact))
    decreases Abs(n)
  {
    if n != 0 {
      TenthStep(n);
      var next := Div(n, 10);
      var acc := Add(Mul(reversed, 10), Rem(n, 10));
      var d := Sign(n) * (Abs(n) % 10);
      var exact' := exact * 10 + d;
      ReverseStepWraps(n, reversed, exact, acc, exact');
      ReverseLoopWraps(next, acc, exact');
    }
  }

  /** One pass of both loops keeps the accumulators congruent. */
  lemma ReverseStepWraps(n: i32, reversed: i32, exact: int, acc: i32, exact': int)
    requires Wrap(exact) == reversed
    requires acc == Add(Mul(reversed, 10), Rem(n, 10)) && exact' == exact * 10 + Sign(n) * (Abs(n) % 10)
    ensures Wrap(exact') == acc
  {
    TenthStep(n);
    var d := Sign(n) * (Abs(n) % 10);
    WrapAdd(reversed * 10, d);
    WrapMulAdd(exact, 10, d);
  }

  /** The exact loop appends the digits of `n`, last first, to the accumulator. */
  lemma {:induction false} ReverseExactValue(n: int, acc: int)
    requires n != 0
    ensures ReverseExact(n, acc) ==
              acc * Pow10(|NatToString(Abs(n))|) + Sign(n) * ReversedValue(Abs(n))
    decreases Abs(n)
  {
    var m := Abs(n);
    if m < 10 {
      assert NatToString(m) == [DigitChar(m)];
      assert Reversed(NatToString(m)) == NatToString(m);
      assert NatToString(m)[..0] == [];
      assert ReversedValue(m) == m;
    } else {
      var next := Sign(n) * (m / 10);
      assert Sign(next) == Sign(n) && Abs(next) == m / 10;
      ReverseExactValue(next, acc * 10 + Sign(n) * (m % 10));
      PowerStep(m);
      StepArithmetic(acc, Sign(n), m % 10, Pow10(|NatToString(m / 10)|), ReversedValue(m / 10),
                     Pow10(|NatToString(m)|), ReversedValue(m));
    }
  }

  lemma PowerStep(m: nat)
    requires m >= 10
    ensures Pow10(|NatToString(m)|) == 10 * Pow10(|NatToString(m / 10)|)
    ensures ReversedValue(m) == (m % 10) * Pow10(|NatToString(m / 10)|) + ReversedValue(m / 10)
  {
    ReversedValueStep(m);
  }

  /** The arithmetic of one pass: moving a digit into the accumulator. */
  lemma StepArithmetic(acc: int, sign: int, digit: int, p: int, rv: int, power: int, value: int)
    requires power == 10 * p && value == digit * p + rv
    ensures (acc * 10 + sign * digit) * p + sign * rv == acc * power + sign * value
  {
    calc {
      (acc * 10 + sign * digit) * p + sign * rv;
      acc * 10 * p + sign * digit * p + sign * rv;
      acc * (10 * p) + sign * (digit * p + rv);
    }
  }

  /** `reverse(n)` is the number spelt by the digits of `n` in reverse order,
      with the sign of `n`, modulo 2^32. */
  lemma ReverseMeaning(n: i32)
    ensures ReverseLoop(n, 0) == Wrap(Sign(n) * ReversedValue(Abs(n)))
  {
    ReverseLoopWraps(n, 0, 0);
    if n != 0 {
      ReverseExactValue(n, 0);
    } else {
      assert NatToString(0) == "0";
      assert Reversed("0") == "0";
    }
  }

  /** `palindromeChecker(n)`. */
  function PalindromeChecker(n: i32): (r: bool)
    ensures InRange(ReversedValue(Abs(n))) ==> (r <==> Reversed(NatToString(Abs(n))) == NatToString(Abs(n)))
  {
    if InRange(ReversedValue(Abs(n))) then
      PalindromeMeaning(n);
      n == Reverse(n)
    else n == Reverse(n)
  }

  /** When the reversed number fits in an `int`, `n` is a palindrome exactly
      when the decimal text of its magnitude reads the same backwards. */
  lemma PalindromeMeaning(n: i32)
    requires InRange(ReversedValue(Abs(n)))
    ensures n == Reverse(n) <==> Reversed(NatToString(Abs(n))) == NatToString(Abs(n))
  {
    var m := Abs(n);
    var s := NatToString(m);
    var t := Reversed(s);
    assert Reverse(n) == Sign(n) * ReversedValue(m);
    assert AllDigits(t);
    assert ReversedValue(m) == DigitsValue(t);
    assert m == DigitsValue(s);
    if DigitsValue(t) == DigitsValue(s) {
      DigitsValueInjective(t, s);
    }
  }

  /** The last character of the text of `m` is its last digit. */
  lemma LastCharacter(m: nat)
    ensures NatToString(m)[|NatToString(m)| - 1] == DigitChar(m % 10)
  {
    if m >= 10 {
      NatToStringStep(m);
    }
  }

  /** When `m` does not end in 0, its reversed text has no leading zero and
      is the text of the reversed number. */
  lemma ReversedText(m: nat)
    requires m % 10 != 0
    ensures NatToString(ReversedValue(m)) == Reversed(NatToString(m))
    ensures ReversedValue(m) > 0
    ensures ReversedValue(ReversedValue(m)) == m
  {
    var s := NatToString(m);
    var t := Reversed(s);
    assert AllDigits(t);
    LastCharacter(m);
    assert t[0] == DigitChar(m % 10) && t[0] != '0';
    NatToStringOfDigits(t);
    assert NatToString(0) == "0";
    ReversedTwice(s);
  }

  /** Reversing twice gives back `n` when `n` does not end in 0 and its
      reverse fits in an `int`. */
  lemma ReverseTwice(n: i32)
    requires n % 10 != 0
    requires InRange(ReversedValue(Abs(n)))
    ensures Reverse(Reverse(n)) == n
  {
    var m := Abs(n);
    assert m % 10 != 0;
    ReversedText(m);
    var v := ReversedValue(m);
    ReverseMeaning(n);
    var r := Reverse(n);
    assert r == Sign(n) * v;
    assert Abs(r) == v && Sign(r) == Sign(n);
    ReverseMeaning(r);
  }

  // primeChecker

  /** `n` has no divisor between 2 and itself. */
  predicate IsPrime(n: int) {
    n >= 2 && forall d :: 2 <= d < n ==> n % d != 0
  }

  /** The loop of `primeChecker` as written: the guard `i * i <= n` is an `int` product. */
  function PrimeLoopAsWritten(n: i32, i: i32): bool
    requires 2 <= i <= n
    decreases n - i
  {
    if !(Mul(i, i) <= n) then true
    else if Rem(n, i) == 0 then false
    else PrimeLoopAsWritten(n, Add(i, 1))
  }

  /** `primeChecker(n)` as written. */
  function PrimeCheckerAsWritten(n: i32): (r: bool)
    ensures n < 2147395600 ==> (r <==> IsPrime(n))
  {
    if n <= 1 then false
    else if n < 2147395600 then
      PrimeLoopAsWrittenAgrees(n, 2);
      PrimeLoopMeaning(n, 2);
      PrimeLoopAsWritten(n, 2)
    else PrimeLoopAsWritten(n, 2)
  }

  /** The loop of `primeChecker` with the guard computed without wrap-around,
      as `(long) i * i <= n` would. */
  function PrimeLoop(n: int, i: int): bool
    requires 2 <= i <= n
    decreases n - i
  {
    if i * i > n then true
    else if n % i == 0 then false
    else
      assert i + 1 <= n by {
        assert i * i >= 2 * i;
      }
      PrimeLoop(n, i + 1)
  }

  /** `primeChecker(n)` with the corrected loop guard. */
  function PrimeChecker(n: i32): bool {
    if n <= 1 then false else PrimeLoop(n, 2)
  }

  /** A divisor at or above `i`, when `i * i > n`, has a cofactor below `i`. */
  lemma CofactorBelow(n: int, d: int, i: int)
    requires 2 <= i <= d < n && i * i > n && n % d == 0
    ensures 2 <= n / d < i && n % (n / d) == 0
  {
    var k := n / d;
    assert n == d * k;
    ProductFactorBelow(d, 1, k);
    ProductMonotone(i, i, d);
    ProductFactorBelow(d, k, i);
    MultipleMod(k, d);
    assert k * d == n;
  }

  lemma ProductMonotone(a: int, b: int, c: int)
    requires a >= 0 && b <= c
    ensures a * b <= a * c
  {
    assert a * c - a * b == a * (c - b);
  }

  /** For a positive `a`, `a * b < a * c` exactly when `b < c`. */
  lemma ProductFactorBelow(a: int, b: int, c: int)
    requires a > 0
    ensures a * b < a * c <==> b < c
  {
    assert a * c - a * b == a * (c - b);
  }

  lemma {:induction false} PrimeLoopMeaning(n: int, i: int)
    requires 2 <= i <= n
    requires forall d :: 2 <= d < i ==> n % d != 0
    ensures PrimeLoop(n, i) <==> IsPrime(n)
    decreases n - i
  {
    if i * i > n {
      forall d | 2 <= d < n
        ensures n % d != 0
      {
        if i <= d && n % d == 0 {
          CofactorBelow(n, d, i);
        }
      }
    } else if n % i != 0 {
      assert i + 1 <= n by {
        assert i * i >= 2 * i;
      }
      PrimeLoopMeaning(n, i + 1);
    } else {
      assert i < n by {
        assert i * i >= 2 * i;
      }
    }
  }

  /** The corrected `primeChecker(n)` holds exactly for the primes. */
  lemma PrimeCheckerMeaning(n: i32)
    ensures PrimeChecker(n) <==> IsPrime(n)
  {
    if n > 1 {
      PrimeLoopMeaning(n, 2);
    }
  }

  /** Below 46340^2 the guard never wraps, and the code as written agrees with
      the corrected one. */
  lemma {:induction false} PrimeLoopAsWrittenAgrees(n: i32, i: i32)
    requires 2 <= i <= n && n < 2147395600 && i <= 46340
    ensures PrimeLoopAsWritten(n, i) == PrimeLoop(n, i)
    decreases n - i
  {
    SmallSquare(i);
    if i * i <= n && n % i != 0 {
      PrimeLoopAsWrittenAgrees(n, i + 1);
    }
  }

  lemma SmallSquare(i: i32)
    requires 2 <= i <= 46340
    ensures Mul(i, i) == i * i && 2 * i <= i * i
    ensures i * i < 2147395600 ==> i < 46340
  {
    MulMonotone(i, i, 46340);
    MulMonotone(46340, i, 46340);
    MulMonotone(i, 2, i);
    assert i * i <= 2147395600;
  }

  lemma MulMonotone(a: int, b: int, c: int)
    requires 0 <= a && b <= c
    ensures a * b <= a * c
  {
  }

  lemma PrimeCheckerAsWrittenAgrees(n: i32)
    requires n < 2147395600
    ensures PrimeCheckerAsWritten(n) == PrimeChecker(n)
  {
    if n > 1 {
      PrimeLoopAsWrittenAgrees(n, 2);
    }
  }

  /** At n = Integer.MAX_VALUE every `int` square is at most n, so the guard
      never stops the loop: it runs until `i` divides `n`, which happens at the
      latest at `i == n`, and the answer is false. */
  lemma {:induction false} PrimeLoopAsWrittenAtMax(i: i32)
    requires 2 <= i <= MAX_VALUE
    ensures !PrimeLoopAsWritten(MAX_VALUE, i)
    decreases MAX_VALUE - i
  {
    if Rem(MAX_VALUE, i) != 0 {
      PrimeLoopAsWrittenAtMax(Add(i, 1));
    }
  }

  /** 2147483647 = 2^31 - 1 is reported as not prime by the code as written:
      already at i = 46341 the square wraps to a negative number and passes the guard. */
  lemma PrimeCheckerAsWrittenAtMax()
    ensures !PrimeCheckerAsWritten(MAX_VALUE)
    ensures 46341 * 46341 > MAX_VALUE && Mul(46341, 46341) <= MAX_VALUE
  {
    PrimeLoopAsWrittenAtMax(2);
    assert Mul(46341, 46341) == -2147479015;
  }

  // largestDigit and sumOfDigits

  /** `largestDigit(n)`: the largest decimal digit of a non-negative `n`; for a
      negative `n` every remainder is at most 0, and the result stays 0. */
  method LargestDigit(n: i32) returns (largest: i32)
    ensures n >= 0 ==> largest == MaxDigit(NatToString(n))
    ensures n < 0 ==> largest == 0
  {
    largest := 0;
    var k := n;
    while k != 0
      invariant n >= 0 ==> k >= 0 && 0 <= largest <= 9
      invariant n >= 0 ==> Larger(largest, MaxDigit(NatToString(k))) == MaxDigit(NatToString(n))
      invariant n < 0 ==> k <= 0 && largest == 0
      decreases Abs(k)
    {
      TenthStep(k);
      var d := Rem(k, 10);
      var largest' := if largest < d then d else largest;
      if n >= 0 {
        LargestDigitStep(k, largest, largest');
      }
      largest := largest';
      k := Div(k, 10);
    }
    assert NatToString(0) == "0";
  }

  function Larger(a: int, b: int): int {
    if a < b then b else a
  }

  /** One pass of the loop keeps the larger of the digit so far and the digits still to come. */
  lemma LargestDigitStep(k: i32, largest: i32, largest': i32)
    requires k > 0 && 0 <= largest <= 9
    requires largest' == Larger(largest, Rem(k, 10))
    ensures Div(k, 10) >= 0 && 0 <= largest' <= 9
    ensures Larger(largest', MaxDigit(NatToString(Div(k, 10)))) == Larger(largest, MaxDigit(NatToString(k)))
  {
    TenthStep(k);
    MaxDigitStep(k);
  }

  /** `sumOfDigits(n)`: the sum of the decimal digits of `n`, negated for a negative `n`. */
  method SumOfDigits(n: i32) returns (sum: i32)
    ensures sum == Sign(n) * DigitSum(NatToString(Abs(n)))
  {
    var total := DigitSum(NatToString(Abs(n)));
    DigitSumBound(Abs(n));
    sum := 0;
    var k := n;
    while k != 0
      invariant k == 0 || Sign(k) == Sign(n)
      invariant sum == Sign(n) * (total - DigitSum(NatToString(Abs(k))))
      invariant DigitSum(NatToString(Abs(k))) <= total
      decreases Abs(k)
    {
      TenthStep(k);
      DigitSumStep(Abs(k));
      sum := Add(sum, Rem(k, 10));
      k := Div(k, 10);
    }
    assert NatToString(0) == "0";
  }

  // multiplicationTable

  /** One line of the table, without its line break. */
  function TableRow(n: i32, i: i32): string {
    IntToString(n) + " x " + IntToString(i) + " = " + IntToString(Mul(n, i))
  }

  /** The first `k` lines of the table. */
  function Rows(n: i32, k: nat): (rows: seq<string>)
    requires k <= 10
    ensures |rows| == k
  {
    seq(k, j requires 0 <= j < k => TableRow(n, j + 1))
  }

  lemma RowsExtend(n: i32, k: nat)
    requires k < 10
    ensures Rows(n, k + 1) == Rows(n, k) + [TableRow(n, k + 1)]
  {
  }

  /** Lines, each followed by a line break. */
  function Lines(rows: seq<string>): string {
    if rows == [] then "" else rows[0] + "\n" + Lines(rows[1..])
  }

  lemma {:induction false} LinesAppend(rows: seq<string>, row: string)
    ensures Lines(rows + [row]) == Lines(rows) + row + "\n"
    decreases |rows|
  {
    if rows != [] {
      assert (rows + [row])[1..] == rows[1..] + [row];
      LinesAppend(rows[1..], row);
    } else {
      assert [row][1..] == [];
    }
  }

  /** Text made of lines that hold no line break splits back into those lines. */
  lemma {:induction false} SplitLines(rows: seq<string>)
    requires forall j :: 0 <= j < |rows| ==> NoCharOf(rows[j], "\n")
    ensures SplitAll(Lines(rows), "\n") == rows + [""]
    decreases |rows|
  {
    if rows == [] {
      assert IndexOf(Lines(rows), "\n") == -1;
    } else {
      var r, tail := rows[0], rows[1..];
      SplitAllTerminated(r, Lines(tail), "\n");
      SplitLines(tail);
      ConsAppend(rows, "");
    }
  }

  lemma ConsAppend<T>(s: seq<T>, x: T)
    requires s != []
    ensures s + [x] == [s[0]] + (s[1..] + [x])
  {
  }

  /** No line of the table holds a line break. */
  lemma RowHasOneLine(n: i32, i: i32)
    ensures TableRow(n, i) != "" && NoCharOf(TableRow(n, i), "\n")
  {
    var a, b, c := IntToString(n), IntToString(i), IntToString(Mul(n, i));
    var row := TableRow(n, i);
    assert row == a + " x " + b + " = " + c;
    forall k | 0 <= k < |row| ensures row[k] != '\n' {
      if k < |a| {
        LiteralCharacters(a, k);
        assert row[k] == a[k];
      } else if |a| + 3 <= k < |a| + 3 + |b| {
        LiteralCharacters(b, k - |a| - 3);
        assert row[k] == b[k - |a| - 3];
      } else if |a| + 6 + |b| <= k {
        LiteralCharacters(c, k - |a| - 6 - |b|);
        assert row[k] == c[k - |a| - 6 - |b|];
      }
    }
  }

  /** `multiplicationTable(n)`: ten lines, line i reading `n x i = p` with p the
      `int` product of n and i, each line ended by a line break. */
  method MultiplicationTable(n: i32) returns (table: string)
    ensures table == Lines(Rows(n, 10))
    ensures Split(table, "\n") == Rows(n, 10)
    ensures EndsWith(table, "\n")
  {
    table := "";
    var i: i32 := 1;
    while i <= 10
      invariant 1 <= i <= 11
      invariant table == Lines(Rows(n, i - 1))
    {
      LinesAppend(Rows(n, i - 1), TableRow(n, i));
      RowsExtend(n, i - 1);
      table := table + TableRow(n, i) + "\n";
      i := i + 1;
    }
    assert i - 1 == 10;
    TableSplits(n);
  }

  lemma TableSplits(n: i32)
    ensures Split(Lines(Rows(n, 10)), "\n") == Rows(n, 10)
    ensures EndsWith(Lines(Rows(n, 10)), "\n")
  {
    var rows := Rows(n, 10);
    RowsAreLines(n);
    LinesSplit(rows);
    LinesEndWithBreak(rows);
  }

  lemma RowsAreLines(n: i32)
    ensures var rows := Rows(n, 10);
            && rows[|rows| - 1] != ""
            && forall j :: 0 <= j < |rows| ==> NoCharOf(rows[j], "\n")
  {
    var rows := Rows(n, 10);
    forall j | 0 <= j < 10 ensures NoCharOf(rows[j], "\n") {
      RowOfTable(n, j);
    }
    RowOfTable(n, 9);
  }

  lemma RowOfTable(n: i32, j: nat)
    requires j < 10
    ensures Rows(n, 10)[j] != "" && NoCharOf(Rows(n, 10)[j], "\n")
  {
    var i := j + 1;
    assert Rows(n, 10)[j] == TableRow(n, i);
    RowHasOneLine(n, i);
  }

  /** Non-empty lines without line breaks are what a split on line breaks gives back. */
  lemma LinesSplit(rows: seq<string>)
    requires rows != [] && rows[|rows| - 1] != ""
    requires forall j :: 0 <= j < |rows| ==> NoCharOf(rows[j], "\n")
    ensures Split(Lines(rows), "\n") == rows
  {
    var s := Lines(rows);
    SplitLines(rows);
    var all := SplitAll(s, "\n");
    assert |all| >= 2;
    assert IndexOf(s, "\n") >= 0;
    var r := DropTrailingEmpty(all);
    assert all[|rows| - 1] != "";
    assert |r| == |rows|;
    assert r == all[..|rows|] == rows;
  }

  lemma LinesEndWithBreak(rows: seq<string>)
    requires rows != []
    ensures EndsWith(Lines(rows), "\n")
  {
    var init := rows[..|rows| - 1];
    LinesAppend(init, rows[|rows| - 1]);
    assert init + [rows[|rows| - 1]] == rows;
  }

  // fibonacciPos

  function Fib(n: nat): nat {
    if n < 2 then n else Fib(n - 1) + Fib(n - 2)
  }

  /** The state of the loop of `fibonacciPos` as written: the counter and the two last terms. */
  datatype FibState = FibState(i: i32, a: i32, b: i32)

  /** One pass of `for (int i = 2; i <= n; i++)`: the counter is an `int` too. */
  function FibStepAsWritten(s: FibState): FibState {
    FibState(Add(s.i, 1), s.b, Add(s.a, s.b))
  }

  function FibIterateAsWritten(s: FibState, k: nat): FibState
    decreases k
  {
    if k == 0 then s else FibIterateAsWritten(FibStepAsWritten(s), k - 1)
  }

  lemma {:induction false} FibCounterAsWritten(s: FibState, k: nat)
    requires s.i as int + k <= MAX_VALUE
    ensures FibIterateAsWritten(s, k).i == s.i + k
    decreases k
  {
    if k > 0 {
      FibCounterAsWritten(FibStepAsWritten(s), k - 1);
    }
  }

  /** For n = Integer.MAX_VALUE the counter reaches n, and the next `i++`
      wraps it to Integer.MIN_VALUE, which again passes `i <= n`: the loop as
      written never ends. */
  lemma FibonacciAsWrittenNeverStopsAtMax()
    ensures var s := FibIterateAsWritten(FibState(2, 0, 1), MAX_VALUE - 2);
            s.i == MAX_VALUE && FibStepAsWritten(s).i == MIN_VALUE && MIN_VALUE <= MAX_VALUE
  {
    FibCounterAsWritten(FibState(2, 0, 1), MAX_VALUE - 2);
  }

  /** `fibonacciPos(n)` with a counter that cannot wrap (a `long`): the n-th
      Fibonacci number modulo 2^32, and `n` itself for n <= 1. */
  method FibonacciPos(n: i32) returns (r: i32)
    ensures n >= 0 ==> r == Wrap(Fib(n))
    ensures n < 0 ==> r == n
  {
    if n <= 1 {
      return n;
    }
    var a: i32, b: i32 := 0, 1;
    var i: int := 2;
    while i <= n
      invariant 2 <= i <= n + 1
      invariant a == Wrap(Fib(i - 2)) && b == Wrap(Fib(i - 1))
    {
      WrapAddBoth(Fib(i - 2), Fib(i - 1));
      var temp := Add(a, b);
      a := b;
      b := temp;
      i := i + 1;
    }
    r := b;
  }

  lemma {:induction false} FibMonotone(a: nat, b: nat)
    requires a <= b
    ensures Fib(a) <= Fib(b)
    decreases b - a
  {
    if a < b {
      FibMonotone(a, b - 1);
    }
  }

  /** Up to position 46 the result is exact. */
  lemma FibonacciExact(n: nat)
    requires n <= 46
    ensures Wrap(Fib(n)) == Fib(n)
  {
    FibBound(n);
  }

  lemma FibBound(n: nat)
    requires n <= 46
    ensures Fib(n) <= 1836311903
  {
    FibMonotone(n, 46);
    Fib46();
  }

  lemma Fib46()
    ensures Fib(46) == 1836311903
  {
    assert Fib(10) == 55 && Fib(11) == 89;
    assert Fib(20) == 6765 && Fib(21) == 10946;
    assert Fib(30) == 832040 && Fib(31) == 1346269;
    assert Fib(40) == 102334155 && Fib(41) == 165580141;
  }
}

=== FILE: arithmetic_evaluator.dfy ===
/** `ArithmeticEvaluator.evaluateArithmetic`: one binary operation on two
    operands, with the operator chosen by the ordered split rule rather than
    by precedence.
 */
module ArithmeticEvaluator {
  import opened Errors
  import opened JavaInt
  import opened JavaString
  import opened VariableStorage
  import opened Operands

  datatype Operator = Plus | Minus | Times | Divide | Remainder

  /** The operators, in the order the evaluator tries them. */
  const Operators: seq<Operator> := [Plus, Minus, Times, Divide, Remainder]

  /** Their symbols, in the same order. */
  const Symbols: seq<string> := ["+", "-", "*", "/", "%"]

  /** Every operator character, in the same order. */
  const OperatorChars: string := "+-*/%"

  function Symbol(op: Operator): string {
    match op
    case Plus => "+"
    case Minus => "-"
    case Times => "*"
    case Divide => "/"
    case Remainder => "%"
  }

  /** The position of `op` in the order of trial. */
  function Index(op: Operator): (k: nat)
    ensures k < |Operators| && Operators[k] == op && Symbols[k] == Symbol(op)
  {
    match op
    case Plus => 0
    case Minus => 1
    case Times => 2
    case Divide => 3
    case Remainder => 4
  }

  /** The `(int)` cast applied to a resolved operand. */
  function AsInt(v: Value): (r: Result<i32>)
    ensures r.Ok? <==> v.IntV?
    ensures r.Ok? ==> r.value == v.n
    ensures r.Err? ==> r.error == NotAnInteger
  {
    match v
    case IntV(n) => Ok(n)
    case StrV(_) => Err(NotAnInteger)
  }

  /** The `switch` on the chosen operator, with Java `int` semantics. */
  function Apply(op: Operator, a: i32, b: i32): (r: Result<i32>)
    ensures r.Err? <==> (op == Divide || op == Remainder) && b == 0
    ensures op == Divide && b == 0 ==> r == Err(DivideByZero)
    ensures op == Remainder && b == 0 ==> r == Err(RemainderByZero)
    ensures r.Ok? && op == Plus ==> (a + b - r.value) % MODULUS == 0
    ensures r.Ok? && op == Minus ==> (a - b - r.value) % MODULUS == 0
    ensures r.Ok? && op == Times ==> (a * b - r.value) % MODULUS == 0
    ensures r.Ok? && op == Divide && !(a == MIN_VALUE && b == -1) ==> r.value == Quot(a, b)
    ensures r.Ok? && op == Divide && a == MIN_VALUE && b == -1 ==> r.value == MIN_VALUE
    ensures r.Ok? && op == Divide ==> (Quot(a, b) - r.value) % MODULUS == 0
    ensures r.Ok? && op == Remainder ==> a == b * Quot(a, b) + r.value
  {
    match op
    case Plus => Ok(Add(a, b))
    case Minus => Ok(Sub(a, b))
    case Times => Ok(Mul(a, b))
    case Divide => if b == 0 then Err(DivideByZero) else Ok(Div(a, b))
    case Remainder => if b == 0 then Err(RemainderByZero) else Ok(Rem(a, b))
  }

  /** `evaluateArithmetic(expr)`. The store is only read. */
  function EvaluateArithmetic(st: Store, expr: string): (r: Result<i32>)
    ensures r == Err(UnsupportedExpression(expr)) <==> FirstBinarySplit(expr, Symbols).None?
    ensures r.Err? && r.error.InvalidOperand? ==>
              !HasVariable(st, r.error.operand) && !IsIntegerLiteral(r.error.operand)
  {
    match FirstBinarySplit(expr, Symbols)
    case None => Err(UnsupportedExpression(expr))
    case Some(k) =>
      var parts := Split(expr, Symbols[k]);
      Operate(st, Operators[k], Trim(parts[0]), Trim(parts[1]))
  }

  /** Both operands resolved and cast in order, then the operation applied. */
  function Operate(st: Store, op: Operator, left: string, right: string): (r: Result<i32>)
    ensures r.Err? && r.error.InvalidOperand? ==>
              !HasVariable(st, r.error.operand) && !IsIntegerLiteral(r.error.operand)
    ensures !(r.Err? && r.error.UnsupportedExpression?)
  {
    var x :- OperandValue(st, left);
    var y :- OperandValue(st, right);
    var a :- AsInt(x);
    var b :- AsInt(y);
    Apply(op, a, b)
  }

  /** Text of the form `A op B`, where `A` and `B` contain neither `op` nor
      any operator tried before it, is split at `op` into `A` and `B`. */
  lemma {:induction false} SplitsAtOperator(op: Operator, a: string, b: string)
    requires b != ""
    requires NoCharOf(a, OperatorChars[..Index(op) + 1]) && NoCharOf(b, OperatorChars[..Index(op) + 1])
    ensures FirstBinarySplit(a + Symbol(op) + b, Symbols) == Some(Index(op))
    ensures Split(a + Symbol(op) + b, Symbol(op)) == [a, b]
  {
    var s := a + Symbol(op) + b;
    var k := Index(op);
    forall j | 0 <= j < k
      ensures Split(s, Symbols[j]) == [s]
    {
      var sep := Symbols[j];
      assert sep == [OperatorChars[j]];
      assert NoCharOf(a, sep) && NoCharOf(b, sep);
      forall i ensures !OccursAt(s, sep, i) {
        if OccursAt(s, sep, i) {
          OccurrenceInsideOperator(a, Symbol(op), b, sep, i);
        }
      }
      SplitWithoutSeparator(s, sep);
    }
    assert Symbol(op) == [OperatorChars[k]];
    SplitAroundOperator(a, Symbol(op), b);
    FirstSplitAt(s, k);
  }

  lemma FirstSplitAt(s: string, k: nat)
    requires k < |Symbols| && |Split(s, Symbols[k])| == 2
    requires forall j :: 0 <= j < k ==> Split(s, Symbols[j]) == [s]
    ensures FirstBinarySplit(s, Symbols) == Some(k)
  {
  }

  /** Text with no operator character at all is an unsupported expression. */
  lemma NoOperatorUnsupported(st: Store, expr: string)
    requires NoCharOf(expr, OperatorChars)
    ensures EvaluateArithmetic(st, expr) == Err(UnsupportedExpression(expr))
  {
    forall j | 0 <= j < |Symbols|
      ensures |Split(expr, Symbols[j])| != 2
    {
      assert Symbols[j] == [OperatorChars[j]];
      assert NoCharOf(expr, Symbols[j]);
      NoOccurrenceWithoutSharedCharacter(expr, Symbols[j]);
      SplitWithoutSeparator(expr, Symbols[j]);
    }
    assert FirstBinarySplit(expr, Symbols).None?;
  }

  /** Printing two `int`s around an operator and evaluating the text gives the
      Java result of the operation. A minus sign in an operand is only safe
      for `+`, which is tried before `-`. */
  lemma EvaluatesPrintedOperands(st: Store, op: Operator, a: i32, b: i32)
    requires ValidStore(st)
    requires op == Plus || (a >= 0 && b >= 0)
    ensures EvaluateArithmetic(st, IntToString(a) + Symbol(op) + IntToString(b)) == Apply(op, a, b)
  {
    var sa, sb := IntToString(a), IntToString(b);
    var s := sa + Symbol(op) + sb;
    var k := Index(op);
    PrintedOperandAvoidsOperators(op, a);
    PrintedOperandAvoidsOperators(op, b);
    SplitsAtOperator(op, sa, sb);
    assert Split(s, Symbols[k]) == [sa, sb];
    TrimLiteral(sa);
    TrimLiteral(sb);
    LiteralOperand(st, sa);
    LiteralOperand(st, sb);
    assert OperandValue(st, Trim(sa)) == Ok(IntV(a));
    assert OperandValue(st, Trim(sb)) == Ok(IntV(b));
    assert Operators[k] == op;
  }

  lemma PrintedOperandAvoidsOperators(op: Operator, a: i32)
    requires op == Plus || a >= 0
    ensures NoCharOf(IntToString(a), OperatorChars[..Index(op) + 1])
  {
    var sa := IntToString(a);
    var chars := OperatorChars[..Index(op) + 1];
    forall i, j | 0 <= i < |sa| && 0 <= j < |chars| ensures sa[i] != chars[j] {
      LiteralCharacters(sa, i);
      if a >= 0 {
        assert sa[0] != '-';
      }
    }
  }

  /** Text of the form `A op B` as in `SplitsAtOperator` is evaluated by
      resolving the trimmed `A` and `B` and applying `op`. */
  lemma EvaluatesAtOperator(st: Store, op: Operator, a: string, b: string)
    requires b != ""
    requires NoCharOf(a, OperatorChars[..Index(op) + 1]) && NoCharOf(b, OperatorChars[..Index(op) + 1])
    ensures EvaluateArithmetic(st, a + Symbol(op) + b) ==
              (var left :- OperandValue(st, Trim(a));
               var right :- OperandValue(st, Trim(b));
               var x :- AsInt(left);
               var y :- AsInt(right);
               Apply(op, x, y))
  {
    SplitsAtOperator(op, a, b);
    assert Operators[Index(op)] == op;
  }

  /** There is no precedence: in `x*y+z` the split at `+` comes first, and
      `x*y` is then neither a variable nor a literal. */
  lemma NoPrecedence(st: Store, x: i32, y: i32, z: i32)
    requires ValidStore(st) && x >= 0 && y >= 0 && z >= 0
    ensures var a := IntToString(x) + "*" + IntToString(y);
            EvaluateArithmetic(st, a + "+" + IntToString(z)) == Err(InvalidOperand(a))
  {
    var a := IntToString(x) + "*" + IntToString(y);
    ProductTextIsNoOperand(x, y);
    PrintedOperandAvoidsOperators(Plus, z);
    EvaluatesAtOperator(st, Plus, a, IntToString(z));
  }

  lemma ProductTextIsNoOperand(x: i32, y: i32)
    requires x >= 0 && y >= 0
    ensures var a := IntToString(x) + "*" + IntToString(y);
            Trim(a) == a && !IsValidName(a) && !IsIntegerLiteral(a) && NoCharOf(a, OperatorChars[..1])
  {
    var sx, sy := IntToString(x), IntToString(y);
    var a := sx + "*" + sy;
    forall i | 0 <= i < |a| ensures a[i] == '*' || IsDigit(a[i]) {
      if i < |sx| {
        LiteralCharacters(sx, i);
      } else if i > |sx| {
        LiteralCharacters(sy, i - |sx| - 1);
      }
    }
    assert a[0] == sx[0] && a[|a| - 1] == sy[|sy| - 1];
    TrimUnpadded(a);
    assert !IsIntegerLiteral(a) by {
      assert a[|sx|] == '*';
    }
  }

  /** A leading minus sign makes the text split into three pieces at `-`,
      so `-5-3` is an unsupported expression rather than a subtraction. */
  lemma LeadingMinusUnsupported(st: Store, a: string, b: string)
    requires a != "" && b != ""
    requires NoCharOf(a, OperatorChars) && NoCharOf(b, OperatorChars)
    ensures EvaluateArithmetic(st, "-" + a + "-" + b) == Err(UnsupportedExpression("-" + a + "-" + b))
  {
    var s := "-" + a + "-" + b;
    LeadingMinusSplits(a, b);
    forall j | 0 <= j < |Symbols| && j != 1
      ensures |Split(s, Symbols[j])| == 1
    {
      OtherOperatorAbsent(a, b, j);
      NoOccurrenceWithoutSharedCharacter(s, Symbols[j]);
      SplitWithoutSeparator(s, Symbols[j]);
    }
    assert FirstBinarySplit(s, Symbols).None?;
  }

  lemma LeadingMinusSplits(a: string, b: string)
    requires b != ""
    requires NoCharOf(a, OperatorChars) && NoCharOf(b, OperatorChars)
    ensures Split("-" + a + "-" + b, "-") == ["", a, b]
  {
    var s := "-" + a + "-" + b;
    var rest := a + "-" + b;
    NoCharOfSubset(a, "-", OperatorChars);
    NoCharOfSubset(b, "-", OperatorChars);
    assert s == [] + "-" + rest;
    SplitAllTerminated([], rest, "-");
    SplitAllTerminated(a, b, "-");
    NoOccurrenceWithoutSharedCharacter(b, "-");
    assert SplitAll(b, "-") == [b];
    assert SplitAll(s, "-") == ["", a, b];
  }

  lemma OtherOperatorAbsent(a: string, b: string, j: nat)
    requires NoCharOf(a, OperatorChars) && NoCharOf(b, OperatorChars)
    requires j < |Symbols| && j != 1
    ensures NoCharOf("-" + a + "-" + b, Symbols[j])
  {
    var sep := Symbols[j];
    assert sep == [OperatorChars[j]];
    NoCharOfSubset(a, sep, OperatorChars);
    NoCharOfSubset(b, sep, OperatorChars);
    NoCharOfConcat("-", a, sep);
    NoCharOfConcat("-" + a, "-", sep);
    NoCharOfConcat("-" + a + "-", b, sep);
  }

  /** A variable holding text, added to a printed number, fails the `(int)` cast. */
  lemma TextOperand(st: Store, name: string, z: i32)
    requires z >= 0 && name in st && st[name].StrV? && IsValidName(name)
    ensures EvaluateArithmetic(st, name + "+" + IntToString(z)) == Err(NotAnInteger)
  {
    NameOperand(name);
    PrintedOperandAvoidsOperators(Plus, z);
    TrimLiteral(IntToString(z));
    EvaluatesAtOperator(st, Plus, name, IntToString(z));
  }

  /** A valid name holds no `+` and is left as it is by `trim`. */
  lemma NameOperand(name: string)
    requires IsValidName(name)
    ensures NoCharOf(name, OperatorChars[..1]) && Trim(name) == name
  {
    assert NoCharOf(name, OperatorChars[..1]) by {
      forall i | 0 <= i < |name| ensures IsNamePart(name[i]) { }
    }
    assert !IsBlank(name[0]) && !IsBlank(name[|name| - 1]) by {
      assert IsNamePart(name[|name| - 1]);
    }
    TrimUnpadded(name);
  }
}

=== FILE: comparison_evaluator.dfy ===
/** `ComparisonEvaluator.evaluateComparison`: one comparison of two integer
    operands, with the operator chosen by the same ordered split rule as
    arithmetic.
 */
module ComparisonEvaluator {
  import opened Errors
  import opened JavaInt
  import opened JavaString
  import opened VariableStorage
  import opened Operands

  datatype Operator = Equal | NotEqual | AtMost | AtLeast | Less | Greater

  /** The operators, in the order the evaluator tries them: two-character
      operators before the one-character ones they start with. */
  const Operators: seq<Operator> := [Equal, NotEqual, AtMost, AtLeast, Less, Greater]

  /** Their symbols, in the same order. */
  const Symbols: seq<string> := ["==", "!=", "<=", ">=", "<", ">"]

  /** Every character that occurs in an operator. */
  const OperatorChars: string := "=!<>"

  function Symbol(op: Operator): string {
    match op
    case Equal => "=="
    case NotEqual => "!="
    case AtMost => "<="
    case AtLeast => ">="
    case Less => "<"
    case Greater => ">"
  }

  /** The position of `op` in the order of trial. */
  function Index(op: Operator): (k: nat)
    ensures k < |Operators| && Operators[k] == op && Symbols[k] == Symbol(op)
  {
    match op
    case Equal => 0
    case NotEqual => 1
    case AtMost => 2
    case AtLeast => 3
    case Less => 4
    case Greater => 5
  }

  /** The integer comparison each operator denotes. */
  predicate Holds(op: Operator, a: int, b: int) {
    match op
    case Equal => a == b
    case NotEqual => a != b
    case AtMost => a <= b
    case AtLeast => a >= b
    case Less => a < b
    case Greater => a > b
  }

  /** `evaluateComparison(expr)`. The store is only read. */
  function EvaluateComparison(st: Store, expr: string): (r: Result<bool>)
    ensures r == Err(InvalidComparison(expr)) <==> FirstBinarySplit(expr, Symbols).None?
    ensures r.Err? && r.error.InvalidOperand? ==>
              !HasVariable(st, r.error.operand) && !IsIntegerLiteral(r.error.operand)
    ensures r == Err(ComparisonNeedsIntegers) ==> exists name :: name in st && st[name].StrV?
  {
    match FirstBinarySplit(expr, Symbols)
    case None => Err(InvalidComparison(expr))
    case Some(k) =>
      var parts := Split(expr, Symbols[k]);
      var left :- OperandValue(st, Trim(parts[0]));
      var right :- OperandValue(st, Trim(parts[1]));
      if !left.IntV? || !right.IntV? then Err(ComparisonNeedsIntegers)
      else Ok(Holds(Operators[k], left.n, right.n))
  }

  /** No operator is a piece of an operator tried after it. */
  lemma EarlierSymbolAbsent(j: nat, k: nat, i: int)
    requires j < k < |Symbols|
    ensures !OccursAt(Symbols[k], Symbols[j], i)
  {
    var s, p := Symbols[k], Symbols[j];
    assert |p| > |s| || (|p| == |s| && p != s);
    assert s[0..|s|] == s;
  }

  lemma SymbolCharacters(j: nat)
    requires j < |Symbols|
    ensures forall x :: 0 <= x < |Symbols[j]| ==> Symbols[j][x] in OperatorChars
  {
  }

  /** Text of the form `A op B`, where `A` and `B` contain no operator
      character, is split at `op` into `A` and `B`: `x<=5` splits at `<=`
      and never at `<`. */
  lemma SplitsAtOperator(op: Operator, a: string, b: string)
    requires b != ""
    requires NoCharOf(a, OperatorChars) && NoCharOf(b, OperatorChars)
    ensures FirstBinarySplit(a + Symbol(op) + b, Symbols) == Some(Index(op))
    ensures Split(a + Symbol(op) + b, Symbol(op)) == [a, b]
  {
    var s := a + Symbol(op) + b;
    var k := Index(op);
    forall j | 0 <= j < k
      ensures Split(s, Symbols[j]) == [s]
    {
      EarlierOperatorDoesNotSplit(op, a, b, j);
    }
    SymbolCharacters(k);
    NoCharOfSubset(a, Symbol(op), OperatorChars);
    NoCharOfSubset(b, Symbol(op), OperatorChars);
    SplitAroundOperator(a, Symbol(op), b);
  }

  lemma EarlierOperatorDoesNotSplit(op: Operator, a: string, b: string, j: nat)
    requires NoCharOf(a, OperatorChars) && NoCharOf(b, OperatorChars)
    requires j < Index(op)
    ensures Split(a + Symbol(op) + b, Symbols[j]) == [a + Symbol(op) + b]
  {
    var s := a + Symbol(op) + b;
    var sep := Symbols[j];
    SymbolCharacters(j);
    NoCharOfSubset(a, sep, OperatorChars);
    NoCharOfSubset(b, sep, OperatorChars);
    forall i ensures !OccursAt(s, sep, i) {
      if OccursAt(s, sep, i) {
        OccurrenceInsideOperator(a, Symbol(op), b, sep, i);
        EarlierSymbolAbsent(j, Index(op), i - |a|);
      }
    }
    SplitWithoutSeparator(s, sep);
  }

  /** With both sides resolving to integers, `A op B` evaluates to the integer comparison. */
  lemma ComparesResolvedOperands(st: Store, op: Operator, a: string, b: string, x: i32, y: i32)
    requires b != ""
    requires NoCharOf(a, OperatorChars) && NoCharOf(b, OperatorChars)
    requires OperandValue(st, Trim(a)) == Ok(IntV(x)) && OperandValue(st, Trim(b)) == Ok(IntV(y))
    ensures EvaluateComparison(st, a + Symbol(op) + b) == Ok(Holds(op, x, y))
  {
    SplitsAtOperator(op, a, b);
  }

  /** Comparing two printed `int`s gives the integer comparison, for every
      operator and every pair of values. */
  lemma ComparesPrintedOperands(st: Store, op: Operator, x: i32, y: i32)
    requires ValidStore(st)
    ensures EvaluateComparison(st, IntToString(x) + Symbol(op) + IntToString(y)) == Ok(Holds(op, x, y))
  {
    var a, b := IntToString(x), IntToString(y);
    PrintedOperandAvoidsOperators(x);
    PrintedOperandAvoidsOperators(y);
    TrimLiteral(a);
    TrimLiteral(b);
    LiteralOperand(st, a);
    LiteralOperand(st, b);
    ComparesResolvedOperands(st, op, a, b, x, y);
  }

  lemma PrintedOperandAvoidsOperators(x: i32)
    ensures NoCharOf(IntToString(x), OperatorChars)
  {
    var a := IntToString(x);
    forall i, j | 0 <= i < |a| && 0 <= j < |OperatorChars| ensures a[i] != OperatorChars[j] {
      LiteralCharacters(a, i);
    }
  }

  /** Text with no operator character at all is an invalid comparison. */
  lemma NoOperatorInvalid(st: Store, expr: string)
    requires NoCharOf(expr, OperatorChars)
    ensures EvaluateComparison(st, expr) == Err(InvalidComparison(expr))
  {
    forall j | 0 <= j < |Symbols|
      ensures |Split(expr, Symbols[j])| != 2
    {
      SymbolCharacters(j);
      NoCharOfSubset(expr, Symbols[j], OperatorChars);
      NoOccurrenceWithoutSharedCharacter(expr, Symbols[j]);
      SplitWithoutSeparator(expr, Symbols[j]);
    }
    assert FirstBinarySplit(expr, Symbols).None?;
  }

  /** A valid name that is not bound, compared with anything, is an invalid operand. */
  lemma UndefinedOperand(st: Store, op: Operator, name: string, y: i32)
    requires IsValidName(name) && name !in st
    ensures EvaluateComparison(st, name + Symbol(op) + IntToString(y)) == Err(InvalidOperand(name))
  {
    assert NoCharOf(name, OperatorChars) by {
      forall i | 0 <= i < |name| ensures IsNamePart(name[i]) { }
    }
    assert !IsBlank(name[0]) && !IsBlank(name[|name| - 1]) by {
      assert IsNamePart(name[|name| - 1]);
    }
    TrimUnpadded(name);
    assert !IsIntegerLiteral(name) by {
      assert !IsDigit(name[0]) && name[0] != '-';
    }
    PrintedOperandAvoidsOperators(y);
    SplitsAtOperator(op, name, IntToString(y));
  }

  /** A variable holding text cannot be compared, even with itself. */
  lemma TextOperand(st: Store, op: Operator, name: string)
    requires IsValidName(name) && name in st && st[name].StrV?
    ensures EvaluateComparison(st, name + Symbol(op) + name) == Err(ComparisonNeedsIntegers)
  {
    assert NoCharOf(name, OperatorChars) by {
      forall i | 0 <= i < |name| ensures IsNamePart(name[i]) { }
    }
    assert !IsBlank(name[0]) && !IsBlank(name[|name| - 1]) by {
      assert IsNamePart(name[|name| - 1]);
    }
    TrimUnpadded(name);
    SplitsAtOperator(op, name, name);
  }

  /** A single `=` is not a comparison operator. */
  lemma SingleEqualsExample(st: Store)
    ensures EvaluateComparison(st, "x=5") == Err(InvalidComparison("x=5"))
  {
    var s := "x=5";
    assert s[0..2] == "x=" && s[1..3] == "=5";
    assert forall i :: !OccursAt(s, "==", i);
    SplitWithoutSeparator(s, "==");
    forall j | 1 <= j < |Symbols|
      ensures |Split(s, Symbols[j])| == 1
    {
      if j < 4 {
        assert forall i :: !OccursAt(s, Symbols[j], i);
      } else {
        assert NoCharOf(s, Symbols[j]);
        NoOccurrenceWithoutSharedCharacter(s, Symbols[j]);
      }
      SplitWithoutSeparator(s, Symbols[j]);
    }
    assert FirstBinarySplit(s, Symbols).None?;
  }
}

=== FILE: digits.dfy ===
/** Facts about the decimal text of a natural number, the reference the digit
    algorithms are specified against: `NatToString(m)` is the text Java prints
    for `m`, most significant digit first.
 */
module Digits {
  import opened JavaString

  function Pow10(k: nat): (r: nat)
    ensures r >= 1
  {
    if k == 0 then 1 else 10 * Pow10(k - 1)
  }

  /** The sequence read back to front. */
  function Reversed<T>(s: seq<T>): (r: seq<T>)
    ensures |r| == |s|
    ensures forall i :: 0 <= i < |s| ==> r[i] == s[|s| - 1 - i]
  {
    if s == [] then [] else [s[|s| - 1]] + Reversed(s[..|s| - 1])
  }

  lemma {:induction false} ReversedTwice<T>(s: seq<T>)
    ensures Reversed(Reversed(s)) == s
  {
    var r := Reversed(s);
    assert forall i :: 0 <= i < |s| ==> Reversed(r)[i] == r[|s| - 1 - i] == s[i];
  }

  /** The text of `m` is the text of `m / 10` followed by the last digit. */
  lemma NatToStringStep(m: nat)
    requires m >= 10
    ensures NatToString(m) == NatToString(m / 10) + [DigitChar(m % 10)]
  {
  }

  /** A digit in front contributes its value times ten to the length of the rest. */
  lemma {:induction false} DigitsValuePrepend(c: char, u: string)
    requires IsDigit(c) && AllDigits(u)
    ensures AllDigits([c] + u)
    ensures DigitsValue([c] + u) == DigitValue(c) * Pow10(|u|) + DigitsValue(u)
    decreases |u|
  {
    var s := [c] + u;
    if u != [] {
      var init := u[..|u| - 1];
      assert s[..|s| - 1] == [c] + init;
      DigitsValuePrepend(c, init);
      assert s[|s| - 1] == u[|u| - 1];
      assert DigitsValue(s) == DigitsValue([c] + init) * 10 + DigitValue(u[|u| - 1]);
      assert DigitsValue(u) == DigitsValue(init) * 10 + DigitValue(u[|u| - 1]);
      ShiftDigit(DigitValue(c), Pow10(|init|), DigitsValue(init), DigitValue(u[|u| - 1]));
    }
  }

  /** Appending a digit multiplies the leading part's weight by ten. */
  lemma ShiftDigit(a: int, p: int, b: int, d: int)
    ensures (a * p + b) * 10 + d == a * (p * 10) + (b * 10 + d)
  {
  }

  lemma {:induction false} DigitsValueBound(s: string)
    requires AllDigits(s)
    ensures DigitsValue(s) < Pow10(|s|)
    decreases |s|
  {
    if s != [] {
      DigitsValueBound(s[..|s| - 1]);
    }
  }

  /** Two digit strings of the same length spell the same number only if they are equal. */
  lemma {:induction false} DigitsValueInjective(s: string, t: string)
    requires AllDigits(s) && AllDigits(t) && |s| == |t|
    requires DigitsValue(s) == DigitsValue(t)
    ensures s == t
    decreases |s|
  {
    if s != [] {
      var n := |s| - 1;
      var ds, dt := DigitValue(s[n]), DigitValue(t[n]);
      var vs, vt := DigitsValue(s[..n]), DigitsValue(t[..n]);
      LastDigitDetermines(vs, ds, vt, dt);
      DigitsValueInjective(s[..n], t[..n]);
      SameInitAndLast(s, t);
    }
  }

  lemma SameInitAndLast(s: string, t: string)
    requires |s| == |t| > 0 && s[..|s| - 1] == t[..|t| - 1] && s[|s| - 1] == t[|t| - 1]
    ensures s == t
  {
    assert s == s[..|s| - 1] + [s[|s| - 1]] && t == t[..|t| - 1] + [t[|t| - 1]];
  }

  /** A number times ten plus a digit determines both the number and the digit. */
  lemma LastDigitDetermines(v: int, d: int, w: int, e: int)
    requires 0 <= d < 10 && 0 <= e < 10 && v * 10 + d == w * 10 + e
    ensures v == w && d == e
  {
  }

  /** A digit string without a leading zero is the text of the number it spells. */
  lemma {:induction false} NatToStringOfDigits(s: string)
    requires s != [] && AllDigits(s) && (s[0] == '0' ==> |s| == 1)
    ensures NatToString(DigitsValue(s)) == s
    decreases |s|
  {
    var v := DigitsValue(s);
    var n := |s| - 1;
    if n == 0 {
      assert s[..|s| - 1] == [];
      assert DigitsValue(s[..|s| - 1]) == 0;
      assert v == DigitValue(s[0]);
      assert [DigitChar(v)] == s;
    } else {
      var init := s[..n];
      assert init[0] == s[0];
      NatToStringOfDigits(init);
      var w := DigitsValue(init);
      assert NatToString(0) == "0";
      assert w >= 1;
      assert v == w * 10 + DigitValue(s[n]);
      assert v / 10 == w && v % 10 == DigitValue(s[n]);
      NatToStringStep(v);
      assert s == init + [s[n]];
    }
  }

  /** The number whose text is the text of `m` read back to front. */
  function ReversedValue(m: nat): nat {
    var t := Reversed(NatToString(m));
    assert AllDigits(t);
    DigitsValue(t)
  }

  /** Reversing the text of `m` puts its last digit in front. */
  lemma ReversedValueStep(m: nat)
    requires m >= 10
    ensures ReversedValue(m) == (m % 10) * Pow10(|NatToString(m / 10)|) + ReversedValue(m / 10)
    ensures |NatToString(m)| == |NatToString(m / 10)| + 1
  {
    var u := NatToString(m / 10);
    var c := DigitChar(m % 10);
    NatToStringStep(m);
    var ru := Reversed(u);
    assert Reversed(u + [c]) == [c] + ru;
    assert AllDigits(ru);
    DigitsValuePrepend(c, ru);
  }

  /** The largest digit in a digit string, 0 for the empty string. */
  function MaxDigit(s: string): (r: nat)
    requires AllDigits(s)
    ensures r <= 9
    ensures forall i :: 0 <= i < |s| ==> DigitValue(s[i]) <= r
    ensures s != [] ==> exists i :: 0 <= i < |s| && DigitValue(s[i]) == r
    ensures s == [] ==> r == 0
  {
    if s == [] then 0
    else
      var m := MaxDigit(s[..|s| - 1]);
      var d := DigitValue(s[|s| - 1]);
      assert forall i :: 0 <= i < |s| - 1 ==> s[i] == s[..|s| - 1][i];
      if d < m then m else d
  }

  /** The sum of the digits of a digit string. */
  function DigitSum(s: string): nat
    requires AllDigits(s)
  {
    if s == [] then 0 else DigitSum(s[..|s| - 1]) + DigitValue(s[|s| - 1])
  }

  lemma MaxDigitStep(m: nat)
    ensures MaxDigit(NatToString(m)) == if MaxDigit(NatToString(m / 10)) < m % 10 then m % 10 else MaxDigit(NatToString(m / 10))
  {
    if m >= 10 {
      NatToStringStep(m);
      assert NatToString(m)[..|NatToString(m)| - 1] == NatToString(m / 10);
    } else {
      assert NatToString(0) == "0";
    }
  }

  lemma DigitSumStep(m: nat)
    ensures DigitSum(NatToString(m)) == DigitSum(NatToString(m / 10)) + m % 10
  {
    if m >= 10 {
      NatToStringStep(m);
      assert NatToString(m)[..|NatToString(m)| - 1] == NatToString(m / 10);
    } else {
      assert NatToString(0) == "0";
    }
  }

  /** A digit sum never exceeds the number. */
  lemma {:induction false} DigitSumBound(m: nat)
    ensures DigitSum(NatToString(m)) <= m
    decreases m
  {
    DigitSumStep(m);
    if m >= 10 {
      DigitSumBound(m / 10);
    }
  }
}

=== FILE: errors.dfy ===
/** The exceptions the interpreter core raises, as values.

    Each constructor stands for one Java exception (or one message of one
    exception class); the Reader module turns them into the text Java prints.
 */
module Errors {

  datatype Error =
    /** VariableStorage.setVariable: the name fails the identifier pattern. */
    | InvalidVariableName(name: string)
    /** VariableStorage.getVariable: no binding for the name. */
    | UndefinedVariable(name: string)
    /** getOperandValue: neither a variable nor an integer literal. */
    | InvalidOperand(operand: string)
    /** Integer.parseInt: malformed or out-of-range literal (NumberFormatException). */
    | NumberFormat(input: string)
    /** The `(int)` cast of a text value (ClassCastException). */
    | NotAnInteger
    /** evaluateArithmetic: no operator splits the text into two parts. */
    | UnsupportedExpression(expression: string)
    /** evaluateArithmetic: explicit zero check before `/`. */
    | DivideByZero
    /** Java `%` with a zero divisor (ArithmeticException "/ by zero"). */
    | RemainderByZero
    /** evaluateComparison: an operand holds text. */
    | ComparisonNeedsIntegers
    /** evaluateComparison: no operator splits the text into two parts. */
    | InvalidComparison(expression: string)
    /** Reader.evaluateExpression: any failure while resolving a right-hand side. */
    | InvalidExpression(expression: string)
    /** Reader.processAssignment: the statement does not split into two parts on `=`. */
    | InvalidAssignment(statement: string)
    /** Reader.processWhileLoop: missing `while(` prefix or `){`. */
    | InvalidWhile
    /** Reader.processIfStatement: missing `(` or `)`. */
    | InvalidIf
    /** Reader.processPrint: missing `print(` prefix or closing `)`. */
    | InvalidPrint
    /** String.substring with bounds outside the string. */
    | StringIndexOutOfBounds(begin: int, end: int, length: int)
    /** Array access past the end of the argument list of a built-in call. */
    | ArrayIndexOutOfBounds(index: int, length: int)

  /** The outcome of an operation that may throw. */
  datatype Result<+T> = Ok(value: T) | Err(error: Error) {

    predicate IsFailure() {
      Err?
    }

    function PropagateFailure<U>(): Result<U>
      requires Err?
    {
      Err(error)
    }

    function Extract(): T
      requires Ok?
    {
      value
    }
  }

  datatype Option<+T> = None | Some(value: T)
}

=== FILE: java_int.dfy ===
/** Java `int` arithmetic over Dafny's unbounded integers.

    `+`, `-` and `*` wrap around modulo 2^32; `/` and `%` truncate toward
    zero (Dafny's own `/` and `%` are Euclidean, so they are not used on
    possibly negative operands here).
 */
module JavaInt {

  const MIN_VALUE: int := -0x8000_0000
  const MAX_VALUE: int := 0x7fff_ffff
  const MODULUS: int := 0x1_0000_0000

  /** The values a Java `int` can hold. */
  type i32 = x: int | MIN_VALUE <= x <= MAX_VALUE

  predicate InRange(x: int) {
    MIN_VALUE <= x <= MAX_VALUE
  }

  function Abs(x: int): nat {
    if x < 0 then -x else x
  }

  /** The `int` that a 32-bit two's-complement machine keeps of `x`. */
  function Wrap(x: int): (r: i32)
    ensures (x - r) % MODULUS == 0
    ensures InRange(x) ==> r == x
  {
    var m := (x - MIN_VALUE) % MODULUS;
    assert x - MIN_VALUE == MODULUS * ((x - MIN_VALUE) / MODULUS) + m;
    m + MIN_VALUE
  }

  /** Integers that agree modulo 2^32 wrap to the same `int`. */
  lemma WrapCongruent(x: int, y: int)
    requires (x - y) % MODULUS == 0
    ensures Wrap(x) == Wrap(y)
  {
    var k := (x - y) / MODULUS;
    assert x - MIN_VALUE == (y - MIN_VALUE) + MODULUS * k;
    ModuloShift(y - MIN_VALUE, k);
  }

  lemma ModuloShift(a: int, k: int)
    ensures (a + MODULUS * k) % MODULUS == a % MODULUS
  {
    var q := a / MODULUS;
    var m := a % MODULUS;
    assert a + MODULUS * k == MODULUS * (q + k) + m;
  }

  /** Wrapping an operand of `+` first does not change the wrapped sum. */
  lemma WrapAdd(a: int, b: int)
    ensures Wrap(Wrap(a) + b) == Wrap(a + b)
  {
    var q := (a - Wrap(a)) / MODULUS;
    assert (Wrap(a) + b) - (a + b) == -(MODULUS * q);
    WrapCongruent(Wrap(a) + b, a + b);
  }

  /** Wrapping an operand of `*` first does not change the wrapped product. */
  lemma WrapMul(a: int, b: int)
    ensures Wrap(Wrap(a) * b) == Wrap(a * b)
  {
    var q := (a - Wrap(a)) / MODULUS;
    assert a - Wrap(a) == MODULUS * q;
    calc {
      Wrap(a) * b - a * b;
      (Wrap(a) - a) * b;
      { assert Wrap(a) - a == -(MODULUS * q); }
      -(MODULUS * q) * b;
      MODULUS * (-(q * b));
    }
    WrapCongruent(Wrap(a) * b, a * b);
  }

  /** Wrapping a factor of a product inside a sum does not change the wrapped result. */
  lemma WrapMulAdd(x: int, k: int, y: int)
    ensures Wrap(Wrap(x) * k + y) == Wrap(x * k + y)
  {
    var q := (x - Wrap(x)) / MODULUS;
    assert x - Wrap(x) == MODULUS * q;
    assert (Wrap(x) * k + y) - (x * k + y) == MODULUS * (-(q * k)) by {
      assert (Wrap(x) * k + y) - (x * k + y) == (Wrap(x) - x) * k;
    }
    ModuloShift(0, -(q * k));
    WrapCongruent(Wrap(x) * k + y, x * k + y);
  }

  /** The `int` sum of two wrapped values is the wrapped sum. */
  lemma WrapAddBoth(x: int, y: int)
    ensures Wrap(Wrap(x) + Wrap(y)) == Wrap(x + y)
  {
    WrapAdd(x, Wrap(y));
    WrapAdd(y, x);
  }

  /** A multiple of 2^32 wraps to zero. */
  lemma WrapMultiple(x: int)
    requires x % MODULUS == 0
    ensures Wrap(x) == 0
  {
    WrapCongruent(x, 0);
  }

  /** Java `a + b` on `int`. */
  function Add(a: i32, b: i32): (r: i32)
    ensures InRange(a + b) ==> r == a + b
    ensures (a + b - r) % MODULUS == 0
  {
    Wrap(a + b)
  }

  /** Java `a - b` on `int`. */
  function Sub(a: i32, b: i32): (r: i32)
    ensures InRange(a - b) ==> r == a - b
    ensures (a - b - r) % MODULUS == 0
  {
    Wrap(a - b)
  }

  /** Java `a * b` on `int`. */
  function Mul(a: i32, b: i32): (r: i32)
    ensures InRange(a * b) ==> r == a * b
    ensures (a * b - r) % MODULUS == 0
  {
    Wrap(a * b)
  }

  /** The quotient of `a` by `b` truncated toward zero, without wrap-around. */
  function Quot(a: int, b: int): (q: int)
    requires b != 0
    ensures Abs(b) * Abs(q) <= Abs(a) < Abs(b) * Abs(q) + Abs(b)
    ensures q != 0 ==> ((q > 0) <==> ((a > 0) == (b > 0)))
  {
    var q := if (a < 0) == (b < 0) then Abs(a) / Abs(b) else -(Abs(a) / Abs(b));
    QuotBounds(a, b, q);
    q
  }

  /** The truncated quotient's magnitude is the Euclidean quotient of the magnitudes. */
  lemma QuotBounds(a: int, b: int, q: int)
    requires b != 0
    requires q == if (a < 0) == (b < 0) then Abs(a) / Abs(b) else -(Abs(a) / Abs(b))
    ensures Abs(b) * Abs(q) <= Abs(a) < Abs(b) * Abs(q) + Abs(b)
    ensures q != 0 ==> ((q > 0) <==> ((a > 0) == (b > 0)))
  {
    var x, y, m := Abs(a), Abs(b), Abs(a) / Abs(b);
    QuotientBounds(x, y);
    assert m >= 0;
    assert Abs(q) == m;
    if a == 0 {
      assert m == 0;
    }
  }

  /** Euclidean division of naturals brackets the dividend between two multiples. */
  lemma QuotientBounds(x: nat, y: nat)
    requires y > 0
    ensures y * (x / y) <= x < y * (x / y) + y
    ensures x / y >= 0
  {
    assert x == y * (x / y) + x % y;
  }

  /** The truncated quotient fits in an `int`, except for MIN_VALUE / -1, which is 2^31. */
  lemma QuotInRange(a: i32, b: i32)
    requires b != 0
    ensures !(a == MIN_VALUE && b == -1) ==> InRange(Quot(a, b))
    ensures a == MIN_VALUE && b == -1 ==> Quot(a, b) == -MIN_VALUE
  {
    var x, y := Abs(a), Abs(b);
    var m := x / y;
    var q := Quot(a, b);
    assert q == m || q == -m;
    assert x <= -MIN_VALUE;
    if y == 1 {
      assert m == x;
      if a == MIN_VALUE {
        assert b == 1 || b == -1;
      }
    } else {
      QuotientBounds(x, y);
      TwiceAtMost(m, y);
      assert 2 * m <= x;
    }
  }

  /** Multiplying by at least two at least doubles a natural. */
  lemma TwiceAtMost(m: nat, y: nat)
    requires y >= 2
    ensures 2 * m <= y * m
  {
    var k: nat := y - 2;
    assert y * m == 2 * m + k * m;
  }

  /** Java `a / b` on `int`: truncates toward zero, and MIN_VALUE / -1 overflows to MIN_VALUE. */
  function Div(a: i32, b: i32): (r: i32)
    requires b != 0
    ensures !(a == MIN_VALUE && b == -1) ==> r == Quot(a, b)
    ensures a == MIN_VALUE && b == -1 ==> r == MIN_VALUE
  {
    QuotInRange(a, b);
    if a == MIN_VALUE && b == -1 then WrapCongruent(-MIN_VALUE, MIN_VALUE); Wrap(Quot(a, b))
    else Wrap(Quot(a, b))
  }

  /** Java `a % b` on `int`: the remainder of truncated division, signed like `a`. */
  function Rem(a: i32, b: i32): (r: i32)
    requires b != 0
    ensures a == b * Quot(a, b) + r
    ensures Abs(r) < Abs(b)
    ensures r != 0 ==> ((r < 0) <==> (a < 0))
  {
    var m := Abs(a) % Abs(b);
    TruncatedDivision(a, b);
    if a < 0 then -m else m
  }

  /** `a` is `b` times the truncated quotient plus the remainder signed like `a`. */
  lemma TruncatedDivision(a: int, b: int)
    requires b != 0
    ensures var m := Abs(a) % Abs(b);
            a == b * Quot(a, b) + (if a < 0 then -m else m)
  {
    var q, m := Abs(a) / Abs(b), Abs(a) % Abs(b);
    assert Abs(a) == Abs(b) * q + m;
    var p := b * Quot(a, b);
    if b > 0 {
      assert p == Abs(b) * Quot(a, b);
    } else {
      assert p == Abs(b) * -Quot(a, b);
    }
    assert p == Abs(b) * q || p == -(Abs(b) * q) by {
      assert Quot(a, b) == q || Quot(a, b) == -q;
    }
    if a < 0 {
      assert p == -(Abs(b) * q);
    } else {
      assert p == Abs(b) * q;
    }
  }
}

=== FILE: java_string.dfy ===
/** The `java.lang.String` and `java.lang.Integer` operations the interpreter relies on.

    Strings are sequences of characters. `split` is only ever called with a
    separator that the regular-expression engine reads literally, so it is
    modelled as a literal split; the three regular expressions the source
    matches against are modelled as explicit predicates.
 */
module JavaString {
  import opened Errors
  import opened JavaInt

  /** `p` occurs in `s` starting at index `i`. */
  predicate OccursAt(s: string, p: string, i: int) {
    0 <= i && i + |p| <= |s| && s[i..i + |p|] == p
  }

  function IndexOfFrom(s: string, p: string, from: nat): (r: int)
    ensures r == -1 || (from <= r && OccursAt(s, p, r))
    ensures forall j :: from <= j && (r == -1 || j < r) ==> !OccursAt(s, p, j)
    decreases |s| - from
  {
    if from + |p| > |s| then -1
    else if s[from..from + |p|] == p then from
    else IndexOfFrom(s, p, from + 1)
  }

  /** `s.indexOf(p)`: the first index at which `p` occurs, or -1. */
  function IndexOf(s: string, p: string): (r: int)
    ensures r == -1 || OccursAt(s, p, r)
    ensures forall j :: 0 <= j && (r == -1 || j < r) ==> !OccursAt(s, p, j)
  {
    IndexOfFrom(s, p, 0)
  }

  function LastIndexOfAtMost(s: string, p: string, i: int): (r: int)
    ensures r == -1 || (0 <= r <= i && OccursAt(s, p, r))
    ensures forall j :: r < j <= i ==> !OccursAt(s, p, j)
    decreases i + 1
  {
    if i < 0 then -1
    else if OccursAt(s, p, i) then i
    else LastIndexOfAtMost(s, p, i - 1)
  }

  /** `s.lastIndexOf(p)`: the last index at which `p` occurs, or -1. */
  function LastIndexOf(s: string, p: string): (r: int)
    ensures r == -1 || OccursAt(s, p, r)
    ensures forall j :: r < j ==> !OccursAt(s, p, j)
  {
    LastIndexOfAtMost(s, p, |s| - |p|)
  }

  /** `s.contains(p)`. */
  predicate Contains(s: string, p: string) {
    IndexOf(s, p) >= 0
  }

  /** `s.startsWith(p)`. */
  predicate StartsWith(s: string, p: string) {
    |p| <= |s| && s[..|p|] == p
  }

  /** `s.endsWith(p)`. */
  predicate EndsWith(s: string, p: string) {
    |p| <= |s| && s[|s| - |p|..] == p
  }

  /** `s.substring(begin, end)`, which throws unless 0 <= begin <= end <= length. */
  function Substring(s: string, begin: int, end: int): Result<string> {
    if 0 <= begin <= end <= |s| then Ok(s[begin..end])
    else Err(StringIndexOutOfBounds(begin, end, |s|))
  }

  /** The characters `trim` removes: every code point up to and including the space. */
  predicate IsBlank(c: char) {
    c <= ' '
  }

  predicate AllBlank(s: string) {
    forall k :: 0 <= k < |s| ==> IsBlank(s[k])
  }

  function TrimStart(s: string, i: nat): (r: nat)
    requires i <= |s|
    ensures i <= r <= |s|
    ensures forall k :: i <= k < r ==> IsBlank(s[k])
    ensures r < |s| ==> !IsBlank(s[r])
    decreases |s| - i
  {
    if i < |s| && IsBlank(s[i]) then TrimStart(s, i + 1) else i
  }

  function TrimEnd(s: string, start: nat, len: nat): (r: nat)
    requires start <= len <= |s|
    ensures start <= r <= len
    ensures forall k :: r <= k < len ==> IsBlank(s[k])
    ensures start < r ==> !IsBlank(s[r - 1])
    decreases len
  {
    if start < len && IsBlank(s[len - 1]) then TrimEnd(s, start, len - 1) else len
  }

  /** `s.trim()`: drops blanks from both ends. */
  function Trim(s: string): (r: string)
    ensures |r| <= |s|
    ensures r == [] <==> AllBlank(s)
    ensures r != [] ==> !IsBlank(r[0]) && !IsBlank(r[|r| - 1])
  {
    var start := TrimStart(s, 0);
    var len := TrimEnd(s, start, |s|);
    assert !AllBlank(s) ==> start < |s| && !IsBlank(s[start]);
    s[start..len]
  }

  /** Blank padding around text that starts and ends with a non-blank is exactly what `trim` removes. */
  lemma TrimPadded(a: string, t: string, b: string)
    requires AllBlank(a) && AllBlank(b)
    requires t != [] ==> !IsBlank(t[0]) && !IsBlank(t[|t| - 1])
    ensures Trim(a + t + b) == t
  {
    var s := a + t + b;
    if t == [] {
      assert AllBlank(s) by {
        forall k | 0 <= k < |s| ensures IsBlank(s[k]) {
          if k < |a| { assert s[k] == a[k]; } else { assert s[k] == b[k - |a|]; }
        }
      }
    } else {
      assert forall k :: 0 <= k < |a| ==> s[k] == a[k];
      assert forall k :: |a| + |t| <= k < |s| ==> s[k] == b[k - |a| - |t|];
      assert s[|a|] == t[0];
      assert s[|a| + |t| - 1] == t[|t| - 1];
      var start := TrimStart(s, 0);
      assert start == |a|;
      var len := TrimEnd(s, start, |s|);
      assert len == |a| + |t|;
      assert s[start..len] == t;
    }
  }

  /** Trimming twice is trimming once. */
  lemma TrimIdempotent(s: string)
    ensures Trim(Trim(s)) == Trim(s)
  {
    TrimUnpadded(Trim(s));
  }

  /** Every piece of `s` around the occurrences of `sep`, found left to right
      without overlap, trailing empty pieces included. */
  function SplitAll(s: string, sep: string): (parts: seq<string>)
    requires |sep| > 0
    ensures |parts| >= 1
    decreases |s|
  {
    var i := IndexOf(s, sep);
    if i < 0 then [s] else [s[..i]] + SplitAll(s[i + |sep|..], sep)
  }

  function DropTrailingEmpty(parts: seq<string>): (r: seq<string>)
    ensures |r| <= |parts| && r == parts[..|r|]
    ensures forall k :: |r| <= k < |parts| ==> parts[k] == ""
    ensures r == [] || r[|r| - 1] != ""
  {
    if parts == [] || parts[|parts| - 1] != "" then parts
    else DropTrailingEmpty(parts[..|parts| - 1])
  }

  /** `s.split(sep)` with a literally read separator: a string without the
      separator splits into itself; otherwise trailing empty pieces are dropped
      and a leading empty piece is kept. */
  function Split(s: string, sep: string): seq<string>
    requires |sep| > 0
  {
    if IndexOf(s, sep) < 0 then [s] else DropTrailingEmpty(SplitAll(s, sep))
  }

  /** The inverse of a split: the pieces glued back with the separator. */
  function Join(parts: seq<string>, sep: string): string
  {
    if |parts| == 0 then ""
    else if |parts| == 1 then parts[0]
    else parts[0] + sep + Join(parts[1..], sep)
  }

  function Repeat(s: string, n: nat): string
  {
    if n == 0 then "" else s + Repeat(s, n - 1)
  }

  /** Gluing the pieces of a split back together restores the text. */
  lemma {:induction false} JoinSplitAll(s: string, sep: string)
    requires |sep| > 0
    ensures Join(SplitAll(s, sep), sep) == s
    decreases |s|
  {
    var i := IndexOf(s, sep);
    if i >= 0 {
      var rest := s[i + |sep|..];
      JoinSplitAll(rest, sep);
      JoinCons(s[..i], SplitAll(rest, sep), sep);
      AroundOccurrence(s, sep, i);
    }
  }

  /** Joining a first piece in front of the others puts one separator between them. */
  lemma JoinCons(a: string, parts: seq<string>, sep: string)
    requires |parts| >= 1
    ensures Join([a] + parts, sep) == a + sep + Join(parts, sep)
  {
    assert ([a] + parts)[1..] == parts;
  }

  /** A text is what comes before an occurrence, the occurrence, and what comes after. */
  lemma AroundOccurrence(s: string, p: string, i: int)
    requires OccursAt(s, p, i)
    ensures s == s[..i] + p + s[i + |p|..]
  {
    assert s == s[..i] + s[i..i + |p|] + s[i + |p|..];
  }

  /** No piece of a split contains the separator. */
  lemma {:induction false} SplitAllPiecesLackSeparator(s: string, sep: string)
    requires |sep| > 0
    ensures forall k :: 0 <= k < |SplitAll(s, sep)| ==> !Contains(SplitAll(s, sep)[k], sep)
    decreases |s|
  {
    var i := IndexOf(s, sep);
    if i >= 0 {
      var rest := s[i + |sep|..];
      SplitAllPiecesLackSeparator(rest, sep);
      PrefixBeforeFirstOccurrence(s, sep, i);
      var parts := SplitAll(s, sep);
      forall k | 0 <= k < |parts| ensures !Contains(parts[k], sep) {
        if k > 0 {
          assert parts[k] == SplitAll(rest, sep)[k - 1];
        }
      }
    }
  }

  lemma PrefixBeforeFirstOccurrence(s: string, sep: string, i: int)
    requires |sep| > 0 && 0 <= i <= |s|
    requires forall j :: 0 <= j < i ==> !OccursAt(s, sep, j)
    ensures !Contains(s[..i], sep)
  {
    var t := s[..i];
    var j := IndexOf(t, sep);
    if j >= 0 {
      assert t[j..j + |sep|] == s[j..j + |sep|];
      assert OccursAt(s, sep, j);
    }
  }

  lemma {:induction false} JoinAppendEmpty(parts: seq<string>, sep: string)
    requires |parts| > 0
    ensures Join(parts + [""], sep) == Join(parts, sep) + sep
    decreases |parts|
  {
    if |parts| > 1 {
      JoinAppendEmpty(parts[1..], sep);
      assert (parts + [""])[1..] == parts[1..] + [""];
    }
  }

  lemma {:induction false} JoinOfEmpties(parts: seq<string>, sep: string)
    requires |parts| > 0
    requires forall k :: 0 <= k < |parts| ==> parts[k] == ""
    ensures Join(parts, sep) == Repeat(sep, |parts| - 1)
    decreases |parts|
  {
    if |parts| > 1 {
      JoinOfEmpties(parts[1..], sep);
    }
  }

  lemma {:induction false} RepeatAppend(s: string, n: nat)
    ensures Repeat(s, n) + s == Repeat(s, n + 1)
    decreases n
  {
    if n > 0 {
      RepeatAppend(s, n - 1);
    }
  }

  /** Dropping trailing empty pieces loses only trailing separators. */
  lemma {:induction false} JoinDropTrailing(parts: seq<string>, sep: string, keep: nat)
    requires 0 < keep <= |parts|
    requires forall k :: keep <= k < |parts| ==> parts[k] == ""
    ensures Join(parts, sep) == Join(parts[..keep], sep) + Repeat(sep, |parts| - keep)
    decreases |parts|
  {
    if |parts| > keep {
      var init := parts[..|parts| - 1];
      JoinDropTrailing(init, sep, keep);
      assert parts == init + [""];
      JoinAppendEmpty(init, sep);
      assert init[..keep] == parts[..keep];
      RepeatAppend(sep, |init| - keep);
    } else {
      assert parts[..keep] == parts;
    }
  }

  /** Java's split round trip: the pieces contain no separator, and gluing them
      back yields the text minus some trailing copies of the separator. */
  lemma SplitRejoins(s: string, sep: string)
    requires |sep| > 0
    ensures forall k :: 0 <= k < |Split(s, sep)| ==> !Contains(Split(s, sep)[k], sep)
    ensures exists n: nat :: s == Join(Split(s, sep), sep) + Repeat(sep, n)
  {
    var all := SplitAll(s, sep);
    var r := Split(s, sep);
    JoinSplitAll(s, sep);
    SplitAllPiecesLackSeparator(s, sep);
    if IndexOf(s, sep) < 0 {
      assert s == Join(r, sep) + Repeat(sep, 0);
    } else if r == [] {
      JoinOfEmpties(all, sep);
      assert s == Join(r, sep) + Repeat(sep, |all| - 1);
    } else {
      JoinDropTrailing(all, sep, |r|);
      assert s == Join(r, sep) + Repeat(sep, |all| - |r|);
    }
  }

  /** No character of `t` appears in `s`. */
  predicate NoCharOf(s: string, t: string) {
    forall i, j :: 0 <= i < |s| && 0 <= j < |t| ==> s[i] != t[j]
  }

  /** Avoiding every character of `u` means avoiding every character of a `t` drawn from `u`. */
  lemma NoCharOfSubset(s: string, t: string, u: string)
    requires NoCharOf(s, u)
    requires forall x :: 0 <= x < |t| ==> t[x] in u
    ensures NoCharOf(s, t)
  {
    forall i, x | 0 <= i < |s| && 0 <= x < |t| ensures s[i] != t[x] {
      var y :| 0 <= y < |u| && u[y] == t[x];
    }
  }

  /** An occurrence of `sep` in `a + op + b`, where `a` and `b` share no
      character with `sep`, lies inside `op`. */
  lemma OccurrenceInsideOperator(a: string, op: string, b: string, sep: string, j: int)
    requires |sep| > 0 && NoCharOf(a, sep) && NoCharOf(b, sep)
    requires OccursAt(a + op + b, sep, j)
    ensures |a| <= j && j + |sep| <= |a| + |op| && OccursAt(op, sep, j - |a|)
  {
    var s := a + op + b;
    assert forall k :: 0 <= k < |a| ==> s[k] == a[k];
    assert forall k :: |a| + |op| <= k < |s| ==> s[k] == b[k - |a| - |op|];
    assert s[j] == sep[0];
    assert s[j + |sep| - 1] == sep[|sep| - 1];
    assert s[j..j + |sep|] == op[j - |a|..j - |a| + |sep|];
  }

  /** A separator whose characters the text lacks does not occur in it. */
  lemma NoOccurrenceWithoutSharedCharacter(s: string, sep: string)
    requires |sep| > 0 && NoCharOf(s, sep)
    ensures forall j :: !OccursAt(s, sep, j)
  {
    forall j ensures !OccursAt(s, sep, j) {
      if 0 <= j && j + |sep| <= |s| {
        assert s[j..j + |sep|][0] == s[j];
      }
    }
  }

  /** When `op` is the only occurrence of itself in `a + op + b`, a split on
      `op` gives back exactly `a` and `b`. */
  lemma SplitAroundOperator(a: string, op: string, b: string)
    requires |op| > 0 && b != ""
    requires NoCharOf(a, op) && NoCharOf(b, op)
    ensures Split(a + op + b, op) == [a, b]
  {
    var s := a + op + b;
    assert OccursAt(s, op, |a|) by {
      assert s[|a|..|a| + |op|] == op;
    }
    var i := IndexOf(s, op);
    if 0 <= i < |a| {
      OccurrenceInsideOperator(a, op, b, op, i);
    }
    assert i == |a|;
    var rest := s[i + |op|..];
    assert rest == b;
    assert s[..i] == a;
    NoOccurrenceWithoutSharedCharacter(rest, op);
    assert SplitAll(rest, op) == [b];
    assert SplitAll(s, op) == [a, b];
  }

  /** An occurrence of `p` before which no character equals the first of `p` is the first one. */
  lemma FirstOccurrence(s: string, p: string, i: int)
    requires |p| > 0 && OccursAt(s, p, i)
    requires forall j :: 0 <= j < i ==> s[j] != p[0]
    ensures IndexOf(s, p) == i && Contains(s, p)
  {
    var r := IndexOf(s, p);
    assert r == -1 || s[r] == s[r..r + |p|][0];
  }

  /** The first `p` in `pre + q` lies at offset k of `q` when neither `pre`
      nor the first k characters of `q` hold the first character of `p`. */
  lemma IndexInPiece(pre: string, q: string, p: string, k: nat)
    requires |p| > 0 && OccursAt(q, p, k)
    requires NoCharOf(pre, p[..1]) && NoCharOf(q[..k], p[..1])
    ensures IndexOf(pre + q, p) == |pre| + k && Contains(pre + q, p)
  {
    var s := pre + q;
    assert s[|pre| + k..|pre| + k + |p|] == q[k..k + |p|];
    forall j | 0 <= j < |pre| + k ensures s[j] != p[0] {
      assert p[..1][0] == p[0];
      if j >= |pre| {
        assert s[j] == q[..k][j - |pre|];
      }
    }
    FirstOccurrence(s, p, |pre| + k);
  }

  /** Text appended after an occurrence does not move the first one. */
  lemma IndexOfExtend(s: string, rest: string, p: string)
    requires IndexOf(s, p) >= 0
    ensures IndexOf(s + rest, p) == IndexOf(s, p) && Contains(s + rest, p)
  {
    var r := IndexOf(s, p);
    var t := s + rest;
    assert t[r..r + |p|] == s[r..r + |p|];
    forall j | 0 <= j < r ensures !OccursAt(t, p, j) {
      assert !OccursAt(s, p, j);
      assert t[j..j + |p|] == s[j..j + |p|];
    }
    assert OccursAt(t, p, r);
    var r' := IndexOf(t, p);
    assert r' != -1 && r' <= r;
    assert r' >= r;
  }

  /** An occurrence of `p` after which no character equals the first of `p` is the last one. */
  lemma LastOccurrence(s: string, p: string, i: int)
    requires |p| > 0 && OccursAt(s, p, i)
    requires forall j :: i < j < |s| ==> s[j] != p[0]
    ensures LastIndexOf(s, p) == i
  {
    var r := LastIndexOf(s, p);
    assert r == -1 || s[r] == s[r..r + |p|][0];
  }

  /** A one-character `p` at the very end of the text is its last occurrence. */
  lemma LastAtEnd(pre: string, p: string)
    requires |p| == 1
    ensures LastIndexOf(pre + p, p) == |pre|
  {
    var s := pre + p;
    assert s[|pre|..|pre| + 1] == p;
    LastOccurrence(s, p, |pre|);
  }

  /** Text that avoids the characters of `t` piece by piece avoids them as a whole. */
  lemma NoCharOfConcat(s: string, u: string, t: string)
    requires NoCharOf(s, t) && NoCharOf(u, t)
    ensures NoCharOf(s + u, t)
  {
    forall i, j | 0 <= i < |s + u| && 0 <= j < |t| ensures (s + u)[i] != t[j] {
      if i >= |s| {
        assert (s + u)[i] == u[i - |s|];
      }
    }
  }

  /** Text lacking a character of `p` does not start with `p`. */
  lemma NoPrefixWithForeignChar(s: string, p: string, c: char)
    requires NoCharOf(s, [c]) && c in p
    ensures !StartsWith(s, p)
  {
    var i :| 0 <= i < |p| && p[i] == c;
    if |p| <= |s| {
      assert s[..|p|][i] == s[i] != [c][0];
    }
  }

  /** Two pieces, each closed by a one-character separator, split back into the two pieces. */
  lemma SplitTerminated(a: string, b: string, sep: string)
    requires |sep| == 1 && b != ""
    requires NoCharOf(a, sep) && NoCharOf(b, sep)
    ensures Split(a + sep + b + sep, sep) == [a, b]
  {
    var s := a + sep + b + sep;
    SplitAllTerminated(a, b + sep, sep);
    SplitAllTerminated(b, [], sep);
    assert b + sep + [] == b + sep;
    assert s == a + sep + (b + sep);
    assert SplitAll(s, sep) == [a] + [b, ""];
    var parts := [a, b, ""];
    assert parts[..|parts| - 1] == [a, b];
    assert DropTrailingEmpty(parts) == DropTrailingEmpty([a, b]) == [a, b];
    assert Split(s, sep) == DropTrailingEmpty(SplitAll(s, sep));
  }

  /** A piece closed by a one-character separator is split off in front. */
  lemma SplitAllTerminated(a: string, rest: string, sep: string)
    requires |sep| == 1 && NoCharOf(a, sep)
    ensures IndexOf(a + sep + rest, sep) == |a|
    ensures SplitAll(a + sep + rest, sep) == [a] + SplitAll(rest, sep)
    ensures rest == [] ==> SplitAll(a + sep + rest, sep) == [a, []]
  {
    var s := a + sep + rest;
    assert s[..|a|] == a && s[|a| + 1..] == rest;
    assert s[|a|..|a| + 1] == sep;
    assert forall j :: 0 <= j < |a| ==> s[j] == a[j];
    FirstOccurrence(s, sep, |a|);
    assert IndexOf([], sep) == -1;
  }

  /** A separator that does not occur in the text leaves it whole. */
  lemma SplitWithoutSeparator(s: string, sep: string)
    requires |sep| > 0
    requires forall j :: !OccursAt(s, sep, j)
    ensures Split(s, sep) == [s]
  {
  }

  predicate IsDigit(c: char) {
    '0' <= c <= '9'
  }

  predicate AllDigits(s: string) {
    forall i :: 0 <= i < |s| ==> IsDigit(s[i])
  }

  /** `s.matches("-?\\d+")`: an optional minus sign and at least one ASCII digit. */
  predicate IsIntegerLiteral(s: string) {
    || (|s| > 0 && AllDigits(s))
    || (|s| > 1 && s[0] == '-' && AllDigits(s[1..]))
  }

  /** The characters Java's `.` refuses to match. */
  predicate IsLineTerminator(c: char) {
    c == '\n' || c == '\r' || c == '\U{85}' || c == '\U{2028}' || c == '\U{2029}'
  }

  /** `s.matches("\".*\"")`: a double quote, any characters but line terminators, a double quote. */
  predicate IsQuotedLiteral(s: string) {
    && |s| >= 2
    && s[0] == '"'
    && s[|s| - 1] == '"'
    && forall i :: 0 < i < |s| - 1 ==> !IsLineTerminator(s[i])
  }

  function DigitValue(c: char): nat
    requires IsDigit(c)
  {
    c as int - '0' as int
  }

  function DigitChar(d: nat): char
    requires d < 10
  {
    ('0' as int + d) as char
  }

  /** The number a string of decimal digits spells, most significant first. */
  function DigitsValue(s: string): nat
    requires AllDigits(s)
  {
    if s == [] then 0 else DigitsValue(s[..|s| - 1]) * 10 + DigitValue(s[|s| - 1])
  }

  /** The number an integer literal spells, before any range check. */
  function LiteralValue(s: string): int
    requires IsIntegerLiteral(s)
  {
    if s[0] == '-' then -(DigitsValue(s[1..]) as int) else DigitsValue(s)
  }

  /** `Integer.parseInt(s)`: an optional sign, then decimal digits, and the value must fit in an `int`. */
  function ParseInt(s: string): (r: Result<i32>)
    ensures IsIntegerLiteral(s) ==> (r.Ok? <==> InRange(LiteralValue(s)))
    ensures IsIntegerLiteral(s) && r.Ok? ==> r.value == LiteralValue(s)
    ensures r.Ok? ==> |s| > 0 && (IsIntegerLiteral(s) || (s[0] == '+' && AllDigits(s[1..])))
    ensures r.Err? ==> r.error == NumberFormat(s)
  {
    var signed := |s| > 0 && (s[0] == '-' || s[0] == '+');
    var digits := if signed then s[1..] else s;
    if |digits| == 0 || !AllDigits(digits) then Err(NumberFormat(s))
    else
      var v: int := if s[0] == '-' then -(DigitsValue(digits) as int) else DigitsValue(digits);
      if InRange(v) then Ok(v) else Err(NumberFormat(s))
  }

  /** The decimal digits of `n`, most significant first, without leading zeros. */
  function NatToString(n: nat): (r: string)
    ensures |r| > 0 && AllDigits(r)
    ensures DigitsValue(r) == n
    ensures r[0] == '0' ==> n == 0
  {
    if n < 10 then [DigitChar(n)]
    else
      var prefix := NatToString(n / 10);
      var r := prefix + [DigitChar(n % 10)];
      assert r[..|r| - 1] == prefix;
      r
  }

  /** `Integer.toString(n)`, which is also what `println` shows of an Integer. */
  function IntToString(n: int): (r: string)
    ensures IsIntegerLiteral(r) && LiteralValue(r) == n
  {
    if n < 0 then
      var r := "-" + NatToString(-n);
      assert r[1..] == NatToString(-n);
      r
    else NatToString(n)
  }

  /** Printing an `int` and parsing the text back gives the same `int`. */
  lemma ParseIntToString(n: i32)
    ensures ParseInt(IntToString(n)) == Ok(n)
  {
  }

  /** An integer literal has no blank and no operator character. */
  lemma LiteralCharacters(s: string, i: int)
    requires IsIntegerLiteral(s) && 0 <= i < |s|
    ensures IsDigit(s[i]) || (i == 0 && s[i] == '-')
  {
    if i > 0 && s[0] == '-' {
      assert s[i] == s[1..][i - 1];
    }
  }

  /** Text that starts and ends with a non-blank is left as it is by `trim`. */
  lemma TrimUnpadded(s: string)
    requires s != [] ==> !IsBlank(s[0]) && !IsBlank(s[|s| - 1])
    ensures Trim(s) == s
  {
    TrimPadded([], s, []);
    assert [] + s + [] == s;
  }

  /** An integer literal has no blank at either end. */
  lemma TrimLiteral(s: string)
    requires IsIntegerLiteral(s)
    ensures Trim(s) == s
  {
    LiteralCharacters(s, 0);
    LiteralCharacters(s, |s| - 1);
    TrimUnpadded(s);
  }
}

=== FILE: operands.dfy ===
/** What the arithmetic and comparison evaluators share: the ordered split
    rule that picks the operator, and the resolution of one operand.
    Both Java classes carry their own identical copy of `getOperandValue`.
 */
module Operands {
  import opened Errors
  import opened JavaInt
  import opened JavaString
  import opened VariableStorage

  predicate NonEmptySymbols(symbols: seq<string>) {
    forall k :: 0 <= k < |symbols| ==> |symbols[k]| > 0
  }

  /** Splitting `expr` at operator k gives exactly two pieces. */
  predicate SplitsInTwo(expr: string, symbols: seq<string>, k: nat)
    requires NonEmptySymbols(symbols) && k < |symbols|
  {
    |Split(expr, symbols[k])| == 2
  }

  function FirstBinarySplitFrom(expr: string, symbols: seq<string>, from: nat): (r: Option<nat>)
    requires NonEmptySymbols(symbols)
    ensures r.Some? ==> from <= r.value < |symbols| && SplitsInTwo(expr, symbols, r.value)
    ensures forall k :: from <= k < |symbols| && (r.None? || k < r.value) ==> !SplitsInTwo(expr, symbols, k)
    decreases |symbols| - from
  {
    if from >= |symbols| then None
    else if SplitsInTwo(expr, symbols, from) then Some(from)
    else FirstBinarySplitFrom(expr, symbols, from + 1)
  }

  /** The loop over the operator list: the index of the first operator whose
      split of `expr` has exactly two pieces. Every operator before it splits
      into some other number of pieces. */
  function FirstBinarySplit(expr: string, symbols: seq<string>): (r: Option<nat>)
    requires NonEmptySymbols(symbols)
    ensures r.Some? ==> r.value < |symbols| && |Split(expr, symbols[r.value])| == 2
    ensures forall k :: 0 <= k < |symbols| && (r.None? || k < r.value) ==> |Split(expr, symbols[k])| != 2
  {
    var r := FirstBinarySplitFrom(expr, symbols, 0);
    SplitsInTwoMeaning(expr, symbols, r);
    r
  }

  lemma SplitsInTwoMeaning(expr: string, symbols: seq<string>, r: Option<nat>)
    requires NonEmptySymbols(symbols)
    requires r.Some? ==> r.value < |symbols| && SplitsInTwo(expr, symbols, r.value)
    requires forall k :: 0 <= k < |symbols| && (r.None? || k < r.value) ==> !SplitsInTwo(expr, symbols, k)
    ensures r.Some? ==> r.value < |symbols| && |Split(expr, symbols[r.value])| == 2
    ensures forall k :: 0 <= k < |symbols| && (r.None? || k < r.value) ==> |Split(expr, symbols[k])| != 2
  {
    forall k | 0 <= k < |symbols| && (r.None? || k < r.value)
      ensures |Split(expr, symbols[k])| != 2
    {
      assert !SplitsInTwo(expr, symbols, k);
    }
  }

  /** `getOperandValue(operand)`: a variable of that name wins; otherwise an
      integer literal is parsed; anything else is an invalid operand. */
  function OperandValue(st: Store, operand: string): (r: Result<Value>)
    ensures r.Ok? ==> (HasVariable(st, operand) && r.value == st[operand])
                      || (IsIntegerLiteral(operand) && r.value.IntV? && r.value.n == LiteralValue(operand))
    ensures r == Err(InvalidOperand(operand)) <==> !HasVariable(st, operand) && !IsIntegerLiteral(operand)
    ensures r.Err? && IsIntegerLiteral(operand) ==> r.error == NumberFormat(operand) && !InRange(LiteralValue(operand))
    ensures HasVariable(st, operand) ==> r == Ok(st[operand])
    ensures !HasVariable(st, operand) && IsIntegerLiteral(operand) && InRange(LiteralValue(operand)) ==>
              r == Ok(IntV(LiteralValue(operand)))
  {
    if HasVariable(st, operand) then GetVariable(st, operand)
    else if IsIntegerLiteral(operand) then
      match ParseInt(operand)
      case Ok(n) => Ok(IntV(n))
      case Err(e) => Err(e)
    else Err(InvalidOperand(operand))
  }

  /** No integer literal is a valid variable name, so in a store that only
      holds valid names a literal always resolves to its own value. */
  lemma LiteralOperand(st: Store, operand: string)
    requires ValidStore(st) && IsIntegerLiteral(operand) && InRange(LiteralValue(operand))
    ensures OperandValue(st, operand) == Ok(IntV(LiteralValue(operand)))
  {
    LiteralCharacters(operand, 0);
    assert !IsValidName(operand);
  }
}

=== FILE: reader.dfy ===
/** `Reader`: the statement executor of the interpreter.

    One trimmed input line is dispatched on its prefix. A command either
    finishes (`Done`), raises an exception (`Failed`, which the read loop
    reports as `Error: <message>` before reading the next line), or, for a
    `while` loop, runs out of the iteration budget it was given (`OutOfFuel`,
    where the Java program would loop for ever). Whatever a command printed
    or stored before it raised stays printed and stored.
 */
module Reader {
  import opened Errors
  import opened JavaInt
  import opened JavaString
  import opened VariableStorage
  import Arith = ArithmeticEvaluator
  import Comp = ComparisonEvaluator
  import Algo = Algorithms

  /** What a command leaves on the console, in order. */
  datatype Event =
    /** One `System.out.println` of this text. */
    | Out(line: string)
    /** `list`: the bindings, in the iteration order of a HashMap. */
    | ListVariables
    /** `help`: the fixed help text. */
    | Help
    /** `methods`: the fixed list of built-ins. */
    | Methods
    /** `exit`: the farewell line, then `System.exit(0)`. */
    | Exit

  datatype Status = Done | Failed(error: Error) | OutOfFuel

  /** Events that are all printed lines. */
  predicate OnlyOutput(events: seq<Event>) {
    forall i :: 0 <= i < |events| ==> events[i].Out?
  }

  /** The store after a command, what the command printed, and how it ended. */
  datatype Run = Run(store: Store, events: seq<Event>, status: Status)

  /** `println` of a stored value: an Integer in decimal, a String verbatim. */
  function Show(v: Value): string {
    match v
    case IntV(n) => IntToString(n)
    case StrV(s) => s
  }

  /** `e.getMessage()` for each exception. The texts of the JDK's own
      exceptions are those of Java 21. */
  function Message(e: Error): string {
    match e
    case InvalidVariableName(name) => "Invalid variable name: '" + name + "'"
    case UndefinedVariable(name) => "Variable '" + name + "' does not exist."
    case InvalidOperand(operand) => "Invalid operand: " + operand
    case NumberFormat(input) => "For input string: \"" + input + "\""
    case NotAnInteger =>
      "class java.lang.String cannot be cast to class java.lang.Integer"
      + " (java.lang.String and java.lang.Integer are in module java.base of loader 'bootstrap')"
    case UnsupportedExpression(expression) => "Unsupported expression: " + expression
    case DivideByZero => "Cannot divide by zero."
    case RemainderByZero => "/ by zero"
    case ComparisonNeedsIntegers => "Comparison only supports integers."
    case InvalidComparison(expression) => "Invalid comparison expression: " + expression
    case InvalidExpression(expression) => "Invalid expression: " + expression
    case InvalidAssignment(statement) => "Invalid assignment: " + statement
    case InvalidWhile => "Syntax error: Invalid while loop."
    case InvalidIf => "Syntax error: Invalid if statement."
    case InvalidPrint => "Syntax error: Invalid print statement."
    case StringIndexOutOfBounds(begin, end, length) =>
      "Range [" + IntToString(begin) + ", " + IntToString(end) + ") out of bounds for length " + IntToString(length)
    case ArrayIndexOutOfBounds(index, length) =>
      "Index " + IntToString(index) + " out of bounds for length " + IntToString(length)
  }

  /** `evaluateExpression(expr)`: an integer literal, else a quoted text,
      else one arithmetic operation; every failure becomes an invalid expression. */
  function EvaluateExpression(st: Store, expr: string): (r: Result<Value>)
    ensures r.Err? ==> r.error == InvalidExpression(expr)
    ensures r.Ok? && r.value.StrV? ==> IsQuotedLiteral(expr) && r.value.s == expr[1..|expr| - 1]
  {
    if IsIntegerLiteral(expr) then
      match ParseInt(expr)
      case Ok(n) => Ok(IntV(n))
      case Err(_) => Err(InvalidExpression(expr))
    else if IsQuotedLiteral(expr) then
      Ok(StrV(expr[1..|expr| - 1]))
    else
      match Arith.EvaluateArithmetic(st, expr)
      case Ok(n) => Ok(IntV(n))
      case Err(_) => Err(InvalidExpression(expr))
  }

  /** `text.split("=")` when it has exactly two pieces: the trimmed left and right sides. */
  function Sides(text: string): (r: Option<(string, string)>)
    ensures r.Some? <==> |Split(text, "=")| == 2
    ensures r.Some? ==> r.value == (Trim(Split(text, "=")[0]), Trim(Split(text, "=")[1]))
  {
    var parts := Split(text, "=");
    if |parts| != 2 then None else Some((Trim(parts[0]), Trim(parts[1])))
  }

  /** Evaluate the right side, then store it under the left side. */
  function Assign(st: Store, name: string, expr: string): (r: Result<Store>)
    ensures r.Ok? ==> IsValidName(name) && name in r.value
    ensures r.Ok? ==> r.value == st[name := r.value[name]]
    ensures r.Err? ==> r.error == InvalidExpression(expr) || r.error == InvalidVariableName(name)
  {
    var v :- EvaluateExpression(st, expr);
    SetVariable(st, name, v)
  }

  /** `processAssignment(stmt)`: a statement `name = expression` of a loop body. */
  function ProcessAssignment(st: Store, stmt: string): (r: Result<Store>)
    ensures Sides(stmt).None? <==> r == Err(InvalidAssignment(stmt))
    ensures Sides(stmt).Some? ==> r == Assign(st, Sides(stmt).value.0, Sides(stmt).value.1)
  {
    match Sides(stmt)
    case None => Err(InvalidAssignment(stmt))
    case Some((name, expr)) => Assign(st, name, expr)
  }

  /** `processVariableDeclaration(input)`: like an assignment after `var `, but
      a malformed declaration prints a syntax error instead of raising. */
  function ProcessVarDecl(st: Store, input: string): (r: Run)
    requires StartsWith(input, "var ")
    ensures OnlyOutput(r.events) && Exit !in r.events
    ensures r.status != OutOfFuel
    ensures r.status.Failed? ==> r.store == st && r.events == []
    ensures r.events != [] ==> r == Run(st, [Out("Syntax error: Invalid variable declaration.")], Done)
  {
    match Sides(input[4..])
    case None => Run(st, [Out("Syntax error: Invalid variable declaration.")], Done)
    case Some((name, expr)) =>
      match Assign(st, name, expr)
      case Ok(st') => Run(st', [], Done)
      case Err(e) => Run(st, [], Failed(e))
  }

  /** `processPrint(input)`: the line printed. An existing variable is shown as
      stored; any other text is evaluated as an expression. */
  function ProcessPrint(st: Store, input: string): (r: Result<string>)
    ensures !(StartsWith(input, "print(") && EndsWith(input, ")")) ==> r == Err(InvalidPrint)
    ensures r.Err? ==> r.error == InvalidPrint || r.error.InvalidExpression?
  {
    if !StartsWith(input, "print(") || !EndsWith(input, ")") then Err(InvalidPrint)
    else
      assert |input| >= 7 by {
        assert input[5] == input[..6][5] == '(';
        assert input[|input| - 1] == input[|input| - 1..][0] == ')';
      }
      var content := Trim(input[6..|input| - 1]);
      if HasVariable(st, content) then Ok(Show(st[content]))
      else
        var v :- EvaluateExpression(st, content);
        Ok(Show(v))
  }

  /** One statement of a loop body: a print, or else an assignment. */
  function ExecStatement(st: Store, stmt: string): (r: Run)
    ensures r.status != OutOfFuel
    ensures OnlyOutput(r.events) && Exit !in r.events
    ensures !r.status.Done? ==> r.store == st && r.events == []
    ensures ValidStore(st) ==> ValidStore(r.store)
    ensures st.Keys <= r.store.Keys
  {
    var s := Trim(stmt);
    if StartsWith(s, "print(") then PrintRun(st, s)
    else
      match ProcessAssignment(st, s)
      case Ok(st') => Run(st', [], Done)
      case Err(e) => Run(st, [], Failed(e))
  }

  /** The statements of a loop body, in order, stopping at the first that raises. */
  function RunStatements(st: Store, stmts: seq<string>): (r: Run)
    ensures r.status != OutOfFuel
    ensures OnlyOutput(r.events) && Exit !in r.events
    ensures ValidStore(st) ==> ValidStore(r.store)
    ensures st.Keys <= r.store.Keys
    decreases |stmts|
  {
    if stmts == [] then Run(st, [], Done)
    else
      var first := ExecStatement(st, stmts[0]);
      if !first.status.Done? then first
      else
        var rest := RunStatements(first.store, stmts[1..]);
        Run(rest.store, first.events + rest.events, rest.status)
  }

  /** The `while` loop proper, allowed at most `fuel` passes through the body.
      The condition text is evaluated afresh against the store before every pass. */
  function WhileLoop(st: Store, condition: string, stmts: seq<string>, fuel: nat): (r: Run)
    ensures r.status.Done? ==> Comp.EvaluateComparison(r.store, condition) == Ok(false)
    ensures OnlyOutput(r.events) && Exit !in r.events
    ensures ValidStore(st) ==> ValidStore(r.store)
    ensures st.Keys <= r.store.Keys
    decreases fuel
  {
    if fuel == 0 then Run(st, [], OutOfFuel)
    else
      match Comp.EvaluateComparison(st, condition)
      case Err(e) => Run(st, [], Failed(e))
      case Ok(false) => Run(st, [], Done)
      case Ok(true) =>
        var pass := RunStatements(st, stmts);
        if !pass.status.Done? then pass
        else
          var rest := WhileLoop(pass.store, condition, stmts, fuel - 1);
          Run(rest.store, pass.events + rest.events, rest.status)
  }

  /** The condition between the first `(` and the first `)`, and the body
      between the first `{` and the last `}`, both trimmed. */
  function WhileParts(input: string): (r: Result<(string, string)>)
    ensures r.Err? ==> r.error.StringIndexOutOfBounds?
    ensures r.Ok? ==> Trim(r.value.0) == r.value.0 && Trim(r.value.1) == r.value.1
    ensures r.Ok? ==> |r.value.0| < |input| && |r.value.1| < |input|
  {
    var condition :- Substring(input, IndexOf(input, "(") + 1, IndexOf(input, ")"));
    var body :- Substring(input, IndexOf(input, "{") + 1, LastIndexOf(input, "}"));
    TrimIdempotent(condition);
    TrimIdempotent(body);
    Ok((Trim(condition), Trim(body)))
  }

  /** `processWhileLoop(input)`. */
  function ProcessWhile(st: Store, input: string, fuel: nat): (r: Run)
    ensures OnlyOutput(r.events) && Exit !in r.events
    ensures !(StartsWith(input, "while(") && Contains(input, "){")) ==> r == Run(st, [], Failed(InvalidWhile))
    ensures ValidStore(st) ==> ValidStore(r.store)
    ensures st.Keys <= r.store.Keys
  {
    if !StartsWith(input, "while(") || !Contains(input, "){") then Run(st, [], Failed(InvalidWhile))
    else
      match WhileParts(input)
      case Err(e) => Run(st, [], Failed(e))
      case Ok((condition, body)) => WhileLoop(st, condition, Split(body, ";"), fuel)
  }

  /** The condition between the first `(` and the first `)`, the body between
      the first `{` and the first `}`, and whatever follows the first `else`,
      each trimmed. The body and the else part are shorter than the input. */
  function IfParts(input: string): (r: Result<(string, string, string)>)
    ensures r.Ok? ==> |r.value.1| < |input| && |r.value.2| < |input|
  {
    var condition :- Substring(input, IndexOf(input, "(") + 1, IndexOf(input, ")"));
    var body :- Substring(input, IndexOf(input, "{") + 1, IndexOf(input, "}"));
    var elsePart := if Contains(input, "else") then Trim(input[IndexOf(input, "else") + 4..]) else "";
    Ok((Trim(condition), Trim(body), elsePart))
  }

  /** The five built-ins the dispatcher hands to `processAlgorithm`. */
  predicate IsAlgorithmCall(input: string) {
    || StartsWith(input, "factorial(")
    || StartsWith(input, "sumOfNumbers(")
    || StartsWith(input, "gcd(")
    || StartsWith(input, "reverse(")
    || StartsWith(input, "primeChecker(")
  }

  /** `Integer.parseInt(args[i].trim())`, where `args[i]` may be missing. */
  function Argument(args: seq<string>, i: nat): (r: Result<i32>)
    ensures i >= |args| <==> r == Err(ArrayIndexOutOfBounds(i, |args|))
    ensures i < |args| ==> r == ParseInt(Trim(args[i]))
  {
    if i < |args| then ParseInt(Trim(args[i])) else Err(ArrayIndexOutOfBounds(i, |args|))
  }

  function BoolToString(b: bool): string {
    if b then "true" else "false"
  }

  /** The names `processAlgorithm` has a case for. */
  const AlgorithmNames: set<string> := {"sumOfNumbers", "factorial", "gcd", "reverse", "primeChecker"}

  /** The line `processAlgorithm` prints for a name it has no case for. */
  const UnknownAlgorithm: string := "Error: Unknown algorithm."

  /** The `switch` of `processAlgorithm`: the line to print for a built-in
      called with these (untrimmed) arguments. */
  function RunAlgorithm(name: string, args: seq<string>): (r: Result<string>)
    ensures name !in AlgorithmNames ==> r == Ok(UnknownAlgorithm)
    ensures r.Err? ==> r.error.NumberFormat? || r.error.ArrayIndexOutOfBounds?
    ensures name in AlgorithmNames - {"gcd"} ==> (r.Ok? <==> Argument(args, 0).Ok?)
    ensures name == "gcd" ==> (r.Ok? <==> Argument(args, 0).Ok? && Argument(args, 1).Ok?)
    ensures name == "sumOfNumbers" && r.Ok? ==>
              r.value == IntToString(Algo.SumOfNumbersAsWritten(Argument(args, 0).value))
    ensures name == "factorial" && r.Ok? ==> r.value == IntToString(Algo.Factorial(Argument(args, 0).value))
    ensures name == "gcd" && r.Ok? ==>
              r.value == IntToString(Algo.Gcd(Argument(args, 0).value, Argument(args, 1).value))
    ensures name == "reverse" && r.Ok? ==> r.value == IntToString(Algo.Reverse(Argument(args, 0).value))
    ensures name == "primeChecker" && r.Ok? ==>
              r.value == BoolToString(Algo.PrimeCheckerAsWritten(Argument(args, 0).value))
  {
    if name == "sumOfNumbers" then
      var n :- Argument(args, 0);
      Ok(IntToString(Algo.SumOfNumbersAsWritten(n)))
    else if name == "factorial" then
      var n :- Argument(args, 0);
      Ok(IntToString(Algo.Factorial(n)))
    else if name == "gcd" then
      var a :- Argument(args, 0);
      var b :- Argument(args, 1);
      Ok(IntToString(Algo.Gcd(a, b)))
    else if name == "reverse" then
      var n :- Argument(args, 0);
      Ok(IntToString(Algo.Reverse(n)))
    else if name == "primeChecker" then
      var n :- Argument(args, 0);
      Ok(BoolToString(Algo.PrimeCheckerAsWritten(n)))
    else Ok(UnknownAlgorithm)
  }

  /** The body of the `try` in `processAlgorithm`: the name before the first
      `(`, the comma-separated arguments up to the first `)`, and the line to print. */
  function AlgorithmResult(input: string): (r: Result<string>)
    ensures r.Err? ==> r.error.StringIndexOutOfBounds? || r.error.NumberFormat? || r.error.ArrayIndexOutOfBounds?
  {
    var name :- Substring(input, 0, IndexOf(input, "("));
    var params :- Substring(input, IndexOf(input, "(") + 1, IndexOf(input, ")"));
    RunAlgorithm(name, Split(params, ","))
  }

  /** `processAlgorithm(input)`: the one line it prints; every exception is caught and shown. */
  function ProcessAlgorithm(input: string): (line: string)
    ensures AlgorithmResult(input).Ok? ==> line == AlgorithmResult(input).value
    ensures AlgorithmResult(input).Err? ==>
              line == "Error in algorithm usage: " + Message(AlgorithmResult(input).error)
  {
    match AlgorithmResult(input)
    case Ok(line) => line
    case Err(e) => "Error in algorithm usage: " + Message(e)
  }

  /** The kinds of line `processCommand` tells apart. */
  datatype Command =
    | IfCommand | WhileCommand | VarCommand | PrintCommand | ListCommand
    | AlgorithmCommand | HelpCommand | MethodsCommand | ExitCommand | UnknownCommand

  /** The first test of `processCommand` that the line passes: a prefix or a whole word. */
  function Classify(input: string): (c: Command)
    ensures StartsWith(input, "if") ==> c == IfCommand
    ensures c == AlgorithmCommand ==> IsAlgorithmCall(input)
    ensures c == ListCommand ==> input == "list"
    ensures c == ExitCommand ==> input == "exit"
    ensures c == UnknownCommand <==>
              && !StartsWith(input, "if") && !StartsWith(input, "while") && !StartsWith(input, "var ")
              && !StartsWith(input, "print(") && !IsAlgorithmCall(input)
              && input !in {"list", "help", "methods", "exit"}
  {
    if StartsWith(input, "if") then IfCommand
    else if StartsWith(input, "while") then WhileCommand
    else if StartsWith(input, "var ") then VarCommand
    else if StartsWith(input, "print(") then PrintCommand
    else if input == "list" then ListCommand
    else if IsAlgorithmCall(input) then AlgorithmCommand
    else if input == "help" then HelpCommand
    else if input == "methods" then MethodsCommand
    else if input == "exit" then ExitCommand
    else UnknownCommand
  }

  /** A print statement run as a command: its line is printed, or it raises. */
  function PrintRun(st: Store, input: string): (r: Run)
    ensures r.store == st && r.status != OutOfFuel
    ensures r.status.Done? <==> ProcessPrint(st, input).Ok?
    ensures r.status.Done? ==> r.events == [Out(ProcessPrint(st, input).value)]
    ensures !r.status.Done? ==> r.events == [] && r.status == Failed(ProcessPrint(st, input).error)
  {
    match ProcessPrint(st, input)
    case Ok(line) => Run(st, [Out(line)], Done)
    case Err(e) => Run(st, [], Failed(e))
  }

  /** `processCommand(input)`: dispatch on the first matching prefix or word.
      Only `if`, `while` and `var` lines can change the store. */
  function ProcessCommand(st: Store, input: string, fuel: nat): (r: Run)
    ensures ValidStore(st) ==> ValidStore(r.store)
    ensures st.Keys <= r.store.Keys
    ensures !Classify(input).IfCommand? && !Classify(input).WhileCommand? && !Classify(input).VarCommand? ==> r.store == st
    ensures Exit in r.events ==> r == Run(st, [Exit], Done)
    decreases |input|, 2
  {
    match Classify(input)
    case IfCommand => ProcessIf(st, input, fuel)
    case WhileCommand => ProcessWhile(st, input, fuel)
    case VarCommand => ProcessVarDecl(st, input)
    case PrintCommand => PrintRun(st, input)
    case ListCommand => Run(st, [ListVariables], Done)
    case AlgorithmCommand => Run(st, [Out(ProcessAlgorithm(input))], Done)
    case HelpCommand => Run(st, [Help], Done)
    case MethodsCommand => Run(st, [Methods], Done)
    case ExitCommand => Run(st, [Exit], Done)
    case UnknownCommand => Run(st, [Out("Error: Unknown command.")], Done)
  }

  /** `processIfStatement(input)`: the body runs as one command when the
      condition holds; otherwise a non-empty else part runs as one command. */
  function ProcessIf(st: Store, input: string, fuel: nat): (r: Run)
    ensures !(StartsWith(input, "if") && Contains(input, "(") && Contains(input, ")")) ==>
              r == Run(st, [], Failed(InvalidIf))
    ensures ValidStore(st) ==> ValidStore(r.store)
    ensures st.Keys <= r.store.Keys
    ensures Exit in r.events ==> r == Run(st, [Exit], Done)
    decreases |input|, 1
  {
    if !(StartsWith(input, "if") && Contains(input, "(") && Contains(input, ")")) then
      Run(st, [], Failed(InvalidIf))
    else
      match IfParts(input)
      case Err(e) => Run(st, [], Failed(e))
      case Ok((condition, body, elsePart)) =>
        match Comp.EvaluateComparison(st, condition)
        case Err(e) => Run(st, [], Failed(e))
        case Ok(true) => ProcessCommand(st, body, fuel)
        case Ok(false) => if elsePart != "" then ProcessCommand(st, elsePart, fuel) else Run(st, [], Done)
  }

  /** One line of the read loop: blank lines are skipped; an exception is
      reported as `Error: <message>` and the line counts as finished. */
  function RunLine(st: Store, line: string, fuel: nat): (r: Run)
    ensures ValidStore(st) ==> ValidStore(r.store)
    ensures !r.status.Failed?
  {
    var input := Trim(line);
    if input == [] then Run(st, [], Done)
    else
      var r := ProcessCommand(st, input, fuel);
      match r.status
      case Failed(e) => Run(r.store, r.events + [Out("Error: " + Message(e))], Done)
      case _ => r
  }

  /** The read loop over a sequence of lines, from a given store. It ends
      after the last line, after `exit`, or when a loop runs out of fuel. */
  function Session(st: Store, lines: seq<string>, fuel: nat): (r: Run)
    ensures ValidStore(st) ==> ValidStore(r.store)
    ensures !r.status.Failed?
    decreases |lines|
  {
    if lines == [] then Run(st, [], Done)
    else
      var first := RunLine(st, lines[0], fuel);
      if first.status.OutOfFuel? || Exit in first.events then first
      else
        var rest := Session(first.store, lines[1..], fuel);
        Run(rest.store, first.events + rest.events, rest.status)
  }
}

=== FILE: reader_control.dfy ===
/** What `while` and `if` lines do: how the line is cut into condition and
    body, how a body runs statement by statement, how a counting loop
    unrolls, and that a bigger iteration budget changes nothing once a
    command has finished.
 */
module ReaderControl {
  import opened Errors
  import opened JavaInt
  import opened JavaString
  import opened VariableStorage
  import opened Reader
  import opened ReaderProperties
  import Arith = ArithmeticEvaluator
  import Comp = ComparisonEvaluator
  import Operands

  // Iteration budget

  /** A loop that finished within some budget finishes the same way within any larger one. */
  lemma WhileFuelMonotone(st: Store, condition: string, stmts: seq<string>, fuel: nat, more: nat)
    requires fuel <= more && WhileLoop(st, condition, stmts, fuel).status != OutOfFuel
    ensures WhileLoop(st, condition, stmts, more) == WhileLoop(st, condition, stmts, fuel)
  {
    WhileFuelRuns(st, condition, stmts, fuel, more);
  }

  /** The induction behind WhileFuelMonotone, one pass per step. */
  lemma {:induction false} WhileFuelRuns(st: Store, condition: string, stmts: seq<string>, fuel: nat, more: nat)
    ensures fuel <= more && WhileLoop(st, condition, stmts, fuel).status != OutOfFuel ==>
              WhileLoop(st, condition, stmts, more) == WhileLoop(st, condition, stmts, fuel)
    decreases fuel
  {
    if fuel <= more && WhileLoop(st, condition, stmts, fuel).status != OutOfFuel {
      if WhileContinues(st, condition, stmts) {
        var fuel', more' := fuel - 1, more - 1;
        var st' := RunStatements(st, stmts).store;
        WhileFuelStep(st, condition, stmts, fuel, more, st', fuel', more');
        WhileFuelRuns(st', condition, stmts, fuel', more');
      } else {
        WhileHalts(st, condition, stmts, fuel, more);
      }
    }
  }

  /** One pass of the induction: after a finished pass both budgets shrink by one. */
  lemma WhileFuelStep(st: Store, condition: string, stmts: seq<string>, fuel: nat, more: nat,
                      st': Store, fuel': nat, more': nat)
    ensures && WhileContinues(st, condition, stmts) && fuel == fuel' + 1 && more == more' + 1
            && st' == RunStatements(st, stmts).store
            ==> WhileLoop(st, condition, stmts, fuel).status == WhileLoop(st', condition, stmts, fuel').status
    ensures && WhileContinues(st, condition, stmts) && fuel == fuel' + 1 && more == more' + 1
            && st' == RunStatements(st, stmts).store
            && WhileLoop(st', condition, stmts, more') == WhileLoop(st', condition, stmts, fuel')
            ==> WhileLoop(st, condition, stmts, more) == WhileLoop(st, condition, stmts, fuel)
  {
    if WhileContinues(st, condition, stmts) && fuel == fuel' + 1 && more == more' + 1 {
      WhileUnroll(st, condition, stmts, fuel');
      WhileUnroll(st, condition, stmts, more');
    }
  }

  /** The condition holds and one pass through the body finishes. */
  predicate WhileContinues(st: Store, condition: string, stmts: seq<string>) {
    Comp.EvaluateComparison(st, condition) == Ok(true) && RunStatements(st, stmts).status.Done?
  }

  lemma WhileUnroll(st: Store, condition: string, stmts: seq<string>, fuel: nat)
    requires WhileContinues(st, condition, stmts)
    ensures var pass := RunStatements(st, stmts);
            var rest := WhileLoop(pass.store, condition, stmts, fuel);
            WhileLoop(st, condition, stmts, fuel + 1) == Run(rest.store, pass.events + rest.events, rest.status)
  {
  }

  lemma WhileHalts(st: Store, condition: string, stmts: seq<string>, fuel: nat, more: nat)
    requires !WhileContinues(st, condition, stmts) && 0 < fuel <= more
    ensures WhileLoop(st, condition, stmts, more) == WhileLoop(st, condition, stmts, fuel)
  {
  }

  /** The same for whole command lines, whose `if` bodies may hold loops. */
  lemma {:induction false} CommandFuelMonotone(st: Store, input: string, fuel: nat, more: nat)
    requires fuel <= more && ProcessCommand(st, input, fuel).status != OutOfFuel
    ensures ProcessCommand(st, input, more) == ProcessCommand(st, input, fuel)
    decreases |input|
  {
    match Classify(input)
    case WhileCommand =>
      if StartsWith(input, "while(") && Contains(input, "){") && WhileParts(input).Ok? {
        var (condition, body) := WhileParts(input).value;
        WhileFuelMonotone(st, condition, Split(body, ";"), fuel, more);
      }
    case IfCommand =>
      if StartsWith(input, "if") && Contains(input, "(") && Contains(input, ")") && IfParts(input).Ok? {
        var (condition, body, elsePart) := IfParts(input).value;
        match Comp.EvaluateComparison(st, condition)
        case Ok(true) => CommandFuelMonotone(st, body, fuel, more);
        case Ok(false) =>
          if elsePart != "" {
            CommandFuelMonotone(st, elsePart, fuel, more);
          }
        case Err(_) =>
      }
    case _ =>
  }

  /** And for a whole session of lines. */
  lemma {:induction false} SessionFuelMonotone(st: Store, lines: seq<string>, fuel: nat, more: nat)
    requires fuel <= more && Session(st, lines, fuel).status != OutOfFuel
    ensures Session(st, lines, more) == Session(st, lines, fuel)
    decreases |lines|
  {
    if lines != [] {
      var input := Trim(lines[0]);
      if input != [] {
        assert ProcessCommand(st, input, fuel).status != OutOfFuel;
        CommandFuelMonotone(st, input, fuel, more);
      }
      var first := RunLine(st, lines[0], fuel);
      assert RunLine(st, lines[0], more) == first;
      if !(first.status.OutOfFuel? || Exit in first.events) {
        SessionFuelMonotone(first.store, lines[1..], fuel, more);
      }
    }
  }

  // Loop bodies

  /** A body runs as its first part followed by the rest, the rest only when the first part finished. */
  lemma {:induction false} StatementsConcat(st: Store, a: seq<string>, b: seq<string>)
    ensures RunStatements(st, a + b) ==
              var x := RunStatements(st, a);
              if !x.status.Done? then x
              else
                var y := RunStatements(x.store, b);
                Run(y.store, x.events + y.events, y.status)
    decreases |a|
  {
    if a == [] {
      assert a + b == b;
    } else {
      assert (a + b)[0] == a[0] && (a + b)[1..] == a[1..] + b;
      var first := ExecStatement(st, a[0]);
      if first.status.Done? {
        StatementsConcat(first.store, a[1..], b);
        var x := RunStatements(first.store, a[1..]);
        if x.status.Done? {
          var y := RunStatements(x.store, b);
          assert first.events + (x.events + y.events) == (first.events + x.events) + y.events;
        }
      }
    }
  }

  /** A body that raises ran every statement before the failing one to
      completion; the failing statement left the store and console as they
      were, and its exception is the body's. */
  lemma {:induction false} FailureKeepsEarlierStatements(st: Store, stmts: seq<string>)
    requires RunStatements(st, stmts).status.Failed?
    ensures exists k :: 0 <= k < |stmts| && FailsAt(st, stmts, k)
    decreases |stmts|
  {
    var first := ExecStatement(st, stmts[0]);
    if !first.status.Done? {
      assert stmts[..0] == [];
      assert FailsAt(st, stmts, 0);
    } else {
      var tail := stmts[1..];
      FailureKeepsEarlierStatements(first.store, tail);
      var k :| 0 <= k < |tail| && FailsAt(first.store, tail, k);
      var k' := k + 1;
      FailureStep(st, stmts, first, tail, k, k');
    }
  }

  /** A failure at statement k of the tail is a failure at statement k + 1 of the whole body. */
  lemma FailureStep(st: Store, stmts: seq<string>, first: Run, tail: seq<string>, k: nat, k': nat)
    ensures && stmts != [] && first == ExecStatement(st, stmts[0]) && first.status.Done?
            && tail == stmts[1..] && k < |tail| && k' == k + 1 && FailsAt(first.store, tail, k)
            ==> k' < |stmts| && FailsAt(st, stmts, k')
  {
    if && stmts != [] && first == ExecStatement(st, stmts[0]) && first.status.Done?
       && tail == stmts[1..] && k < |tail| && k' == k + 1 && FailsAt(first.store, tail, k) {
      var prefix := stmts[..k'];
      PrefixOfTail(stmts, k, k');
      assert stmts[k'] == tail[k];
      StatementsCons(st, stmts);
      StatementsCons(st, prefix);
    }
  }

  lemma PrefixOfTail<T>(s: seq<T>, k: nat, k': nat)
    requires k' == k + 1 <= |s|
    ensures s[..k'] != [] && s[..k'][0] == s[0] && s[..k'][1..] == s[1..][..k]
  {
  }

  /** A body whose first statement finishes runs that statement, then the rest. */
  lemma StatementsCons(st: Store, stmts: seq<string>)
    requires stmts != [] && ExecStatement(st, stmts[0]).status.Done?
    ensures var first := ExecStatement(st, stmts[0]);
            var rest := RunStatements(first.store, stmts[1..]);
            RunStatements(st, stmts) == Run(rest.store, first.events + rest.events, rest.status)
  {
  }

  /** Statement k raised after statements 0..k-1 finished, and the body's
      outcome is exactly the state those k statements left plus that failure. */
  predicate FailsAt(st: Store, stmts: seq<string>, k: nat)
    requires k < |stmts|
  {
    var before := RunStatements(st, stmts[..k]);
    var r := RunStatements(st, stmts);
    && before.status == Done
    && ExecStatement(before.store, stmts[k]).status == r.status
    && r.store == before.store
    && r.events == before.events
  }

  // Cutting a while line

  /** `while(C){B}` with no `)` or `{` in C: the loop runs with condition C
      and the statements of B, both trimmed, split at `;`. */
  lemma WhileDispatch(st: Store, condition: string, block: string, fuel: nat)
    requires NoCharOf(condition, "){")
    ensures ProcessCommand(st, "while(" + condition + "){" + block + "}", fuel) ==
              WhileLoop(st, Trim(condition), Split(Trim(block), ";"), fuel)
  {
    WhileCuts(condition, block);
  }

  /** What `processWhileLoop` cuts out of such a line. */
  lemma WhileCuts(condition: string, block: string)
    requires NoCharOf(condition, "){")
    ensures var input := "while(" + condition + "){" + block + "}";
            && Classify(input) == WhileCommand
            && StartsWith(input, "while(") && Contains(input, "){")
            && WhileParts(input) == Ok((Trim(condition), Trim(block)))
  {
    var input := "while(" + condition + "){" + block + "}";
    var c := |condition|;
    WhileIndices(condition, block);
    assert input[..6] == "while(";
    assert input[6..6 + c] == condition;
    assert input[8 + c..8 + c + |block|] == block;
    assert Substring(input, 6, 6 + c) == Ok(condition);
    assert Substring(input, 8 + c, |input| - 1) == Ok(block);
    ClassifyWhile(input);
  }

  /** Where the first `(`, `)`, `{`, `){` and the last `}` of such a line are. */
  lemma WhileIndices(condition: string, block: string)
    requires NoCharOf(condition, "){")
    ensures var input := "while(" + condition + "){" + block + "}";
            && IndexOf(input, "(") == 5 && IndexOf(input, ")") == 6 + |condition|
            && IndexOf(input, "{") == 7 + |condition| && Contains(input, "){")
            && LastIndexOf(input, "}") == |input| - 1
  {
    var s3 := "while(" + condition + "){" + block;
    FirstOccurrence("while(", "(", 5);
    ExtendThree("while(", condition, "){", block, "}", "(");
    WhileCloseIndex(condition, block);
    WhileBraceIndex(condition, block);
    WhileJoinIndex(condition, block);
    LastAtEnd(s3, "}");
  }

  lemma WhileCloseIndex(condition: string, block: string)
    requires NoCharOf(condition, "){")
    ensures IndexOf("while(" + condition + "){" + block + "}", ")") == 6 + |condition|
  {
    var s1 := "while(" + condition;
    NoCharOfSubset(condition, ")", "){");
    NoCharOfConcat("while(", condition, ")");
    assert "){"[..0] == [];
    IndexInPiece(s1, "){", ")", 0);
    ExtendTwo(s1 + "){", block, "}", ")");
  }

  lemma WhileBraceIndex(condition: string, block: string)
    requires NoCharOf(condition, "){")
    ensures IndexOf("while(" + condition + "){" + block + "}", "{") == 7 + |condition|
  {
    var s1 := "while(" + condition;
    NoCharOfSubset(condition, "{", "){");
    NoCharOfConcat("while(", condition, "{");
    assert "){"[..1] == ")";
    IndexInPiece(s1, "){", "{", 1);
    ExtendTwo(s1 + "){", block, "}", "{");
  }

  lemma WhileJoinIndex(condition: string, block: string)
    requires NoCharOf(condition, "){")
    ensures Contains("while(" + condition + "){" + block + "}", "){")
  {
    var s1 := "while(" + condition;
    NoCharOfSubset(condition, ")", "){");
    NoCharOfConcat("while(", condition, ")");
    assert "){"[..1] == ")" && "){"[..0] == [];
    IndexInPiece(s1, "){", "){", 0);
    ExtendTwo(s1 + "){", block, "}", "){");
  }

  lemma ExtendTwo(s: string, a: string, b: string, p: string)
    requires IndexOf(s, p) >= 0
    ensures IndexOf(s + a + b, p) == IndexOf(s, p) && Contains(s + a + b, p)
  {
    IndexOfExtend(s, a, p);
    IndexOfExtend(s + a, b, p);
  }

  lemma ExtendThree(s: string, a: string, b: string, d: string, e: string, p: string)
    requires IndexOf(s, p) >= 0
    ensures IndexOf(s + a + b + d + e, p) == IndexOf(s, p)
  {
    ExtendTwo(s, a, b, p);
    ExtendTwo(s + a + b, d, e, p);
  }

  lemma ClassifyWhile(input: string)
    requires StartsWith(input, "while(")
    ensures Classify(input) == WhileCommand
  {
    assert input[0] == 'w' && input[..5] == "while";
  }

  // A counting loop

  /** A store in which the counter x holds the `int` k. */
  predicate Counter(st: Store, x: string, k: i32) {
    ValidStore(st) && IsValidName(x) && x in st && st[x] == IntV(k)
  }

  /** `x<n`: the condition of a loop counting up to n. */
  function CountCondition(x: string, n: i32): string {
    x + "<" + IntToString(n)
  }

  /** `print(x)` and ` x=x+1`: the statements of its body, as the split leaves them. */
  function CountBody(x: string): seq<string> {
    ["print(" + x + ")", " " + x + "=" + x + "+1"]
  }

  /** The whole line `while(x<n){ print(x); x=x+1; }`. */
  function CountLine(x: string, n: i32): string {
    "while(" + CountCondition(x, n) + "){" + CountBlock(x) + "}"
  }

  /** The lines printed while counting from k up to n, exclusive. */
  function Counted(k: int, n: int): seq<Event>
    decreases n - k
  {
    if k >= n then [] else [Out(IntToString(k))] + Counted(k + 1, n)
  }

  /** The condition compares the counter with the bound. */
  lemma CountTest(st: Store, x: string, k: i32, n: i32)
    requires Counter(st, x, k)
    ensures Comp.EvaluateComparison(st, CountCondition(x, n)) == Ok(k < n)
  {
    var lit := IntToString(n);
    NameAvoids(x, Comp.OperatorChars);
    NameIsNoLiteral(x);
    Comp.PrintedOperandAvoidsOperators(n);
    TrimLiteral(lit);
    Operands.LiteralOperand(st, lit);
    assert Comp.Symbol(Comp.Less) == "<";
    Comp.ComparesResolvedOperands(st, Comp.Less, x, lit, k, n);
  }

  /** `print(x)` prints the value of x. */
  lemma CountPrint(st: Store, x: string)
    requires IsValidName(x) && x in st
    ensures ExecStatement(st, CountBody(x)[0]) == Run(st, [Out(Show(st[x]))], Done)
  {
    var s := CountBody(x)[0];
    PrintShape(x);
    TrimUnpadded(s);
    PrintsVariable(st, x);
  }

  /** ` x=x+1` adds one to x, with Java wrap-around. */
  lemma CountIncrement(st: Store, x: string, k: i32)
    requires Counter(st, x, k)
    ensures ExecStatement(st, CountBody(x)[1]) == Run(st[x := IntV(Add(k, 1))], [], Done)
  {
    IncrementText(x);
    IncrementValue(st, x, k);
    var s := Trim(CountBody(x)[1]);
    assert ProcessAssignment(st, s) == Assign(st, x, x + "+1");
  }

  /** ` x=x+1` trims to an assignment of `x+1` to x, and is no print statement. */
  lemma IncrementText(x: string)
    requires IsValidName(x)
    ensures var s := Trim(CountBody(x)[1]);
            && s == x + "=" + x + "+1" && !StartsWith(s, "print(")
            && Sides(s) == Some((x, x + "+1"))
  {
    var s := x + "=" + x + "+1";
    assert CountBody(x)[1] == " " + s + [];
    TrimPadded(" ", s, []);
    IncrementNotPrint(x);
    IncrementSides(x);
  }

  lemma IncrementNotPrint(x: string)
    requires IsValidName(x)
    ensures !StartsWith(x + "=" + x + "+1", "print(")
  {
    NameAvoids(x, "(");
    NoCharOfConcat(x, "+1", "(");
    NoCharOfConcat(x, "=", "(");
    NoCharOfConcat(x + "=", x + "+1", "(");
    assert x + "=" + (x + "+1") == x + "=" + x + "+1";
    NoPrefixWithForeignChar(x + "=" + x + "+1", "print(", '(');
  }

  lemma IncrementSides(x: string)
    requires IsValidName(x)
    ensures Sides(x + "=" + x + "+1") == Some((x, x + "+1"))
  {
    var rhs := x + "+1";
    NameAvoids(x, "=");
    NoCharOfConcat(x, "+1", "=");
    SplitAroundOperator(x, "=", rhs);
    assert x + "=" + rhs == x + "=" + x + "+1";
    NameIsNoLiteral(x);
    TrimUnpadded(rhs);
  }

  /** `x+1` is the value of x plus one, with Java wrap-around. */
  lemma IncrementValue(st: Store, x: string, k: i32)
    requires Counter(st, x, k)
    ensures EvaluateExpression(st, x + "+1") == Ok(IntV(Add(k, 1)))
  {
    var rhs := x + "+1";
    IncrementIsNoLiteral(x);
    ArithmeticFallback(st, rhs);
    IncrementArithmetic(st, x, k);
  }

  lemma IncrementIsNoLiteral(x: string)
    requires IsValidName(x)
    ensures !IsIntegerLiteral(x + "+1") && !IsQuotedLiteral(x + "+1")
  {
    var rhs := x + "+1";
    NameIsNoLiteral(x);
    assert rhs[0] == x[0];
  }

  lemma IncrementArithmetic(st: Store, x: string, k: i32)
    requires Counter(st, x, k)
    ensures Arith.EvaluateArithmetic(st, x + "+1") == Ok(Add(k, 1))
  {
    NameIsNoLiteral(x);
    NameAvoids(x, "+");
    assert x + Arith.Symbol(Arith.Plus) + "1" == x + "+1";
    assert Arith.OperatorChars[..Arith.Index(Arith.Plus) + 1] == "+";
    Arith.EvaluatesAtOperator(st, Arith.Plus, x, "1");
    TrimUnpadded("1");
    assert LiteralValue("1") == 1;
    Operands.LiteralOperand(st, "1");
  }

  /** One pass prints the counter and then increments it. */
  lemma CountPass(st: Store, x: string, k: i32)
    requires Counter(st, x, k)
    ensures RunStatements(st, CountBody(x)) == Run(st[x := IntV(Add(k, 1))], [Out(IntToString(k))], Done)
  {
    var body := CountBody(x);
    StatementsTwo(st, body[0], body[1]);
    CountPrint(st, x);
    CountIncrement(st, x, k);
  }

  /** A body of two statements runs the second only when the first finished. */
  lemma StatementsTwo(st: Store, a: string, b: string)
    ensures RunStatements(st, [a, b]) ==
              var x := ExecStatement(st, a);
              if !x.status.Done? then x
              else
                var y := ExecStatement(x.store, b);
                Run(y.store, x.events + y.events, y.status)
  {
    var x := ExecStatement(st, a);
    assert [a, b][1..] == [b] && [b][1..] == [];
    if x.status.Done? {
      var y := ExecStatement(x.store, b);
      assert RunStatements(x.store, [b]) == Run(y.store, y.events + [], y.status);
      assert y.events + [] == y.events;
    }
  }

  /** The loop counting x from k up to n prints k, k+1, ..., n-1 and leaves
      x at n (or at k when k is already past n), given one pass of budget
      per line printed plus one for the final test. */
  lemma CountLoop(st: Store, x: string, k: i32, n: i32, fuel: nat)
    requires Counter(st, x, k)
    requires fuel > 0 && fuel > n - k
    ensures WhileLoop(st, CountCondition(x, n), CountBody(x), fuel) ==
              Run(st[x := IntV(if k < n then n else k)], Counted(k, n), Done)
  {
    CountRuns(st, x, k, n, fuel);
  }

  /** What the counting loop does from a counter store with enough budget. */
  predicate CountsTo(st: Store, x: string, k: i32, n: i32, fuel: nat) {
    WhileLoop(st, CountCondition(x, n), CountBody(x), fuel) ==
      Run(st[x := IntV(if k < n then n else k)], Counted(k, n), Done)
  }

  /** The induction behind CountLoop, stated without requires so that each
      step only discharges the facts the next step needs. */
  lemma {:induction false} CountRuns(st: Store, x: string, k: i32, n: i32, fuel: nat)
    ensures Counter(st, x, k) && fuel > 0 && fuel > n - k ==> CountsTo(st, x, k, n, fuel)
    decreases n - k
  {
    if Counter(st, x, k) && fuel > 0 && fuel > n - k {
      if k < n {
        var st' := CountNext(st, x, k, n);
        var k', fuel' := k + 1, fuel - 1;
        CountRuns(st', x, k', n, fuel');
        CountStep(st, x, k, n, fuel, st', k', fuel');
      } else {
        Overwrite(st, x, IntV(k), IntV(k));
        CountTest(st, x, k, n);
        WhileStops(st, CountCondition(x, n), CountBody(x), fuel);
      }
    }
  }

  /** The store after one pass still counts with x. */
  lemma CountNext(st: Store, x: string, k: i32, n: i32) returns (st': Store)
    requires Counter(st, x, k) && k < n
    ensures st' == st[x := IntV(k + 1)]
    ensures Counter(st', x, k + 1)
  {
    st' := st[x := IntV(k + 1)];
  }

  /** One unrolling of the counting loop, given what the rest of the loop
      does from the store the pass leaves. */
  lemma CountStep(st: Store, x: string, k: i32, n: i32, fuel: nat, st': Store, k': i32, fuel': nat)
    ensures && Counter(st, x, k) && k < n && k' == k + 1 && fuel == fuel' + 1 && st' == st[x := IntV(k')]
            && CountsTo(st', x, k', n, fuel')
            ==> CountsTo(st, x, k, n, fuel)
  {
    if && Counter(st, x, k) && k < n && k' == k + 1 && fuel == fuel' + 1 && st' == st[x := IntV(k')]
       && CountsTo(st', x, k', n, fuel') {
      var condition, body := CountCondition(x, n), CountBody(x);
      CountTest(st, x, k, n);
      assert Add(k, 1) == k';
      CountPass(st, x, k);
      var pass := RunStatements(st, body);
      assert pass == Run(st', [Out(IntToString(k))], Done);
      WhileUnroll(st, condition, body, fuel');
      var rest := WhileLoop(st', condition, body, fuel');
      assert rest == Run(st'[x := IntV(n)], Counted(k', n), Done);
      Overwrite(st, x, IntV(k'), IntV(n));
      assert Counted(k, n) == [Out(IntToString(k))] + Counted(k', n);
    }
  }

  lemma Overwrite(st: Store, x: string, v: Value, w: Value)
    ensures st[x := v][x := w] == st[x := w]
    ensures x in st && st[x] == v ==> st[x := v] == st
  {
  }

  lemma WhileStops(st: Store, condition: string, stmts: seq<string>, fuel: nat)
    requires Comp.EvaluateComparison(st, condition) == Ok(false) && fuel > 0
    ensures WhileLoop(st, condition, stmts, fuel) == Run(st, [], Done)
  {
  }

  /** The whole line `while(x<n){ print(x); x=x+1; }` as a command. */
  lemma CountCommand(st: Store, x: string, k: i32, n: i32, fuel: nat)
    requires Counter(st, x, k)
    requires fuel > 0 && fuel > n - k
    ensures ProcessCommand(st, CountLine(x, n), fuel) ==
              Run(st[x := IntV(if k < n then n else k)], Counted(k, n), Done)
  {
    var condition := CountCondition(x, n);
    var block := CountBlock(x);
    CountLineParts(x, n);
    WhileDispatch(st, condition, block, fuel);
    CountLoop(st, x, k, n, fuel);
  }

  /** The text between `{` and `}` of a counting loop. */
  function CountBlock(x: string): string {
    " " + CountBody(x)[0] + ";" + CountBody(x)[1] + "; "
  }

  /** How `processWhileLoop` cuts a counting loop: its condition and its two statements. */
  lemma CountLineParts(x: string, n: i32)
    requires IsValidName(x)
    ensures NoCharOf(CountCondition(x, n), "){") && Trim(CountCondition(x, n)) == CountCondition(x, n)
    ensures Split(Trim(CountBlock(x)), ";") == CountBody(x)
  {
    var condition := CountCondition(x, n);
    var body := CountBody(x);
    var inner := body[0] + ";" + body[1] + ";";
    assert CountBlock(x) == " " + inner + " ";
    CountConditionAvoids(x, n);
    CountBodyAvoids(x);
    TrimPadded(" ", inner, " ");
    SplitTerminated(body[0], body[1], ";");
    NameIsNoLiteral(x);
    assert condition[0] == x[0];
    TrimUnpadded(condition);
  }

  lemma CountConditionAvoids(x: string, n: i32)
    requires IsValidName(x)
    ensures NoCharOf(CountCondition(x, n), "){")
    ensures var c := CountCondition(x, n); !IsBlank(c[|c| - 1])
  {
    var lit := IntToString(n);
    NameAvoids(x, "){");
    forall i, j | 0 <= i < |lit| && 0 <= j < 2 ensures lit[i] != "){"[j] {
      LiteralCharacters(lit, i);
    }
    NoCharOfConcat(x, "<", "){");
    NoCharOfConcat(x + "<", lit, "){");
    LiteralCharacters(lit, |lit| - 1);
  }

  lemma CountBodyAvoids(x: string)
    requires IsValidName(x)
    ensures NoCharOf(CountBody(x)[0], ";") && NoCharOf(CountBody(x)[1], ";") && CountBody(x)[1] != ""
  {
    NameAvoids(x, ";");
    NoCharOfConcat("print(", x, ";");
    NoCharOfConcat("print(" + x, ")", ";");
    NoCharOfConcat(" ", x, ";");
    NoCharOfConcat(" " + x, "=", ";");
    NoCharOfConcat(" " + x + "=", x, ";");
    NoCharOfConcat(" " + x + "=" + x, "+1", ";");
  }

  // Cutting an if line

  /** `if(C){B}else E`, where neither C nor B holds `}` or the letter `e` and
      C holds no `)` or `{`: the condition picks B or E, each run as a whole
      command line. */
  lemma IfDispatch(st: Store, condition: string, body: string, other: string, fuel: nat)
    requires NoCharOf(condition, "){}e") && NoCharOf(body, "}e")
    requires other != "" && !IsBlank(other[0]) && !IsBlank(other[|other| - 1])
    ensures ProcessCommand(st, "if(" + condition + "){" + body + "}else " + other, fuel) ==
              match Comp.EvaluateComparison(st, Trim(condition))
              case Err(e) => Run(st, [], Failed(e))
              case Ok(true) => ProcessCommand(st, Trim(body), fuel)
              case Ok(false) => ProcessCommand(st, other, fuel)
  {
    IfCuts(condition, body, other);
  }

  /** What `processIfStatement` cuts out of such a line. */
  lemma IfCuts(condition: string, body: string, other: string)
    requires NoCharOf(condition, "){}e") && NoCharOf(body, "}e")
    requires other != "" && !IsBlank(other[0]) && !IsBlank(other[|other| - 1])
    ensures var input := "if(" + condition + "){" + body + "}else " + other;
            && Classify(input) == IfCommand
            && StartsWith(input, "if") && Contains(input, "(") && Contains(input, ")")
            && IfParts(input) == Ok((Trim(condition), Trim(body), other))
  {
    var input := "if(" + condition + "){" + body + "}else " + other;
    IfIndices(condition, body, other);
    IfPartsCut(condition, body, other);
    assert input[..2] == "if";
    ClassifyIf(input);
  }

  lemma IfPartsCut(condition: string, body: string, other: string)
    requires NoCharOf(condition, "){}e") && NoCharOf(body, "}e")
    requires other != "" && !IsBlank(other[0]) && !IsBlank(other[|other| - 1])
    ensures IfParts("if(" + condition + "){" + body + "}else " + other) == Ok((Trim(condition), Trim(body), other))
  {
    var input := "if(" + condition + "){" + body + "}else " + other;
    var c, b := |condition|, |body|;
    var close, lbrace, rbrace, els := 3 + c, 4 + c, 5 + c + b, 6 + c + b;
    IfIndices(condition, body, other);
    IfSlices(condition, body, other, 2, close, lbrace, rbrace, els);
    IfPartsAt(input, 2, close, lbrace, rbrace, els, condition, body, other);
  }

  /** The pieces of such a line between its landmarks. */
  lemma IfSlices(condition: string, body: string, other: string, open: int, close: int, lbrace: int, rbrace: int, els: int)
    requires other != "" && !IsBlank(other[0]) && !IsBlank(other[|other| - 1])
    requires open == 2 && close == 3 + |condition| && lbrace == 4 + |condition|
    requires rbrace == 5 + |condition| + |body| && els == 6 + |condition| + |body|
    ensures var input := "if(" + condition + "){" + body + "}else " + other;
            && input[open + 1..close] == condition && input[lbrace + 1..rbrace] == body
            && Trim(input[els + 4..]) == other
  {
    IfSliceCondition(condition, body, other, open, close);
    IfSliceBody(condition, body, other, lbrace, rbrace);
    IfSliceElse(condition, body, other, els);
  }

  lemma IfSliceCondition(condition: string, body: string, other: string, open: int, close: int)
    requires open == 2 && close == 3 + |condition|
    ensures ("if(" + condition + "){" + body + "}else " + other)[open + 1..close] == condition
  {
    var input := "if(" + condition + "){" + body + "}else " + other;
    assert forall i :: 0 <= i < |condition| ==> input[open + 1 + i] == condition[i];
  }

  lemma IfSliceBody(condition: string, body: string, other: string, lbrace: int, rbrace: int)
    requires lbrace == 4 + |condition| && rbrace == 5 + |condition| + |body|
    ensures ("if(" + condition + "){" + body + "}else " + other)[lbrace + 1..rbrace] == body
  {
    var input := "if(" + condition + "){" + body + "}else " + other;
    assert forall i :: 0 <= i < |body| ==> input[lbrace + 1 + i] == body[i];
  }

  lemma IfSliceElse(condition: string, body: string, other: string, els: int)
    requires other != "" && !IsBlank(other[0]) && !IsBlank(other[|other| - 1])
    requires els == 6 + |condition| + |body|
    ensures Trim(("if(" + condition + "){" + body + "}else " + other)[els + 4..]) == other
  {
    var input := "if(" + condition + "){" + body + "}else " + other;
    var tail := input[els + 4..];
    assert forall i :: 0 <= i < |other| ==> tail[1 + i] == other[i];
    assert tail == " " + other;
    TrimPadded(" ", other, []);
    assert " " + other + [] == " " + other;
  }

  /** Where the first `(`, `)`, `{`, `}` and `else` of such a line are. */
  lemma IfIndices(condition: string, body: string, other: string)
    requires NoCharOf(condition, "){}e") && NoCharOf(body, "}e")
    ensures var input := "if(" + condition + "){" + body + "}else " + other;
            var c, b := |condition|, |body|;
            && IndexOf(input, "(") == 2 && IndexOf(input, ")") == 3 + c
            && IndexOf(input, "{") == 4 + c && IndexOf(input, "}") == 5 + c + b
            && IndexOf(input, "else") == 6 + c + b
            && Contains(input, "(") && Contains(input, ")") && Contains(input, "else")
  {
    var s3 := "if(" + condition + "){" + body;
    IfOpenIndex(condition, body, other);
    IfCloseIndex(condition, body, other);
    IfBraceIndex(condition, body, other);
    IfIndicesAfterBody(s3, condition, body, other);
  }

  lemma IfOpenIndex(condition: string, body: string, other: string)
    ensures IndexOf("if(" + condition + "){" + body + "}else " + other, "(") == 2
  {
    var s4 := "if(" + condition + "){" + body + "}else ";
    FirstOccurrence("if(", "(", 2);
    ExtendThree("if(", condition, "){", body, "}else ", "(");
    IndexOfExtend(s4, other, "(");
  }

  lemma IfCloseIndex(condition: string, body: string, other: string)
    requires NoCharOf(condition, "){}e")
    ensures IndexOf("if(" + condition + "){" + body + "}else " + other, ")") == 3 + |condition|
  {
    var s1 := "if(" + condition;
    var s2 := s1 + "){";
    NoCharOfSubset(condition, ")", "){}e");
    NoCharOfConcat("if(", condition, ")");
    assert "){"[..0] == [];
    IndexInPiece(s1, "){", ")", 0);
    ExtendThree(s2, body, "}else ", other, [], ")");
    assert s2 + body + "}else " + other + [] == s2 + body + "}else " + other;
  }

  lemma IfBraceIndex(condition: string, body: string, other: string)
    requires NoCharOf(condition, "){}e")
    ensures IndexOf("if(" + condition + "){" + body + "}else " + other, "{") == 4 + |condition|
  {
    var s1 := "if(" + condition;
    var s2 := s1 + "){";
    NoCharOfSubset(condition, "{", "){}e");
    NoCharOfConcat("if(", condition, "{");
    assert "){"[..1] == ")";
    IndexInPiece(s1, "){", "{", 1);
    ExtendThree(s2, body, "}else ", other, [], "{");
    assert s2 + body + "}else " + other + [] == s2 + body + "}else " + other;
  }

  lemma IfIndicesAfterBody(s3: string, condition: string, body: string, other: string)
    requires NoCharOf(condition, "){}e") && NoCharOf(body, "}e")
    requires s3 == "if(" + condition + "){" + body
    ensures IndexOf(s3 + "}else " + other, "}") == |s3|
    ensures IndexOf(s3 + "}else " + other, "else") == |s3| + 1 && Contains(s3 + "}else " + other, "else")
  {
    var s1 := "if(" + condition;
    var s2 := s1 + "){";
    NoCharOfSubset(condition, "}", "){}e");
    NoCharOfSubset(condition, "e", "){}e");
    NoCharOfSubset(body, "}", "}e");
    NoCharOfSubset(body, "e", "}e");
    NoCharOfConcat("if(", condition, "}");
    NoCharOfConcat(s1, "){", "}");
    NoCharOfConcat(s2, body, "}");
    NoCharOfConcat("if(", condition, "e");
    NoCharOfConcat(s1, "){", "e");
    NoCharOfConcat(s2, body, "e");
    assert "}else "[..1] == "}" && "}else "[..0] == [] && "else"[..1] == "e";
    IndexInPiece(s3, "}else ", "}", 0);
    IndexOfExtend(s3 + "}else ", other, "}");
    IndexInPiece(s3, "}else ", "else", 1);
    IndexOfExtend(s3 + "}else ", other, "else");
  }

  lemma IfPartsAt(input: string, open: int, close: int, lbrace: int, rbrace: int, els: int,
                  condition: string, body: string, other: string)
    requires IndexOf(input, "(") == open && IndexOf(input, ")") == close
    requires IndexOf(input, "{") == lbrace && IndexOf(input, "}") == rbrace
    requires IndexOf(input, "else") == els && Contains(input, "else")
    requires 0 <= open < close && 0 <= lbrace < rbrace <= |input| && els + 4 <= |input|
    requires input[open + 1..close] == condition && input[lbrace + 1..rbrace] == body
    requires Trim(input[els + 4..]) == other
    ensures IfParts(input) == Ok((Trim(condition), Trim(body), other))
  {
    assert Substring(input, open + 1, close) == Ok(condition);
    assert Substring(input, lbrace + 1, rbrace) == Ok(body);
    IfPartsOf(input, condition, body, other);
  }

  lemma IfPartsOf(input: string, condition: string, body: string, elsePart: string)
    requires Substring(input, IndexOf(input, "(") + 1, IndexOf(input, ")")) == Ok(condition)
    requires Substring(input, IndexOf(input, "{") + 1, IndexOf(input, "}")) == Ok(body)
    requires Contains(input, "else") && Trim(input[IndexOf(input, "else") + 4..]) == elsePart
    ensures IfParts(input) == Ok((Trim(condition), Trim(body), elsePart))
  {
  }

  lemma ClassifyIf(input: string)
    requires StartsWith(input, "if")
    ensures Classify(input) == IfCommand
  {
  }

  /** `if(C){B}else {S}` with a false condition does not run S: the text
      after `else` starts with `{`, which is no command. */
  lemma BracedElseIsUnknown(st: Store, condition: string, body: string, other: string, fuel: nat)
    requires NoCharOf(condition, "){}e") && NoCharOf(body, "}e")
    requires other != "" && other[0] == '{' && !IsBlank(other[|other| - 1])
    requires Comp.EvaluateComparison(st, Trim(condition)) == Ok(false)
    ensures ProcessCommand(st, "if(" + condition + "){" + body + "}else " + other, fuel) ==
              Run(st, [Out("Error: Unknown command.")], Done)
  {
    ClassifyBrace(other);
    UnknownLine(st, other, fuel);
    IfDispatch(st, condition, body, other, fuel);
  }

  /** A line of no known kind prints the unknown-command message and changes nothing. */
  lemma UnknownLine(st: Store, input: string, fuel: nat)
    requires Classify(input) == UnknownCommand
    ensures ProcessCommand(st, input, fuel) == Run(st, [Out("Error: Unknown command.")], Done)
  {
  }

  lemma ClassifyBrace(input: string)
    requires input != "" && input[0] == '{'
    ensures Classify(input) == UnknownCommand
  {
  }
}

=== FILE: reader_properties.dfy ===
/** What the statement executor promises about whole lines: how right-hand
    sides are resolved, what `var`, assignments and `print` do to the store
    and the console, and that a bigger iteration budget changes nothing once
    a command has finished.
 */
module ReaderProperties {
  import opened Errors
  import opened JavaInt
  import opened JavaString
  import opened VariableStorage
  import opened Reader
  import Arith = ArithmeticEvaluator
  import Operands

  // Names

  /** A valid name is neither an integer literal nor quoted text, and `trim` keeps it. */
  lemma NameIsNoLiteral(name: string)
    requires IsValidName(name)
    ensures !IsIntegerLiteral(name) && !IsQuotedLiteral(name) && Trim(name) == name
  {
    assert !IsDigit(name[0]) && name[0] != '-';
    TrimUnpadded(name);
  }

  /** A valid name holds none of the characters of `t` when none of them may occur in a name. */
  lemma NameAvoids(name: string, t: string)
    requires IsValidName(name)
    requires forall j :: 0 <= j < |t| ==> !IsNamePart(t[j])
    ensures NoCharOf(name, t)
  {
    forall i, j | 0 <= i < |name| && 0 <= j < |t| ensures name[i] != t[j] {
      assert IsNamePart(name[i]);
    }
  }

  // evaluateExpression

  /** A printed `int` evaluates back to itself. */
  lemma LiteralExpression(st: Store, n: i32)
    ensures EvaluateExpression(st, IntToString(n)) == Ok(IntV(n))
  {
    ParseIntToString(n);
  }

  /** A literal outside the `int` range is an invalid expression, whatever the store holds. */
  lemma OutOfRangeLiteral(st: Store, s: string)
    requires IsIntegerLiteral(s) && !InRange(LiteralValue(s))
    ensures EvaluateExpression(st, s) == Err(InvalidExpression(s))
  {
  }

  /** Quoted text evaluates to the text between the quotes, verbatim. */
  lemma QuotedExpression(st: Store, t: string)
    requires forall i :: 0 <= i < |t| ==> !IsLineTerminator(t[i])
    ensures EvaluateExpression(st, "\"" + t + "\"") == Ok(StrV(t))
  {
    var q := "\"" + t + "\"";
    assert q[0] == '"' && q[|q| - 1] == '"';
    assert forall i :: 0 < i < |q| - 1 ==> q[i] == t[i - 1];
    assert q[1..|q| - 1] == t;
  }

  /** A bare variable name is not an expression: it is neither a literal nor
      quoted, and arithmetic needs an operator. This holds even when the
      variable exists. */
  lemma BareNameRejected(st: Store, name: string)
    requires IsValidName(name)
    ensures EvaluateExpression(st, name) == Err(InvalidExpression(name))
  {
    NameIsNoLiteral(name);
    NameAvoids(name, Arith.OperatorChars);
    Arith.NoOperatorUnsupported(st, name);
  }

  /** `a op b` with printed `int`s evaluates to the Java result, and a zero
      divisor makes the whole right-hand side invalid. */
  lemma ArithmeticExpression(st: Store, op: Arith.Operator, a: i32, b: i32)
    requires ValidStore(st)
    requires op == Arith.Plus || (a >= 0 && b >= 0)
    ensures var text := IntToString(a) + Arith.Symbol(op) + IntToString(b);
            EvaluateExpression(st, text) ==
              match Arith.Apply(op, a, b)
              case Ok(v) => Ok(IntV(v))
              case Err(_) => Err(InvalidExpression(text))
  {
    var text := IntToString(a) + Arith.Symbol(op) + IntToString(b);
    OperationIsNoLiteral(op, a, b);
    ArithmeticFallback(st, text);
    Arith.EvaluatesPrintedOperands(st, op, a, b);
  }

  /** Text that is neither an integer literal nor quoted is evaluated as arithmetic. */
  lemma ArithmeticFallback(st: Store, text: string)
    requires !IsIntegerLiteral(text) && !IsQuotedLiteral(text)
    ensures EvaluateExpression(st, text) ==
              match Arith.EvaluateArithmetic(st, text)
              case Ok(v) => Ok(IntV(v))
              case Err(_) => Err(InvalidExpression(text))
  {
  }

  lemma OperationIsNoLiteral(op: Arith.Operator, a: i32, b: i32)
    ensures var text := IntToString(a) + Arith.Symbol(op) + IntToString(b);
            !IsIntegerLiteral(text) && !IsQuotedLiteral(text)
  {
    var sa := IntToString(a);
    var text := sa + Arith.Symbol(op) + IntToString(b);
    assert text[|sa|] == Arith.Symbol(op)[0];
    assert text[0] != '"' by {
      LiteralCharacters(sa, 0);
    }
    assert !IsIntegerLiteral(text) by {
      if IsIntegerLiteral(text) {
        LiteralCharacters(text, |sa|);
      }
    }
  }

  // Assignments and declarations

  /** A statement with one `=` assigns its trimmed right side to its trimmed left side. */
  lemma AssignmentSplits(st: Store, lhs: string, rhs: string)
    requires rhs != "" && NoCharOf(lhs, "=") && NoCharOf(rhs, "=")
    ensures ProcessAssignment(st, lhs + "=" + rhs) == Assign(st, Trim(lhs), Trim(rhs))
  {
    SplitAroundOperator(lhs, "=", rhs);
  }

  /** A statement without `=`, or with two of them, is an invalid assignment. */
  lemma AssignmentNeedsOneEquals(st: Store, stmt: string)
    requires NoCharOf(stmt, "=")
    ensures ProcessAssignment(st, stmt) == Err(InvalidAssignment(stmt))
  {
    NoOccurrenceWithoutSharedCharacter(stmt, "=");
    SplitWithoutSeparator(stmt, "=");
  }

  /** `var name = rhs` for a valid name and a right side without `=` or
      outer blanks: the declaration is the assignment of the right side to the name. */
  lemma DeclarationSplits(st: Store, name: string, rhs: string, fuel: nat)
    requires IsValidName(name) && rhs != "" && NoCharOf(rhs, "=")
    requires !IsBlank(rhs[0]) && !IsBlank(rhs[|rhs| - 1])
    ensures ProcessCommand(st, "var " + name + " = " + rhs, fuel) ==
              match Assign(st, name, rhs)
              case Ok(st') => Run(st', [], Done)
              case Err(e) => Run(st, [], Failed(e))
  {
    var input := "var " + name + " = " + rhs;
    assert input[..4] == "var ";
    DispatchVar(st, input, fuel);
    DeclarationSides(name, rhs);
  }

  lemma DispatchVar(st: Store, input: string, fuel: nat)
    requires StartsWith(input, "var ")
    ensures ProcessCommand(st, input, fuel) == ProcessVarDecl(st, input)
  {
    ClassifyVar(input);
  }

  /** The two sides of `name = rhs`, as a declaration sees them. */
  lemma DeclarationSides(name: string, rhs: string)
    requires IsValidName(name) && rhs != "" && NoCharOf(rhs, "=")
    requires !IsBlank(rhs[0]) && !IsBlank(rhs[|rhs| - 1])
    ensures Sides(("var " + name + " = " + rhs)[4..]) == Some((name, rhs))
  {
    var lhs := name + " ";
    assert ("var " + name + " = " + rhs)[4..] == lhs + "=" + (" " + rhs);
    NameAvoids(name, "=");
    assert NoCharOf(lhs, "=");
    SplitAroundOperator(lhs, "=", " " + rhs);
    NameIsNoLiteral(name);
    TrimPadded([], name, " ");
    assert [] + name + " " == lhs;
    TrimPadded(" ", rhs, []);
    assert " " + rhs + [] == " " + rhs;
  }

  lemma ClassifyVar(input: string)
    requires StartsWith(input, "var ")
    ensures Classify(input) == VarCommand
  {
    assert input[0] == 'v';
  }

  lemma ClassifyPrint(input: string)
    requires StartsWith(input, "print(")
    ensures Classify(input) == PrintCommand
  {
    assert input[0] == 'p' && input[1] == 'r';
  }

  /** `var name = n` stores the `int` n under the name and prints nothing. */
  lemma DeclarationStoresLiteral(st: Store, name: string, n: i32, fuel: nat)
    requires IsValidName(name)
    ensures ProcessCommand(st, "var " + name + " = " + IntToString(n), fuel) == Run(st[name := IntV(n)], [], Done)
  {
    var lit := IntToString(n);
    forall i, j | 0 <= i < |lit| && 0 <= j < 1 ensures lit[i] != "="[j] {
      LiteralCharacters(lit, i);
    }
    LiteralCharacters(lit, 0);
    LiteralCharacters(lit, |lit| - 1);
    DeclarationSplits(st, name, lit, fuel);
    LiteralExpression(st, n);
  }

  /** `var name = "t"` stores the text t, without its quotes. */
  lemma DeclarationStoresText(st: Store, name: string, t: string, fuel: nat)
    requires IsValidName(name) && NoCharOf(t, "=")
    requires forall i :: 0 <= i < |t| ==> !IsLineTerminator(t[i])
    ensures ProcessCommand(st, "var " + name + " = \"" + t + "\"", fuel) == Run(st[name := StrV(t)], [], Done)
  {
    var q := "\"" + t + "\"";
    assert "var " + name + " = \"" + t + "\"" == "var " + name + " = " + q;
    forall i, j | 0 <= i < |q| && 0 <= j < 1 ensures q[i] != "="[j] {
      if 0 < i < |q| - 1 {
        assert q[i] == t[i - 1];
      }
    }
    DeclarationSplits(st, name, q, fuel);
    QuotedExpression(st, t);
  }

  /** `var y = x` with a valid name x is an invalid expression and stores nothing,
      even when x is a variable. */
  lemma DeclarationOfBareName(st: Store, name: string, other: string, fuel: nat)
    requires IsValidName(name) && IsValidName(other)
    ensures ProcessCommand(st, "var " + name + " = " + other, fuel) == Run(st, [], Failed(InvalidExpression(other)))
  {
    NameAvoids(other, "=");
    DeclarationSplits(st, name, other, fuel);
    NameIsNoLiteral(other);
    BareNameRejected(st, other);
  }

  /** A declaration without `=` prints a syntax error, raises nothing and stores nothing. */
  lemma DeclarationWithoutValue(st: Store, text: string, fuel: nat)
    requires NoCharOf(text, "=")
    ensures ProcessCommand(st, "var " + text, fuel) ==
              Run(st, [Out("Syntax error: Invalid variable declaration.")], Done)
  {
    var input := "var " + text;
    assert input[..4] == "var " && input[4..] == text;
    ClassifyVar(input);
    NoOccurrenceWithoutSharedCharacter(text, "=");
    SplitWithoutSeparator(text, "=");
  }

  // print

  /** `print(x)` for an existing variable shows its value as stored. */
  lemma PrintVariable(st: Store, name: string, fuel: nat)
    requires IsValidName(name) && name in st
    ensures ProcessCommand(st, "print(" + name + ")", fuel) == Run(st, [Out(Show(st[name]))], Done)
  {
    var input := "print(" + name + ")";
    PrintCommandRuns(st, input, fuel);
    PrintsVariable(st, name);
  }

  /** The text between `print(` and `)`, when it names a variable, is shown as stored. */
  lemma PrintsVariable(st: Store, name: string)
    requires IsValidName(name) && name in st
    ensures ProcessPrint(st, "print(" + name + ")") == Ok(Show(st[name]))
  {
    PrintShape(name);
    NameIsNoLiteral(name);
  }

  lemma PrintShape(inner: string)
    ensures var input := "print(" + inner + ")";
            && StartsWith(input, "print(") && EndsWith(input, ")") && input[6..|input| - 1] == inner
            && input[0] == 'p' && input[|input| - 1] == ')'
  {
    var input := "print(" + inner + ")";
    assert input[..6] == "print(";
    assert input[|input| - 1..] == ")";
    assert input[6..|input| - 1] == inner;
  }

  /** A line starting with `print(` is run as a print statement. */
  lemma PrintCommandRuns(st: Store, input: string, fuel: nat)
    requires StartsWith(input, "print(")
    ensures ProcessCommand(st, input, fuel) == PrintRun(st, input)
  {
    ClassifyPrint(input);
  }

  /** `print(n)` with a printed `int` shows the same text. */
  lemma PrintLiteral(st: Store, n: i32, fuel: nat)
    requires ValidStore(st)
    ensures ProcessCommand(st, "print(" + IntToString(n) + ")", fuel) == Run(st, [Out(IntToString(n))], Done)
  {
    var input := "print(" + IntToString(n) + ")";
    PrintShape(IntToString(n));
    PrintCommandRuns(st, input, fuel);
    PrintsLiteral(st, n);
  }

  lemma PrintsLiteral(st: Store, n: i32)
    requires ValidStore(st)
    ensures ProcessPrint(st, "print(" + IntToString(n) + ")") == Ok(IntToString(n))
  {
    var lit := IntToString(n);
    PrintShape(lit);
    TrimLiteral(lit);
    LiteralCharacters(lit, 0);
    assert !IsValidName(lit);
    LiteralExpression(st, n);
  }

  /** A print statement without its closing parenthesis raises a syntax error and changes nothing. */
  lemma PrintNeedsClosingParenthesis(st: Store, input: string, fuel: nat)
    requires StartsWith(input, "print(") && !EndsWith(input, ")")
    ensures ProcessCommand(st, input, fuel) == Run(st, [], Failed(InvalidPrint))
  {
    ClassifyPrint(input);
  }
}

=== FILE: reader_session.dfy ===
/** What the dispatcher does with calls of the built-in algorithms, and how
    the read loop strings lines together: blank lines are skipped, an
    exception is reported and the session goes on, and `exit` ends it.
 */
module ReaderSession {
  import opened JavaInt
  import opened Errors
  import opened JavaString
  import opened VariableStorage
  import opened Reader
  import opened ReaderControl
  import Algo = Algorithms

  // Algorithm calls

  /** A call `name(params)` is cut at the first `(` and the first `)`; what
      follows the `)` is ignored and the parameters are split at commas. */
  lemma CallDispatch(input: string, name: string, params: string, rest: string)
    requires input == name + "(" + params + ")" + rest
    requires NoCharOf(name, "()") && NoCharOf(params, ")")
    ensures AlgorithmResult(input) == RunAlgorithm(name, Split(params, ","))
  {
    var open, close := |name|, |name| + 1 + |params|;
    CallIndices(name, params, rest);
    CallSlices(input, name, params, rest, open, close);
    assert Substring(input, 0, IndexOf(input, "(")) == Ok(name);
    assert Substring(input, IndexOf(input, "(") + 1, IndexOf(input, ")")) == Ok(params);
  }

  lemma CallSlices(input: string, name: string, params: string, rest: string, open: int, close: int)
    requires input == name + "(" + params + ")" + rest
    requires open == |name| && close == |name| + 1 + |params|
    ensures 0 <= open < close <= |input|
    ensures input[..open] == name && input[open + 1..close] == params
  {
    assert forall i :: 0 <= i < |name| ==> input[i] == name[i];
    assert forall i :: 0 <= i < |params| ==> input[open + 1 + i] == params[i];
  }

  lemma CallIndices(name: string, params: string, rest: string)
    requires NoCharOf(name, "()") && NoCharOf(params, ")")
    ensures IndexOf(name + "(" + params + ")" + rest, "(") == |name|
    ensures IndexOf(name + "(" + params + ")" + rest, ")") == |name| + 1 + |params|
  {
    var s1 := name + "(";
    var s2 := s1 + params;
    NoCharOfSubset(name, "(", "()");
    NoCharOfSubset(name, ")", "()");
    assert "("[..1] == "(" && "("[..0] == [] && ")"[..1] == ")" && ")"[..0] == [];
    IndexInPiece(name, "(", "(", 0);
    IndexOfExtend(s1, params + ")" + rest, "(");
    assert s1 + (params + ")" + rest) == name + "(" + params + ")" + rest;
    assert NoCharOf("(", ")");
    NoCharOfConcat(name, "(", ")");
    NoCharOfConcat(s1, params, ")");
    IndexInPiece(s2, ")", ")", 0);
    IndexOfExtend(s2 + ")", rest, ")");
  }

  /** Only a name the `switch` lacks prints the unknown-algorithm line; a
      known name prints a number, `true`, `false`, or raises. */
  lemma UnknownAlgorithmOnlyForUnknownName(name: string, args: seq<string>)
    ensures RunAlgorithm(name, args) == Ok(UnknownAlgorithm) <==> name !in AlgorithmNames
  {
    assert UnknownAlgorithm[0] == 'E';
    if name in AlgorithmNames {
      var r := RunAlgorithm(name, args);
      if r.Ok? && name != "primeChecker" {
        LiteralCharacters(r.value, 0);
      }
    }
  }

  /** A line the dispatcher hands to `processAlgorithm` starts with one of the
      five names and a `(`: its first `(` ends the name. */
  lemma AlgorithmLineName(input: string, name: string)
    requires name in AlgorithmNames && StartsWith(input, name + "(")
    ensures IndexOf(input, "(") == |name|
    ensures Substring(input, 0, IndexOf(input, "(")) == Ok(name)
  {
    var tail := input[|name|..];
    assert input == name + tail;
    assert tail[..1] == "(" by {
      assert input[..|name| + 1] == name + "(";
    }
    assert NoCharOf(name, "(");
    assert "("[..1] == "(" && tail[..0] == [];
    IndexInPiece(name, tail, "(", 0);
  }

  /** The `default` case of `processAlgorithm` is never reached from the
      dispatcher: every line it receives names one of the five built-ins. */
  lemma NeverUnknownAlgorithm(input: string)
    requires IsAlgorithmCall(input)
    ensures ProcessAlgorithm(input) != UnknownAlgorithm
  {
    var name := AlgorithmCallName(input);
    AlgorithmLineName(input, name);
    assert ("Error in algorithm usage: ")[5] != UnknownAlgorithm[5];
    match Substring(input, IndexOf(input, "(") + 1, IndexOf(input, ")"))
    case Err(_) =>
    case Ok(params) =>
      UnknownAlgorithmOnlyForUnknownName(name, Split(params, ","));
  }

  /** Which of the five names a dispatched line starts with. */
  function AlgorithmCallName(input: string): (name: string)
    requires IsAlgorithmCall(input)
    ensures name in AlgorithmNames && StartsWith(input, name + "(")
  {
    if StartsWith(input, "factorial(") then "factorial"
    else if StartsWith(input, "sumOfNumbers(") then "sumOfNumbers"
    else if StartsWith(input, "gcd(") then "gcd"
    else if StartsWith(input, "reverse(") then "reverse"
    else "primeChecker"
  }

  /** A call of one of the five built-ins is an algorithm command: it prints
      one line and leaves the store alone. */
  lemma AlgorithmCommandPrints(st: Store, input: string, fuel: nat)
    requires IsAlgorithmCall(input)
    ensures ProcessCommand(st, input, fuel) == Run(st, [Out(ProcessAlgorithm(input))], Done)
  {
    ClassifyAlgorithm(input);
  }

  lemma ClassifyAlgorithm(input: string)
    requires IsAlgorithmCall(input)
    ensures Classify(input) == AlgorithmCommand
  {
    var name := AlgorithmCallName(input);
    assert input[..|name| + 1] == name + "(";
    assert input[0] == name[0];
    if name == "primeChecker" {
      assert input[3] == 'm';
    }
  }

  /** `gcd` with a single well-formed argument raises on the missing second
      one, and the message is printed in place of a result. */
  lemma GcdNeedsTwoArguments(a: string)
    requires NoCharOf(a, "(),") && ParseInt(Trim(a)).Ok?
    ensures ProcessAlgorithm("gcd(" + a + ")") ==
              "Error in algorithm usage: " + Message(ArrayIndexOutOfBounds(1, 1))
  {
    var input := "gcd(" + a + ")";
    var e := ArrayIndexOutOfBounds(1, 1);
    OneArgumentCut(input, "gcd", a);
    GcdOneArgument(a);
    assert AlgorithmResult(input) == Err(e);
  }

  /** A call without a closing parenthesis: the second `substring` gets the
      end -1 and raises, and its message is printed in place of a result. */
  lemma UnclosedCall(name: string, a: string)
    requires NoCharOf(name, "()") && NoCharOf(a, ")")
    ensures ProcessAlgorithm(name + "(" + a) ==
              "Error in algorithm usage: " + Message(StringIndexOutOfBounds(|name| + 1, -1, |name| + 1 + |a|))
  {
    var input := name + "(" + a;
    UnclosedIndices(name, a);
    var e := StringIndexOutOfBounds(|name| + 1, -1, |input|);
    assert Substring(input, 0, IndexOf(input, "(")) == Ok(name);
    assert Substring(input, IndexOf(input, "(") + 1, IndexOf(input, ")")) == Err(e);
    assert AlgorithmResult(input) == Err(e);
  }

  lemma UnclosedIndices(name: string, a: string)
    requires NoCharOf(name, "()") && NoCharOf(a, ")")
    ensures IndexOf(name + "(" + a, "(") == |name|
    ensures IndexOf(name + "(" + a, ")") == -1
    ensures (name + "(" + a)[..|name|] == name
  {
    var s1 := name + "(";
    NoCharOfSubset(name, "(", "()");
    NoCharOfSubset(name, ")", "()");
    assert "("[..1] == "(" && "("[..0] == [];
    IndexInPiece(name, "(", "(", 0);
    IndexOfExtend(s1, a, "(");
    assert NoCharOf("(", ")");
    NoCharOfConcat(name, "(", ")");
    NoCharOfConcat(s1, a, ")");
    NoOccurrenceWithoutSharedCharacter(s1 + a, ")");
  }

  /** `factorial(5` cuts its parameters at begin 10 and end -1 of an
      11-character line; RangeMessageExample gives the printed text. */
  lemma UnclosedCallExample()
    ensures ProcessAlgorithm("factorial" + "(" + "5") ==
              "Error in algorithm usage: " + Message(StringIndexOutOfBounds(10, -1, 11))
  {
    UnclosedCall("factorial", "5");
    assert |"factorial"| + 1 == 10 && |"factorial"| + 1 + |"5"| == 11;
  }

  /** The JDK's message for that cut. */
  lemma RangeMessageExample()
    ensures Message(StringIndexOutOfBounds(10, -1, 11)) ==
              "Range [" + "10" + ", " + "-1" + ") out of bounds for length " + "11"
  {
    assert NatToString(1) == "1" && NatToString(0) == "0";
    assert IntToString(10) == "10" && IntToString(-1) == "-1" && IntToString(11) == "11";
  }

  /** A one-argument call, cut and split. */
  lemma OneArgumentCut(input: string, name: string, a: string)
    requires name in AlgorithmNames && input == name + "(" + a + ")"
    requires NoCharOf(a, "(),")
    ensures AlgorithmResult(input) == RunAlgorithm(name, [a])
  {
    NoCharOfSubset(a, ")", "(),");
    assert NoCharOf(name, "()");
    assert input == name + "(" + a + ")" + [];
    CallDispatch(input, name, a, []);
    OneArgument(a);
  }

  lemma GcdOneArgument(a: string)
    requires ParseInt(Trim(a)).Ok?
    ensures RunAlgorithm("gcd", [a]) == Err(ArrayIndexOutOfBounds(1, 1))
  {
  }

  /** The message of the missing second argument, as Java 21 words it (the wording dates from Java 11). */
  lemma MissingSecondArgument()
    ensures Message(ArrayIndexOutOfBounds(1, 1)) == "Index 1 out of bounds for length 1"
  {
    assert IntToString(1) == "1";
  }

  /** A parameter text without a comma is one argument. */
  lemma OneArgument(a: string)
    requires NoCharOf(a, "(),")
    ensures Split(a, ",") == [a]
  {
    NoCharOfSubset(a, ",", "(),");
    NoOccurrenceWithoutSharedCharacter(a, ",");
    SplitWithoutSeparator(a, ",");
  }

  /** A one-argument built-in called with a well-formed number prints its
      result; a malformed number prints the parse error. */
  lemma OneArgumentCall(name: string, a: string)
    requires name in AlgorithmNames - {"gcd"} && NoCharOf(a, "(),")
    ensures ParseInt(Trim(a)).Err? ==>
              ProcessAlgorithm(name + "(" + a + ")") ==
                "Error in algorithm usage: " + Message(NumberFormat(Trim(a)))
    ensures ParseInt(Trim(a)).Ok? ==>
              var n := ParseInt(Trim(a)).value;
              ProcessAlgorithm(name + "(" + a + ")") ==
                match name
                case "sumOfNumbers" => IntToString(Algo.SumOfNumbersAsWritten(n))
                case "factorial" => IntToString(Algo.Factorial(n))
                case "reverse" => IntToString(Algo.Reverse(n))
                case _ => BoolToString(Algo.PrimeCheckerAsWritten(n))
  {
    var input := name + "(" + a + ")";
    OneArgumentCut(input, name, a);
    var arg := Argument([a], 0);
    assert arg == ParseInt(Trim(a));
    var r := RunAlgorithm(name, [a]);
    assert ProcessAlgorithm(input) == if r.Ok? then r.value else "Error in algorithm usage: " + Message(r.error);
    if arg.Ok? {
      assert r.Ok?;
      var n := arg.value;
      if name == "sumOfNumbers" {
        assert r.value == IntToString(Algo.SumOfNumbersAsWritten(n));
      } else if name == "factorial" {
        assert r.value == IntToString(Algo.Factorial(n));
      } else if name == "reverse" {
        assert r.value == IntToString(Algo.Reverse(n));
      } else {
        assert name == "primeChecker";
        assert r.value == BoolToString(Algo.PrimeCheckerAsWritten(n));
      }
    } else {
      assert r == Err(NumberFormat(Trim(a)));
    }
  }

  /** The other public methods of `Algorithms` are not reachable from a line:
      their calls are unknown commands. */
  lemma UnlistedBuiltinUnknown(st: Store, name: string, rest: string, fuel: nat)
    requires name in {"palindromeChecker", "largestDigit", "sumOfDigits", "multiplicationTable", "fibonacciPos"}
    ensures ProcessCommand(st, name + "(" + rest, fuel) == Run(st, [Out("Error: Unknown command.")], Done)
  {
    var input := name + "(" + rest;
    assert input[..|name|] == name;
    UnlistedIsUnknown(input, name);
    UnknownLine(st, input, fuel);
  }

  lemma UnlistedIsUnknown(input: string, name: string)
    requires name in {"palindromeChecker", "largestDigit", "sumOfDigits", "multiplicationTable", "fibonacciPos"}
    requires |input| > |name| && input[..|name|] == name
    ensures Classify(input) == UnknownCommand
  {
    assert input[0] == name[0] && input[1] == name[1] && input[5] == name[5];
    NotPrefix(input, "if", 0);
    NotPrefix(input, "while", 0);
    NotPrefix(input, "var ", 0);
    NotPrefix(input, "gcd(", 0);
    NotPrefix(input, "reverse(", 0);
    NotPrefix(input, "print(", if name[0] == 'p' then 1 else 0);
    NotPrefix(input, "primeChecker(", if name[0] == 'p' then 1 else 0);
    NotPrefix(input, "factorial(", if name[0] == 'f' then 1 else 0);
    NotPrefix(input, "sumOfNumbers(", if name[0] == 's' then 5 else 0);
  }

  /** Text that differs from `p` at a position inside both does not start with `p`. */
  lemma NotPrefix(s: string, p: string, i: int)
    requires 0 <= i < |p| && i < |s| && s[i] != p[i]
    ensures !StartsWith(s, p)
  {
    assert |p| > |s| || s[..|p|][i] != p[i];
  }

  /** A printed `int` has no parenthesis and no comma, and trims to itself. */
  lemma PrintedArgument(n: i32)
    ensures NoCharOf(IntToString(n), "(),") && Trim(IntToString(n)) == IntToString(n)
    ensures ParseInt(Trim(IntToString(n))) == Ok(n)
  {
    var a := IntToString(n);
    forall i, j | 0 <= i < |a| && 0 <= j < |"(),"| ensures a[i] != "(),"[j] {
      LiteralCharacters(a, i);
    }
    TrimLiteral(a);
    ParseIntToString(n);
  }

  /** A `sumOfNumbers` line with a printed `int` prints what the code as written computes. */
  lemma SumOfNumbersLine(n: i32)
    ensures ProcessAlgorithm("sumOfNumbers" + "(" + IntToString(n) + ")") ==
              IntToString(Algo.SumOfNumbersAsWritten(n))
  {
    PrintedArgument(n);
    OneArgumentCall("sumOfNumbers", IntToString(n));
  }

  /** A `primeChecker` line with a printed `int` prints what the code as written answers. */
  lemma PrimeCheckerLine(n: i32)
    ensures ProcessAlgorithm("primeChecker" + "(" + IntToString(n) + ")") ==
              BoolToString(Algo.PrimeCheckerAsWritten(n))
  {
    PrintedArgument(n);
    OneArgumentCall("primeChecker", IntToString(n));
  }

  /** The line `sumOfNumbers(46341)` prints -1073716337: the dispatcher runs
      the code as written, whose product overflows. */
  lemma SumOfNumbersLineOverflows()
    ensures ProcessAlgorithm("sumOfNumbers" + "(" + IntToString(46341) + ")") == IntToString(-1073716337)
  {
    SumOfNumbersLine(46341);
    Algo.SumOfNumbersOverflowExample();
  }

  /** The line `primeChecker(2147483647)` prints false, although 2^31 - 1 is prime. */
  lemma PrimeCheckerLineAtMax()
    ensures ProcessAlgorithm("primeChecker" + "(" + IntToString(MAX_VALUE) + ")") == "false"
  {
    PrimeCheckerLine(MAX_VALUE);
    Algo.PrimeCheckerAsWrittenAtMax();
  }

  // The read loop

  /** A line that trims to nothing is skipped. */
  lemma BlankLineSkipped(st: Store, line: string, rest: seq<string>, fuel: nat)
    requires Trim(line) == []
    ensures Session(st, [line] + rest, fuel) == Session(st, rest, fuel)
  {
    assert ([line] + rest)[1..] == rest;
  }

  /** `exit`, however padded, ends the session: nothing after it runs. */
  lemma ExitEndsSession(st: Store, line: string, rest: seq<string>, fuel: nat)
    requires Trim(line) == "exit"
    ensures Session(st, [line] + rest, fuel) == Run(st, [Exit], Done)
  {
    assert Classify("exit") == ExitCommand;
  }

  /** A line that raises leaves what it did so far, is reported as
      `Error: <message>`, and the session goes on with the next line. */
  lemma ErrorReported(st: Store, line: string, rest: seq<string>, fuel: nat)
    requires Trim(line) != [] && ProcessCommand(st, Trim(line), fuel).status.Failed?
    ensures var r := ProcessCommand(st, Trim(line), fuel);
            var tail := Session(r.store, rest, fuel);
            Session(st, [line] + rest, fuel) ==
              Run(tail.store, r.events + [Out("Error: " + Message(r.status.error))] + tail.events, tail.status)
  {
    var r := ProcessCommand(st, Trim(line), fuel);
    var first := RunLine(st, line, fuel);
    assert first.events == r.events + [Out("Error: " + Message(r.status.error))];
    assert Exit !in first.events;
    assert ([line] + rest)[1..] == rest;
  }

  /** Two batches of lines run one after the other when the first ends
      normally without `exit`. */
  lemma {:induction false} SessionConcat(st: Store, a: seq<string>, b: seq<string>, fuel: nat)
    requires Session(st, a, fuel).status.Done? && Exit !in Session(st, a, fuel).events
    ensures var first := Session(st, a, fuel);
            var second := Session(first.store, b, fuel);
            Session(st, a + b, fuel) == Run(second.store, first.events + second.events, second.status)
    decreases |a|
  {
    if a == [] {
      assert a + b == b;
    } else {
      var line := RunLine(st, a[0], fuel);
      var tail := a[1..];
      var ab := a + b;
      var rest := Session(line.store, tail, fuel);
      SessionHead(st, a, fuel);
      SessionConcatStep(a, b, tail);
      SessionUnfold(st, ab, fuel);
      SessionConcat(line.store, tail, b, fuel);
      var second := Session(rest.store, b, fuel);
      AppendAssociates(line.events, rest.events, second.events);
    }
  }

  lemma SessionConcatStep(a: seq<string>, b: seq<string>, tail: seq<string>)
    requires a != [] && tail == a[1..]
    ensures (a + b)[0] == a[0] && (a + b)[1..] == tail + b
  {
  }

  /** A session that ended normally without `exit` got past its first line. */
  lemma SessionHead(st: Store, lines: seq<string>, fuel: nat)
    requires lines != [] && Session(st, lines, fuel).status.Done? && Exit !in Session(st, lines, fuel).events
    ensures var line := RunLine(st, lines[0], fuel);
            var rest := Session(line.store, lines[1..], fuel);
            && !line.status.OutOfFuel? && Exit !in line.events
            && rest.status.Done? && Exit !in rest.events
            && Session(st, lines, fuel) == Run(rest.store, line.events + rest.events, rest.status)
  {
  }

  /** The first line of a session, when it neither runs out of fuel nor exits. */
  lemma SessionUnfold(st: Store, lines: seq<string>, fuel: nat)
    requires lines != []
    requires !RunLine(st, lines[0], fuel).status.OutOfFuel? && Exit !in RunLine(st, lines[0], fuel).events
    ensures var line := RunLine(st, lines[0], fuel);
            var rest := Session(line.store, lines[1..], fuel);
            Session(st, lines, fuel) == Run(rest.store, line.events + rest.events, rest.status)
  {
  }

  lemma AppendAssociates<T>(x: seq<T>, y: seq<T>, z: seq<T>)
    ensures x + (y + z) == x + y + z
  {
  }
}

=== FILE: variable_storage.dfy ===
/** The interpreter's variables: a map from names to values.

    A write validates the name before it touches the map, so a rejected
    write leaves every binding as it was.
 */
module VariableStorage {
  import opened Errors
  import opened JavaInt

  /** What a variable can hold: an Integer or a String. */
  datatype Value = IntV(n: i32) | StrV(s: string)

  type Store = map<string, Value>

  predicate IsAsciiLetter(c: char) {
    'a' <= c <= 'z' || 'A' <= c <= 'Z'
  }

  predicate IsNameStart(c: char) {
    IsAsciiLetter(c) || c == '_'
  }

  predicate IsNamePart(c: char) {
    IsNameStart(c) || '0' <= c <= '9'
  }

  /** `name.matches("^[a-zA-Z_][a-zA-Z0-9_]*$")`. */
  predicate IsValidName(name: string) {
    && |name| > 0
    && IsNameStart(name[0])
    && forall i :: 1 <= i < |name| ==> IsNamePart(name[i])
  }

  /** Every key of the map passed the name check. */
  predicate ValidStore(st: Store) {
    forall name :: name in st ==> IsValidName(name)
  }

  /** `setVariable(name, value)`: the new map, or InvalidVariableName and no new map. */
  function SetVariable(st: Store, name: string, v: Value): (r: Result<Store>)
    ensures r.Ok? <==> IsValidName(name)
    ensures r.Err? ==> r.error == InvalidVariableName(name)
    ensures r.Ok? ==> name in r.value && r.value[name] == v
    ensures r.Ok? ==> r.value.Keys == st.Keys + {name}
    ensures r.Ok? ==> forall other :: other in st && other != name ==> r.value[other] == st[other]
  {
    if IsValidName(name) then Ok(st[name := v]) else Err(InvalidVariableName(name))
  }

  /** `hasVariable(name)`. */
  predicate HasVariable(st: Store, name: string) {
    name in st
  }

  /** `getVariable(name)`: the bound value, or UndefinedVariable. */
  function GetVariable(st: Store, name: string): (r: Result<Value>)
    ensures r.Ok? <==> HasVariable(st, name)
    ensures r.Ok? ==> r.value == st[name]
    ensures r.Err? ==> r.error == UndefinedVariable(name)
  {
    if name in st then Ok(st[name]) else Err(UndefinedVariable(name))
  }

  /** A successful write is read back unchanged. */
  lemma GetAfterSet(st: Store, name: string, v: Value)
    requires IsValidName(name)
    ensures SetVariable(st, name, v).Ok?
    ensures GetVariable(SetVariable(st, name, v).value, name) == Ok(v)
  {
  }

  /** A second write to the same name replaces the first. */
  lemma LastWriteWins(st: Store, name: string, v1: Value, v2: Value)
    requires IsValidName(name)
    ensures SetVariable(st, name, v1).Ok?
    ensures SetVariable(SetVariable(st, name, v1).value, name, v2) == SetVariable(st, name, v2)
  {
    assert st[name := v1][name := v2] == st[name := v2];
  }

  /** A write leaves the binding of every other name as it was, absent names included. */
  lemma SetLeavesOthers(st: Store, name: string, v: Value, other: string)
    requires other != name
    requires SetVariable(st, name, v).Ok?
    ensures GetVariable(SetVariable(st, name, v).value, other) == GetVariable(st, other)
  {
  }

  /** A name with a space, or one that starts with a digit, is refused. */
  lemma MalformedNamesRefused(st: Store, name: string, v: Value)
    requires ' ' in name || (|name| > 0 && '0' <= name[0] <= '9')
    ensures SetVariable(st, name, v) == Err(InvalidVariableName(name))
  {
    if ' ' in name {
      var i :| 0 <= i < |name| && name[i] == ' ';
      assert !IsNamePart(name[i]) && !IsNameStart(name[i]);
    }
  }

  /** Writes keep the map free of invalid names. */
  lemma SetKeepsStoreValid(st: Store, name: string, v: Value)
    requires ValidStore(st)
    requires SetVariable(st, name, v).Ok?
    ensures ValidStore(SetVariable(st, name, v).value)
  {
  }
}
